=== FILE: README.md ===
# SpeakCheck-AI core, modelled in Dafny

SpeakCheck-AI turns a recorded speech and its slides into practice questions and
feedback. This project models the part of it that decides things:

- the PostgreSQL job queue and question store (`database.py`);
- configuration from the environment and the DSN (`config.py`);
- PDF text extraction by pdfplumber and by OCR (`pdf_to_text.py`, `pdf_ocr.py`);
- the question generator's reply parser and fallback (`question_generator.py`);
- the answer and speech feedback fallbacks and the score reader (`ai_feedback.py`);
- the API helpers and the question endpoint (`api.py`).

Everything is pure functions over immutable data.

- The store is three tables held as values, plus a logical clock `now` that stands for
  `NOW()`. Every row written in one call shares the same stamp.
- The outside world becomes parameters:
  - the language model's reply (`None` when the call raised);
  - what pdfplumber returns for each page;
  - what tesseract returns for each configuration;
  - whether a file exists;
  - the environment as a map;
  - how Python's `str()` renders a list or dict (`show`).

Modules, one per file:

- `Wrappers`: `Option` and `Result`.
- `Seqs`: maps over sequences.
- `Text`: the Python `str` operations the source uses. These are `isspace`, `strip`,
  `split`, `join`, `lower`, `str(int)`, and `int(str)` with the 4300-digit limit.
- `Json`: JSON values and Python truthiness.
- `Store`: `database.py`.
- `StoreInvariant`: the invariant every reachable store keeps, and the queue's
  guarantees.
- `Config`: `config.py`.
- `PdfText`: `pdf_to_text.py`.
- `PdfOcr`: `pdf_ocr.py`.
- `QuestionGenerator`: `question_generator.py`.
- `AiFeedback`: `ai_feedback.py`.
- `Api`: `api.py`.

Behaviour of the code that is easy to misread:

- Generated questions carry `question`, `answer`, `hint` and `type`, never `model_answer`.
  So `_sanitize_generated_questions` always stores a NULL model answer for them.
  `Api.ServeGenerated` states exactly that.
- `store_questions` with entries of which none has a truthy `question` keeps the
  speech's old questions. It does not replace them with nothing, while `upsert_questions`
  does (`StoreInvariant.StoreKeepsUpsertClears`).
- `fetch_next_job` returns a selection of columns, with COALESCE defaults for language,
  difficulty and the feedback flag.
- `extract_text_from_pdf` raises for a missing file and re-raises OCR errors.
- The OCR quality score divides by the characters other than `' '` and `'\n'`, so a tab
  counts.

## Model

| member | source | states |
|---|---|---|
| Store.OldestPending | database.py:276-280 | None exactly when no job is pending; otherwise the position of a pending job whose `created_at` is not later than any other pending job's |
| Store.ClaimNext | database.py:263-298 | with nothing pending the store is unchanged and nothing is returned; otherwise the claimed row becomes processing with its error cleared, and the returned columns apply the `ko`/`medium`/TRUE defaults |
| StoreInvariant.ClaimTakesFirstPending | database.py:263-298 | in a reachable store the claim takes the first pending job of the table, every later pending job is created later, and no other row changes |
| StoreInvariant.ClaimTwiceDistinct | database.py:263-298 | two claims in a row never return the same job |
| Store.CreateJob | database.py:300-326 | appends exactly one pending job with the given source and owner ids, no transcript, no error, no questions, a fresh id; the other tables are untouched |
| Store.MarkCompleted | database.py:735-761 | the job with that id becomes completed with the given transcript, metadata and questions, whatever its status was; every other row is unchanged |
| StoreInvariant.CompletedOverwritesCancelled | database.py:444-452 | a job cancelled by a video replacement still ends up completed when its worker calls `mark_completed` |
| Store.MarkFailed | database.py:763-776 | the job with that id becomes failed with the first min(len, 2000) characters of the message; every other row is unchanged |
| Store.ListLimit | database.py:719 | the page size is the limit clamped into 1..200 |
| Store.ListJobs | database.py:718-733 | min(page size, job count) jobs, the last-inserted first |
| StoreInvariant.ListJobsNewestFirst | database.py:718-733 | in a reachable store the listed jobs have strictly decreasing `created_at` |
| Store.LatestCompleted | database.py:686-701 | None exactly when the speech has no completed job; otherwise a completed job of the speech that no other one follows in (`updated_at`, `id`) order |
| Store.QuestionsOf | database.py:632-646 | exactly the rows of that speech, in table order |
| StoreInvariant.QuestionsOfSorted | database.py:632-646 | a speech's rows come back in non-decreasing `created_at` order |
| Store.Insertable | database.py:544 | exactly the entries whose `question` value is truthy |
| Store.InsertableOne | database.py:544 | one entry is inserted exactly when its `question` is truthy |
| Store.InsertableAppend | database.py:543-544 | the inserted entries of two lists are those of the first followed by those of the second, so insertion keeps entry order and inserts each kept entry once |
| Store.InsertableAll | database.py:615-616 | when every entry has a truthy question, all of them are inserted |
| Store.StoreQuestions | database.py:528-575 | without an insertable entry the store is unchanged; otherwise the speech's rows become exactly the insertable entries' rows in order with fresh ids; other speeches' rows, jobs and speeches are unchanged |
| Store.UpsertQuestions | database.py:577-630 | with no entries nothing changes and nothing is returned; otherwise the speech's rows are deleted and replaced by the insertable entries' rows (question, answer, model answer, improvement tips and score from the entry; no user answer or feedback), and those rows are returned; other speeches keep theirs |
| StoreInvariant.StoreKeepsUpsertClears | database.py:528-618 | entries that hold no truthy question leave the speech's questions under `store_questions` but delete them under `upsert_questions` |
| Store.UpdateQuestionFeedback | database.py:663-684 | the row with that id gets the user answer and the feedback, and the score only when one is given (COALESCE); every other column and every other row is unchanged |
| Store.CreateSpeech | database.py:400-426 | one new speech under a fresh id with the given stage, title and sources and a NULL `speech_name`; nothing else changes |
| StoreInvariant.CreateSpeechFresh | database.py:400-426 | the new speech's id is not taken in a reachable store |
| Store.UpdateSpeechVideo | database.py:428-467 | deletes only that speech's questions, cancels only its pending and processing jobs, and sets its title and video source and a NULL `speech_name`; returns the speech exactly when it exists |
| StoreInvariant.ReplacedNoneInFlight | database.py:444-452 | after a video replacement none of the speech's jobs is pending or processing |
| StoreInvariant.ReplacedVideoOnlyNewJobClaimed | database.py:263-298 | after a video replacement and one new job, a claim that returns a job of that speech returns the new job |
| Store.UpdateSpeechDocument | database.py:469-498 | deletes only that speech's questions and sets its title and document URL; jobs and `speech_name` are untouched |
| Store.SpeechName | database.py:506-513 | None exactly when transcript and document are both blank; otherwise the first 255 characters of the stripped non-blank parts joined by a blank line |
| Store.UpdateSpeechAfterTranscription | database.py:500-526 | only that speech's `speech_name` changes, to the name above |
| Store.DeleteSpeech | database.py:374-398 | the speech, its questions and its jobs are gone; every other speech, question and job remains, no job is added, and apart from the clock's tick nothing else changes |
| StoreInvariant.ApplyValid | database.py:263-776 | every store operation keeps the invariant: ids and creation stamps increase along each table, ids stay below their sources, stamps lie in the past |
| StoreInvariant.ReachableValid | database.py:263-776 | every store reached from the empty one by any sequence of operations satisfies the invariant |
| Config.GetEnv | config.py:54 | the variable's value when set, the default otherwise |
| Config.Missing | config.py:37-48 | exactly the names whose variable is unset or empty, in order |
| Config.NoneMissing | config.py:50-52 | nothing is missing exactly when all six required variables are set and non-empty |
| Config.IntSetting | config.py:55-63 | Ok exactly when the value (or the default) is an `int()` numeral over ASCII digits, with that value; otherwise the ValueError for that text |
| Config.FromEnv | config.py:24-79 | the checks in source order: missing required variables (all named), then POSTGRES_PORT's `int()`, then AWS_BUCKET, then JOB_BATCH_SIZE's `int()`; Ok exactly when every check passes, with each field taken from its variable or default |
| Config.EmptyEnvironment | config.py:50-52 | an empty environment reports all six required names |
| Config.UnsetOptionalDefaults | config.py:54-63 | with the required variables and the bucket set and no optional variable, the settings are host `localhost`, port 5432, region `ap-northeast-2`, `downloads`, `audio` and batch size 1 |
| Config.PostgresDsnRoundTrip | config.py:81-86 | for a user without `:` or `@`, a password without `@` and a host without `:` or `/`, the DSN parses back into the user, password, host, port and database it was built from |
| Text.IntToStringRoundTrip | config.py:84-85 | `int(str(i))` is `i` for every integer within the digit limit |
| Text.StripIdempotent | pdf_to_text.py:105 | stripping a stripped text changes nothing |
| PdfText.CleanText | pdf_to_text.py:95-109 | empty exactly for blank input; otherwise its lines are the input's lines stripped with the empty ones dropped, none empty or edged by whitespace |
| PdfText.CleanTextIdempotent | pdf_to_text.py:95-109 | cleaning a cleaned text changes nothing |
| PdfText.PageEntry | pdf_to_text.py:24-47 | a read page's entry holds the raw text, its cleaning, and the cleaned text's length and word count; a failed page's entry has zero counts and an empty raw text |
| PdfText.Aggregate | pdf_to_text.py:24-47 | one entry per page numbered from 1; `full_text` is the concatenation of each read page's cleaned text plus a blank line |
| PdfText.FullTextLength | pdf_to_text.py:38-81 | the full text's length is the sum over read pages of cleaned length plus two |
| PdfText.ExtractWithPdfplumber | pdf_to_text.py:11-59 | an opened document gives success, its page count, the aggregated entries and text; an open failure gives the fixed failure shape with the message |
| PdfText.ExtractText | pdf_to_text.py:61-93 | a missing file short-circuits with its message; an extraction failure is passed through; otherwise the totals are the full text's length and word count |
| PdfOcr.Score | pdf_ocr.py:94-99 | None exactly when nothing is counted; otherwise a ratio in [0, 1] that is positive exactly when there is a Hangul syllable or an ASCII letter |
| PdfOcr.BestAttempt | pdf_ocr.py:86-104 | the chosen attempt satisfies the best-choice property: a scored attempt with a positive score, strictly above every earlier one and not below any later one, or none when no attempt scores above 0 |
| PdfOcr.BestChoiceUnique | pdf_ocr.py:86-104 | at most one choice has the best-choice property |
| PdfOcr.PageText | pdf_ocr.py:106-107 | the best attempt's text when there is one, otherwise the unconfigured call's result |
| PdfOcr.RawTexts | pdf_ocr.py:72-107 | the pages' texts when every page yields one; otherwise the first page whose OCR raised |
| PdfOcr.OcrEntry | pdf_ocr.py:109-119 | the page entry holds the raw text, its cleaning, and the cleaned length and word count |
| PdfOcr.OcrFullTextPages | pdf_ocr.py:121-122 | the full text is the concatenation of each page's cleaned text plus a blank line |
| PdfOcr.ExtractTextFromPdf | pdf_ocr.py:35-139 | a missing file and a failed conversion are errors; otherwise one entry per page, the full text as above, and the totals are the full text's length and word count |
| QuestionGenerator.Blocks | question_generator.py:94 | the blocks rejoin with newlines into the input, every block after the first starts with a number, a dot, optional whitespace and the question marker, and no break is missed |
| QuestionGenerator.ClassifyCases | question_generator.py:103-116 | a line is a question line exactly when it starts with one of `1.`..`9.` and holds the question marker; otherwise the answer, hint and type markers are tried in order; each value is the stripped text after its marker |
| QuestionGenerator.TenthQuestionNotRecognised | question_generator.py:108 | a block numbered 10 is split off but its question line is not recognised |
| QuestionGenerator.Gather | question_generator.py:103-116 | each field holds the value of the last line of its kind |
| QuestionGenerator.ParseQuestions | question_generator.py:86-131 | every returned question comes from a non-blank block and has a non-empty question, and every non-blank block with a non-empty question is returned; order and multiplicity follow from `KeepAskedOne` and `KeepAskedAppend` |
| QuestionGenerator.KeepAskedOne | question_generator.py:96-129 | one block gives its entry, or nothing when it is blank or has no question |
| QuestionGenerator.KeepAskedAppend | question_generator.py:96-129 | the entries of two runs of blocks are those of the first run followed by those of the second, so the result is in block order with one entry per kept block |
| QuestionGenerator.FallbackQuestions | question_generator.py:133-158 | exactly the entries for sentences among the first `n` that have at least 10 characters |
| QuestionGenerator.FallbackMonotone | question_generator.py:141 | asking for more questions only extends the fallback list |
| QuestionGenerator.FallbackEntry | question_generator.py:146-156 | the question quotes the first 50 characters after the fixed lead, the answer is the sentence, and the hint and type are the fixed ones |
| QuestionGenerator.DifficultyGuide | question_generator.py:55-65 | a guide exactly for `easy`, `medium` and `hard`; None, the `KeyError`, for any other difficulty |
| QuestionGenerator.GenerateQuestions | question_generator.py:22-65 | a failed call or an unknown difficulty gives the fallback; otherwise the parsed reply, even when empty |
| AiFeedback.SplitLines | ai_feedback.py:109 | at least one line, and no line holds a line-break character; `SplitLinesRejoin` adds that the lines cover the text in order |
| AiFeedback.SplitLinesRejoin | ai_feedback.py:109 | the lines rejoined with newlines give the text back, each line break turned into a newline |
| AiFeedback.SplitLinesOfJoin | ai_feedback.py:109 | lines without breaks joined by newlines split back into the same lines |
| AiFeedback.LineScore | ai_feedback.py:110-116 | for a line mentioning the score: all-ASCII digits of at most 4300 give their value clamped to 0..100; a digit character that is not decimal (superscript, circled, dingbat), or more than 4300 digits, gives None |
| AiFeedback.ScoreIn | ai_feedback.py:108-117 | the result is decided by the first line that mentions the score and holds an ASCII or non-decimal digit; None when no line does |
| AiFeedback.ExtractScore | ai_feedback.py:108-117 | a score lies in 0..100; without a deciding line the result is None |
| AiFeedback.Tokens | ai_feedback.py:126-131 | exactly the words of the lowered text longer than one character |
| AiFeedback.OverlapScore | ai_feedback.py:132-137 | in 0..100; with ideal tokens it is 100 exactly when they are all in the answer and 0 when none is; without, ten per answer token up to 100 |
| AiFeedback.FallbackScore | ai_feedback.py:124-137 | 100 exactly when the answer holds every ideal token; 0 when it holds none; when the ideal answer is absent or has no tokens, ten points per distinct answer token up to 100 |
| AiFeedback.BlankAnswerScore | ai_feedback.py:129-137 | a blank answer scores 0 |
| AiFeedback.FallbackAnswerFeedback | ai_feedback.py:120-166 | the score is the fallback score, and the feedback is exactly three lines: the score line, the strength for the score band, the first area to improve or the default |
| AiFeedback.FallbackScoreReadBack | ai_feedback.py:108-166 | reading the score back out of the fallback feedback gives the fallback's own score |
| AiFeedback.GenerateAnswerFeedback | ai_feedback.py:44-54 | a reply is stripped and its score read by the score reader; a failed call gives the fallback |
| AiFeedback.FallbackSpeechFeedback | ai_feedback.py:169-196 | pace is 60 or 75 and content 65 or 80, switching at 200 transcript words; visuals is 55 or 70, switching at 80 document words; the other scores are 60; the three lines switch at 200 and 100 words |
| AiFeedback.FallbackSpeechMonotone | ai_feedback.py:169-196 | more transcript or document words never lower a fallback score, and the transcript alone never moves the visuals score |
| Api.Authorize | api.py:159-169 | a missing or empty header, or one not starting case-insensitively with `bearer `, is 401; otherwise the stripped text after the first space |
| Api.BearerRoundTrip | api.py:163-169 | a `Bearer` header of any case with a clean token yields that token |
| Api.SpeechTitle | api.py:276-280 | the stripped title, or `Untitled Speech` when it is missing or blank; never empty |
| Api.SpeechTitleIdempotent | api.py:276-280 | deriving the title of a derived title changes nothing |
| Api.CleanUrlIdempotent | api.py:189 | cleaning the URL as `urlsplit` does is idempotent and does not change the parsed path |
| Api.UnsafeIgnored | api.py:189 | a tab, carriage return or line feed anywhere in the URL does not change the parsed path |
| Api.LeadingControlIgnored | api.py:189 | a leading control character or space does not change the parsed path |
| Api.UrlPath | api.py:189-191 | a parsed path holds no `?` or `#` (query and fragment are cut off); `HttpsBrackets` and `OpenBracketRaises` pin when it is None |
| Api.HttpsBrackets | api.py:189 | an `https` URL fails to parse exactly when its host has an unbalanced bracket (the bracketed-host address check is not modelled; see Left out) |
| Api.DeriveTitle | api.py:185-201 | a provided non-empty title is kept; otherwise a failure exactly when `urlparse` raises, else a non-empty title: the stripped path stem, the stripped source stem for a source without `://`, or `Untitled Speech` |
| Api.TitleFromPathStem | api.py:192-201 | without a provided title, a clean non-empty path stem is the title |
| Api.TitleFromUrl | api.py:185-201 | `https://host/name.ext` is titled `name` |
| Api.TitleOfBareHost | api.py:195-201 | a URL with a host and no path is titled `Untitled Speech` |
| Api.TitleOfSchemeRelative | api.py:185-201 | a scheme-relative source such as `//cdn.example.com` has an empty path and no `://`, so its title is the title rule applied to the stem of the whole source |
| Api.OpenBracketRaises | api.py:189 | an unclosed `[` in the host makes the derivation raise |
| Api.ExtractDocumentText | api.py:216-233 | the document's `full_text` when it is a non-blank string, else the details' `full_text` under the same test, else empty |
| Api.ModelAnswer | api.py:246 | NULL for a falsy value or a blank string; the stripped string otherwise; a raise for a truthy non-string |
| Api.Sanitize | api.py:236-251 | fails exactly when some entry raises, at the first such entry; otherwise keeps the entries with a non-empty stripped question, each sanitised |
| Api.SanitizeIdempotent | api.py:236-251 | sanitising a sanitised list returns it unchanged |
| Api.SanitizeGenerated | api.py:328 | generated questions are all kept, each as its question with NULL answer, model answer and tips |
| Api.CombinedText | api.py:315-322 | None exactly when both parts are blank; otherwise the non-blank parts joined by a blank line, transcript first |
| Api.QuestionsForSpeech | api.py:296-333 | an unknown speech is 404; existing questions are returned unchanged; otherwise the latest completed job's stored list or the generated questions replace the speech's rows and are returned; errors are 404 or the 500 of a broken stored list |
| Api.ServeGenerated | api.py:328-333 | generated questions are stored and returned one row each, in order, exactly when there is at least one; otherwise 404 |
| Api.StoredQuestionsServed | api.py:310-313 | a stored list of objects is served as the rows of its entries with a truthy question |
| Api.GeneratedQuestionsServed | api.py:315-333 | with no stored list, nothing to generate from is 404, and otherwise the generated questions are served |

## Left out

- Persistence, transactions and `FOR UPDATE SKIP LOCKED`: the store is a value and each
  call is atomic. Concurrent workers are not modelled.
- Store ids: speech and question ids are UUIDs from `gen_random_uuid()` in the source;
  here they are counters, so "fresh" stands for "unique".
- The web layer: routing, response models, JWT decoding and stage ownership checks.
  `Api.Authorize` stops before the token is decoded.
- The language model, pdfplumber, tesseract, pdf2image and OpenCV preprocessing: their
  results are parameters.
- Prompts, printing, `save_results`, `display_results` and `main`: they have no effect
  on the results.
- `main.py`, `ocr.py`, `pdf_question_generator.py` and `load_dotenv` are not part of this
  model.
- `generate_speech_feedback`'s successful path parses model JSON. Only the fallback is
  modelled.
- The 503 branch of `get_questions_for_speech` is not modelled: `generate_questions`
  never raises.
- PdfOcr.BestAttempt: scores are exact rationals, not Python floats. Two different
  ratios that round to the same float would make the source keep the earlier attempt.
- AiFeedback.FallbackScore: the score is `floor(100 * overlap / ideal)` on integers. Python
  computes `int(len(overlap) / len(ideal) * 100)` in floating point, which can be one
  lower (29 of 100 tokens gives 28 in Python and 29 here). Only the 0, 100 and no-ideal cases are promised
  exactly. The tokens are also lowered ASCII-only, as for `AiFeedback.Tokens`.
- AiFeedback.Tokens: lowering is ASCII-only (`Text.Lower`). Python's `str.lower` also
  maps other letters, such as `É` to `é`, so a token such as `Été` differs from Python's.
- AiFeedback.FallbackAnswerFeedback: lowering is ASCII-only (`Text.Lower`). Python's
  `str.lower` also maps other letters, such as `É` to `é`, and `İ` to two characters.
  Tokens that differ only in non-ASCII case therefore do not match, and their lengths
  may differ from Python's.
- AiFeedback.ExtractScore: the score reader knows ASCII digits and the BMP characters
  that are digits but not decimal (superscripts, subscripts, circled and dingbat digits),
  which Python's `int()` rejects. Other decimal digits, such as fullwidth `８５`, are not
  treated as digits, although Python reads them by value. Supplementary-plane digit
  characters are not listed either.
- AiFeedback.LineScore: the same digit gap. A line whose only digits are fullwidth is
  skipped here, whereas Python reads its value.
- AiFeedback.ScoreIn: the same digit gap, so a fullwidth-only line does not decide.
- AiFeedback.SplitLines: `"\r\n"` is split as two breaks, and a trailing break yields an
  empty last line, whereas Python's `splitlines` merges the pair and drops the last
  line. The extra lines hold no digit, so the score reader's result is the same.
- Text.ParseInt: `int()` reads ASCII digits only. Python also reads any Unicode decimal
  digit, so `Config.FromEnv` reports `InvalidInteger` for a port such as `５４３２` that
  Python accepts.
- Config.FromEnv: inherits the ASCII-only `int()` above.
- Config.IntSetting: inherits the ASCII-only `int()` above; its "exactly when `int()`
  accepts" holds for ASCII text only.
- QuestionGenerator.Blocks: the `\d` of the block split matches ASCII digits only. Python's
  `re` also matches other Unicode decimal digits there.
- Api.DeriveTitle: `urlparse` is modelled as CPython 3.12 `urlsplit`. The model does not
  include the bracketed-host IP-address check (`_check_bracketed_netloc`) or the NFKC
  netloc check, so a host such as `[x]` parses here where Python may raise.
- Api.HttpsBrackets: the same gap. Python 3.12 also raises for balanced brackets around
  something that is not an IPv6 or IPvFuture address, such as `https://[x]/a.mp4`.
- Api.TitleFromPathStem: the same gap. The title is also promised for a host that
  Python rejects after NFKC normalisation, such as one holding U+2100.
- Api.TitleFromUrl: the same NFKC gap as `Api.TitleFromPathStem`.
- Api.TitleOfBareHost: the same NFKC gap as `Api.TitleFromPathStem`.
- Api.TitleOfSchemeRelative: the same NFKC gap as `Api.TitleFromPathStem`.
- Store.StoreQuestions: `question` and `answer` are `VARCHAR(255)` columns. A longer
  value, or a value the driver cannot adapt (such as a dict), makes the insert raise;
  the model stores it. The `speech_id` foreign key (database.py:124) also makes the
  insert raise for a speech that does not exist; the model inserts the rows. JSON
  numbers here are integers only, so a float `score`, which the `INT` column rounds, is
  not modelled.
- Store.UpsertQuestions: the same insert limit, foreign key and integer-only score
  apply as for `Store.StoreQuestions`. Also, the rows are returned
  `ORDER BY created_at`, but one batch shares a single stamp, so their order within the
  batch is unspecified in the source. The model returns them in insertion order.
- Store.QuestionsOf: rows of one batch share `created_at`, so the source's order among
  them is unspecified; the model lists them in insertion order.
- Store.CreateSpeech: `title` is `VARCHAR(255)`. A longer title raises in the source and
  is stored here. Stages are not modelled, so the `stage_id` foreign key (database.py:68),
  which makes the insert raise for an unknown stage, is not checked.
- Store.UpdateSpeechVideo: `title` is `VARCHAR(255)`. A longer title raises in the source
  and is stored here.
- Store.UpdateSpeechDocument: `title` is `VARCHAR(255)`. A longer title raises in the
  source and is stored here.
- Store.CreateJob: users and stages are not modelled, and the speech is not looked up.
  The foreign keys on `user_id`, `stage_id` and `speech_id` (database.py:212-248) make the
  insert raise for an unknown user, stage or speech; the model appends the job. The API
  callers look up the speech and stage first.
- Api.ModelAnswer: JSON numbers are integers only. A float `model_answer` behaves as an
  integer of the same truthiness does: `0.0` gives NULL and any other float raises, but
  no float value is modelled.
- Api.QuestionsForSpeech: its errors are 404 or the 500 of a stored list holding a
  non-object. A stored or generated question or answer over 255 characters also makes
  `upsert_questions` raise (a 500), which is not modelled. A fallback answer is a whole
  sentence, so this can happen.
- Api.ServeGenerated: Ok exactly when there is a generated question, assuming every
  question fits `VARCHAR(255)`; a longer one raises in the source. The row order
  within the batch is insertion order, as for `Store.UpsertQuestions`.
- Api.StoreAsked: states the rows in entry order, which the source does not guarantee
  within one batch (see `Store.UpsertQuestions`).

=== FILE: ai_feedback.dfy ===
/** ai_feedback.py: reading the score out of the model's feedback text, and the rule-based
    feedback used when the model cannot be used. The model is an oracle: its reply arrives
    as a parameter, `None` when creating the model, calling it or reading the text raised. */
module AiFeedback {
  import opened Wrappers
  import Text

  // ---------------------------------------------------------------------------
  // Lines and digits

  /** The characters `str.splitlines` breaks lines at. */
  predicate IsLineBreak(c: char) {
    || ('\n' <= c <= '\r')
    || ('\U{1C}' <= c <= '\U{1E}')
    || c == '\U{85}'
    || c == '\U{2028}'
    || c == '\U{2029}'
  }

  predicate NoLineBreak(s: string) {
    forall i | 0 <= i < |s| :: !IsLineBreak(s[i])
  }

  /** Where the first line of `s` ends: its first line break, or `|s|`. */
  function LineEnd(s: string): (k: nat)
    ensures k <= |s|
    ensures k < |s| ==> IsLineBreak(s[k])
    ensures NoLineBreak(s[..k])
    decreases |s|
  {
    if |s| == 0 || IsLineBreak(s[0]) then 0
    else
      var k := 1 + LineEnd(s[1..]);
      assert s[..k] == [s[0]] + s[1..][..k - 1];
      k
  }

  /** The lines of `s`, cut at every line-break character. */
  function SplitLines(s: string): (r: seq<string>)
    ensures |r| >= 1
    ensures forall l | l in r :: NoLineBreak(l)
    decreases |s|
  {
    var k := LineEnd(s);
    if k == |s| then
      assert s == s[..k];
      [s]
    else [s[..k]] + SplitLines(s[k + 1..])
  }

  /** A text whose first line is `line` splits into `line` and the lines of the rest. */
  lemma FirstLine(line: string, c: char, rest: string)
    requires NoLineBreak(line) && IsLineBreak(c)
    ensures SplitLines(line + [c] + rest) == [line] + SplitLines(rest)
  {
    var s := line + [c] + rest;
    assert LineEnd(s) == |line| by {
      LineEndAt(s, |line|);
    }
    assert s[..|line|] == line && s[|line| + 1..] == rest;
  }

  lemma {:induction false} LineEndAt(s: string, k: nat)
    requires k < |s| && IsLineBreak(s[k]) && forall i | 0 <= i < k :: !IsLineBreak(s[i])
    ensures LineEnd(s) == k
    decreases k
  {
    if k > 0 {
      LineEndAt(s[1..], k - 1);
    }
  }

  /** `s` with every line-break character written as `'\n'`. */
  function Newlines(s: string): (r: string)
    ensures |r| == |s|
  {
    seq(|s|, i requires 0 <= i < |s| => if IsLineBreak(s[i]) then '\n' else s[i])
  }

  /** Joining the lines with `'\n'` gives back the text, each line break as `'\n'`. */
  lemma {:induction false} SplitLinesRejoin(s: string)
    ensures Text.Join(SplitLines(s), "\n") == Newlines(s)
    decreases |s|
  {
    var k := LineEnd(s);
    if k == |s| {
      assert s == s[..k];
      assert Newlines(s) == s;
    } else {
      var rest := s[k + 1..];
      SplitLinesRejoin(rest);
      JoinFirst(s[..k], SplitLines(rest));
      NewlinesAt(s, k);
    }
  }

  lemma JoinFirst(line: string, rest: seq<string>)
    requires |rest| >= 1
    ensures Text.Join([line] + rest, "\n") == line + "\n" + Text.Join(rest, "\n")
  {
    assert ([line] + rest)[1..] == rest;
  }

  lemma NewlinesAt(s: string, k: nat)
    requires k < |s| && IsLineBreak(s[k]) && NoLineBreak(s[..k])
    ensures Newlines(s) == s[..k] + "\n" + Newlines(s[k + 1..])
  {
    assert forall i | 0 <= i < k :: s[..k][i] == s[i];
  }

  /** Splitting lines joined by `'\n'` gives back the lines. */
  lemma {:induction false} SplitLinesOfJoin(lines: seq<string>)
    requires |lines| >= 1 && forall i | 0 <= i < |lines| :: NoLineBreak(lines[i])
    ensures SplitLines(Text.Join(lines, "\n")) == lines
    decreases |lines|
  {
    if |lines| == 1 {
      assert LineEnd(lines[0]) == |lines[0]|;
      assert lines[0][..|lines[0]|] == lines[0];
    } else {
      SplitLinesOfJoin(lines[1..]);
      assert Text.Join(lines, "\n") == lines[0] + ['\n'] + Text.Join(lines[1..], "\n");
      FirstLine(lines[0], '\n', Text.Join(lines[1..], "\n"));
      assert lines == [lines[0]] + lines[1..];
    }
  }

  /** Digits `int()` does not accept although `str.isdigit` reports them (Unicode numeric
      type Digit) in the Basic Multilingual Plane: the superscript and subscript digits, the
      Ethiopic digits, the New Tai Lue digit one, and the circled, parenthesized,
      full-stop and dingbat digits. */
  predicate IsNonDecimalDigit(c: char) {
    || c == '\U{B2}' || c == '\U{B3}' || c == '\U{B9}'
    || ('\U{1369}' <= c <= '\U{1371}') || c == '\U{19DA}'
    || c == '\U{2070}' || ('\U{2074}' <= c <= '\U{2079}')
    || ('\U{2080}' <= c <= '\U{2089}')
    || ('\U{2460}' <= c <= '\U{2468}')
    || ('\U{2474}' <= c <= '\U{247C}')
    || ('\U{2488}' <= c <= '\U{2490}')
    || c == '\U{24EA}' || ('\U{24F5}' <= c <= '\U{24FD}') || c == '\U{24FF}'
    || ('\U{2776}' <= c <= '\U{277E}')
    || ('\U{2780}' <= c <= '\U{2788}')
    || ('\U{278A}' <= c <= '\U{2792}')
  }

  /** `str.isdigit` for one character, on the characters this model knows: the ASCII
      digits and the digits above. Other decimal digits (such as the fullwidth ones) are
      not treated as digits here. */
  predicate IsDigit(c: char) {
    c <= LastDigit && (Text.IsAsciiDigit(c) || IsNonDecimalDigit(c))
  }

  /** No character above this one is a digit here. */
  const LastDigit := '\U{2792}'

  /** The digit characters of `s`, in order, everything else dropped. */
  function DigitsOf(s: string): (r: string)
    ensures |r| <= |s|
    ensures forall i | 0 <= i < |r| :: IsDigit(r[i])
    ensures r == "" <==> forall i | 0 <= i < |s| :: !IsDigit(s[i])
    decreases |s|
  {
    if |s| == 0 then ""
    else
      var rest := DigitsOf(s[1..]);
      assert forall i | 1 <= i < |s| :: s[i] == s[1..][i - 1];
      (if IsDigit(s[0]) then [s[0]] else "") + rest
  }

  lemma {:induction false} DigitsOfConcat(a: string, b: string)
    ensures DigitsOf(a + b) == DigitsOf(a) + DigitsOf(b)
    decreases |a|
  {
    if |a| > 0 {
      var head := if IsDigit(a[0]) then [a[0]] else "";
      assert (a + b)[1..] == a[1..] + b;
      assert (a + b)[0] == a[0];
      assert DigitsOf(a + b) == head + DigitsOf(a[1..] + b);
      assert DigitsOf(a) == head + DigitsOf(a[1..]);
      DigitsOfConcat(a[1..], b);
    } else {
      assert a + b == b;
    }
  }

  lemma NoDigits(s: string)
    requires forall c | c in s :: !IsDigit(c)
    ensures DigitsOf(s) == ""
  {
    assert forall i | 0 <= i < |s| :: s[i] in s;
  }

  // ---------------------------------------------------------------------------
  // Reading the score

  const ScoreWord := "점수"

  /** `v` limited to the range 0 to 100. */
  function Clamp(v: int): (r: int)
    ensures 0 <= r <= 100
    ensures 0 <= v <= 100 ==> r == v
    ensures v > 100 ==> r == 100
    ensures v < 0 ==> r == 0
  {
    if v > 100 then 100 else if v < 0 then 0 else v
  }

  /** A line that settles the score: it mentions `점수` and has at least one digit. */
  predicate Decides(line: string) {
    Text.Contains(line, ScoreWord) && DigitsOf(line) != ""
  }

  lemma DigitNotSpace(c: char)
    requires IsDigit(c)
    ensures !Text.IsSpace(c)
  {
  }

  /** The score a deciding line gives: its digits read as one decimal number and clamped,
      or `None` when `int()` rejects them, because one is not a decimal digit or because
      there are more than `Text.MaxStrDigits` of them. */
  function LineScore(line: string): (r: Option<int>)
    requires Decides(line)
    ensures r.Some? ==> 0 <= r.value <= 100
    ensures (forall i | 0 <= i < |DigitsOf(line)| :: Text.IsAsciiDigit(DigitsOf(line)[i])) &&
            |DigitsOf(line)| <= Text.MaxStrDigits ==>
              r == Some(Clamp(Text.DigitsValue(DigitsOf(line))))
    ensures (exists i | 0 <= i < |DigitsOf(line)| :: IsNonDecimalDigit(DigitsOf(line)[i])) ==> r.None?
    ensures |DigitsOf(line)| > Text.MaxStrDigits ==> r.None?
  {
    var digits := DigitsOf(line);
    DecimalDigitsParse(digits);
    NonDecimalDigitsRejected(digits);
    match Text.ParseInt(digits)
    case Some(v) => Some(Clamp(v))
    case None => None
  }

  /** `int()` reads a run of at most `Text.MaxStrDigits` ASCII digits as its decimal value,
      and rejects a longer run. */
  lemma DecimalDigitsParse(digits: string)
    requires digits != "" && forall i | 0 <= i < |digits| :: IsDigit(digits[i])
    ensures (forall i | 0 <= i < |digits| :: Text.IsAsciiDigit(digits[i])) && |digits| <= Text.MaxStrDigits ==>
              Text.ParseInt(digits) == Some(Text.DigitsValue(digits))
    ensures |digits| > Text.MaxStrDigits ==> Text.ParseInt(digits).None?
  {
    DigitRunUnsigned(digits);
    if |digits| > Text.MaxStrDigits {
      Text.LongNumeralRejected(digits);
    } else if forall i | 0 <= i < |digits| :: Text.IsAsciiDigit(digits[i]) {
      Text.NumeralOfDigits(digits);
    }
  }

  /** `int()` raises on any digit that is not a decimal digit. */
  lemma NonDecimalDigitsRejected(digits: string)
    requires digits != "" && forall i | 0 <= i < |digits| :: IsDigit(digits[i])
    ensures (exists i | 0 <= i < |digits| :: IsNonDecimalDigit(digits[i])) ==> Text.ParseInt(digits).None?
  {
    if exists i | 0 <= i < |digits| :: IsNonDecimalDigit(digits[i]) {
      var i :| 0 <= i < |digits| && IsNonDecimalDigit(digits[i]);
      DigitRunUnsigned(digits);
      NonDecimalNotNumeral(digits[i]);
      assert !Text.IsNumeral(digits);
    }
  }

  /** A run of digits has no surrounding whitespace and no sign, so `int()` reads it as a
      bare numeral. */
  lemma DigitRunUnsigned(digits: string)
    requires digits != "" && forall i | 0 <= i < |digits| :: IsDigit(digits[i])
    ensures Text.ParseInt(digits) == Text.NumeralValue(digits)
    ensures forall i | 0 <= i < |digits| :: digits[i] != '_'
  {
    DigitNotSpace(digits[0]);
    DigitNotSpace(digits[|digits| - 1]);
    Text.StripKeepsClean(digits);
    assert digits[0] != '-' && digits[0] != '+';
  }

  lemma NonDecimalNotNumeral(c: char)
    requires IsNonDecimalDigit(c)
    ensures !Text.IsAsciiDigit(c) && c != '_'
  {
  }

  /** Line `k` is the first deciding line. */
  predicate FirstDecidingAt(lines: seq<string>, k: int) {
    0 <= k < |lines| && Decides(lines[k]) && forall j | 0 <= j < k :: !Decides(lines[j])
  }

  /** The loop over the lines: the first deciding line gives the result. */
  function ScoreIn(lines: seq<string>): (r: Option<int>)
    ensures r.Some? ==> 0 <= r.value <= 100
    ensures (forall i | 0 <= i < |lines| :: !Decides(lines[i])) ==> r.None?
    ensures forall k | FirstDecidingAt(lines, k) :: r == LineScore(lines[k])
    decreases |lines|
  {
    if |lines| == 0 then None
    else if Decides(lines[0]) then
      FirstDecidingIsHead(lines);
      LineScore(lines[0])
    else
      FirstDecidingInTail(lines);
      ScoreIn(lines[1..])
  }

  /** When the first line decides, no later line is the first deciding one. */
  lemma FirstDecidingIsHead(lines: seq<string>)
    requires |lines| > 0 && Decides(lines[0])
    ensures forall k | FirstDecidingAt(lines, k) :: k == 0
  {
  }

  /** When the first line does not decide, the first deciding line is the first deciding
      line of the rest, and no line of the rest deciding means none of all does. */
  lemma FirstDecidingInTail(lines: seq<string>)
    requires |lines| > 0 && !Decides(lines[0])
    ensures forall k | FirstDecidingAt(lines, k) :: k >= 1 && FirstDecidingAt(lines[1..], k - 1) && lines[1..][k - 1] == lines[k]
    ensures (forall i | 0 <= i < |lines| - 1 :: !Decides(lines[1..][i])) ==> forall i | 0 <= i < |lines| :: !Decides(lines[i])
  {
    var rest := lines[1..];
    assert forall i | 1 <= i < |lines| :: rest[i - 1] == lines[i];
  }

  /** `_extract_score`. */
  function ExtractScore(text: string): (r: Option<int>)
    ensures r.Some? ==> 0 <= r.value <= 100
    ensures (forall l | l in SplitLines(text) :: !Decides(l)) ==> r.None?
  {
    ScoreIn(SplitLines(text))
  }

  // ---------------------------------------------------------------------------
  // The fallback answer feedback

  /** The distinct lower-cased whitespace-separated tokens of `s` longer than one character. */
  function Tokens(s: string): (r: set<string>)
    ensures forall t | t in r :: |t| > 1 && t in Text.Words(Text.Lower(s))
    ensures forall t | t in Text.Words(Text.Lower(s)) && |t| > 1 :: t in r
  {
    set t | t in Text.Words(Text.Lower(s)) && |t| > 1
  }

  lemma SubsetSize<T>(a: set<T>, b: set<T>)
    requires a <= b
    ensures |a| <= |b|
    ensures |a| == |b| ==> a == b
  {
    assert b == a + (b - a);
    assert a * (b - a) == {};
  }

  /** The fallback score: with ideal tokens, the share of them the answer uses, in whole
      percent rounded down; without, ten points per distinct answer token up to 100. */
  function OverlapScore(ideal: set<string>, user: set<string>): (score: int)
    ensures 0 <= score <= 100
    ensures ideal != {} ==> (score == 100 <==> ideal <= user)
    ensures ideal != {} && ideal * user == {} ==> score == 0
    ensures ideal == {} ==> score == (if 10 * |user| < 100 then 10 * |user| else 100)
  {
    if ideal != {} then
      var o, i := |ideal * user|, |ideal|;
      SubsetSize(ideal * user, ideal);
      assert ideal <= user ==> ideal * user == ideal;
      assert o == i ==> ideal * user == ideal;
      assert o == i <==> ideal <= user;
      var score := (o * 100) / i;
      PercentBounds(o, i);
      score
    else if user != {} then
      if 10 * |user| < 100 then 10 * |user| else 100
    else 0
  }

  /** `o` of `i` in whole percent, rounded down, is at most 100 and is 100 only when
      `o == i`. */
  lemma PercentBounds(o: nat, i: nat)
    requires 0 < i && o <= i
    ensures 0 <= (o * 100) / i <= 100
    ensures (o * 100) / i == 100 <==> o == i
  {
    var q := (o * 100) / i;
    assert q * i <= o * 100 < q * i + i;
    assert o * 100 <= 100 * i;
    CancelFactor(q, 101, i);
    if o < i {
      assert o * 100 <= 100 * i - 100;
      CancelFactor(q, 100, i);
    } else {
      assert o * 100 == 100 * i;
      CancelFactor(99, q, i);
    }
  }

  lemma CancelFactor(a: int, b: int, i: int)
    requires 0 < i
    ensures a * i < b * i ==> a < b
  {
  }

  /** The fallback score of an answer against an optional ideal answer: the token overlap
      score, with no ideal tokens when the ideal answer is absent or empty. */
  function FallbackScore(ideal: Option<string>, user: string): (score: int)
    ensures ideal.Some? && Tokens(ideal.value) != {} ==> (score == 100 <==> Tokens(ideal.value) <= Tokens(user))
    ensures ideal.Some? && Tokens(ideal.value) != {} && Tokens(ideal.value) * Tokens(user) == {} ==> score == 0
    ensures ideal.None? || Tokens(ideal.value) == {} ==> score == (if 10 * |Tokens(user)| < 100 then 10 * |Tokens(user)| else 100)
  {
    var idealTokens := if ideal.Some? && ideal.value != "" then Tokens(ideal.value) else {};
    assert ideal.Some? && ideal.value == "" ==> Tokens(ideal.value) == {};
    OverlapScore(idealTokens, Tokens(user))
  }

  const StrongKeywords := "핵심 키워드를 잘 언급했습니다."
  const FairDirection := "답변의 방향은 파악했습니다."
  const ClarifyTerms := "핵심 용어를 더 명확히 설명해 주세요."
  const RecheckIntent := "질문의 의도를 다시 확인하고 주요 개념을 언급해 주세요."
  const EnterAnswer := "답변을 입력하면 피드백을 받을 수 있습니다."
  const NoStrength := "뚜렷한 강점을 파악하기 어려웠습니다."
  const KeepDirection := "현재 방향을 유지하면서 세부 근거만 보강하면 좋겠습니다."
  const Met := "어느 정도 충족했습니다."
  const NotMet := "충족하지 못했습니다."
  const ScoreOpening := "점수 "
  const ScoreClosing := "점입니다. 질문 의도를 "
  const StrengthOpening := "강점은 "
  const AreaOpening := "보완할 부분은 "

  /** The `strengths` list. */
  function Strengths(score: int): seq<string> {
    if score >= 70 then [StrongKeywords] else if score >= 30 then [FairDirection] else []
  }

  /** The `areas` list, with the note for an empty answer appended last. */
  function Areas(score: int, blankAnswer: bool): seq<string> {
    (if score >= 70 then [] else if score >= 30 then [ClarifyTerms] else [RecheckIntent])
    + (if blankAnswer then [EnterAnswer] else [])
  }

  /** The first sentence. */
  function ScoreLine(score: int): string {
    ScoreOpening + Text.IntToString(score) + ScoreClosing + (if score >= 50 then Met else NotMet)
  }

  /** The strength a score earns, by bucket: from 70, from 30, below. */
  function StrengthFor(score: int): string {
    if score >= 70 then StrongKeywords else if score >= 30 then FairDirection else NoStrength
  }

  /** The improvement a score calls for, by the same buckets. */
  function AreaFor(score: int): string {
    if score >= 70 then KeepDirection else if score >= 30 then ClarifyTerms else RecheckIntent
  }

  /** What `generate_answer_feedback` returns. */
  datatype AnswerFeedback = AnswerFeedback(feedback: string, score: Option<int>)

  /** `_fallback_answer_feedback`: three lines, the score first. The strength and the
      improvement depend on the score's bucket alone; the note for an empty answer is
      appended after the first area and so is never the one shown. */
  function FallbackAnswerFeedback(ideal: Option<string>, user: string): (r: AnswerFeedback)
    ensures r.score.Some? && 0 <= r.score.value <= 100
    ensures r.score == Some(FallbackScore(ideal, user))
    ensures Text.SplitOn(r.feedback, '\n') ==
              [ScoreLine(r.score.value), StrengthOpening + StrengthFor(r.score.value), AreaOpening + AreaFor(r.score.value)]
  {
    var score := FallbackScore(ideal, user);
    BlankAnswerScore(ideal, user);
    AnswerFeedback(FeedbackText(score, Text.IsBlank(user)), Some(score))
  }

  /** The three lines for a score: the first of `strengths` (or the note that there is
      none) and the first of `areas` (or the note to keep the direction). */
  function FeedbackText(score: int, blankAnswer: bool): (r: string)
    requires !(blankAnswer && score >= 70)
    ensures Text.SplitOn(r, '\n') == [ScoreLine(score), StrengthOpening + StrengthFor(score), AreaOpening + AreaFor(score)]
  {
    var strengths, areas := Strengths(score), Areas(score, blankAnswer);
    var strengthText := if |strengths| > 0 then strengths[0] else NoStrength;
    var areaText := if |areas| > 0 then areas[0] else KeepDirection;
    ShownArea(score, blankAnswer);
    FeedbackLines(score);
    Text.Join([ScoreLine(score), StrengthOpening + strengthText, AreaOpening + areaText], "\n")
  }

  /** The first area is the bucket's whenever an empty answer has not scored 70 or more. */
  lemma ShownArea(score: int, blankAnswer: bool)
    requires !(blankAnswer && score >= 70)
    ensures (if |Areas(score, blankAnswer)| > 0 then Areas(score, blankAnswer)[0] else KeepDirection) == AreaFor(score)
  {
  }

  lemma FeedbackLines(score: int)
    ensures var lines := [ScoreLine(score), StrengthOpening + StrengthFor(score), AreaOpening + AreaFor(score)];
            Text.SplitOn(Text.Join(lines, "\n"), '\n') == lines
  {
    var lines := [ScoreLine(score), StrengthOpening + StrengthFor(score), AreaOpening + AreaFor(score)];
    NoBreakInScoreLine(score);
    assert '\n' !in StrengthOpening + StrengthFor(score) by {
      StrengthsHaveNoBreak();
    }
    assert '\n' !in AreaOpening + AreaFor(score) by {
      AreasHaveNoBreak();
    }
    Text.SplitOnJoin(lines, '\n');
  }

  lemma StrengthsHaveNoBreak()
    ensures '\n' !in StrengthOpening && '\n' !in StrongKeywords && '\n' !in FairDirection && '\n' !in NoStrength
  {
  }

  lemma AreasHaveNoBreak()
    ensures '\n' !in AreaOpening && '\n' !in KeepDirection && '\n' !in ClarifyTerms && '\n' !in RecheckIntent
  {
    KeepDirectionHasNoBreak();
    ClarifyHasNoBreak();
  }

  lemma KeepDirectionHasNoBreak()
    ensures '\n' !in KeepDirection
  {
  }

  lemma ClarifyHasNoBreak()
    ensures '\n' !in ClarifyTerms
  {
  }

  lemma NoBreakInScoreLine(score: int)
    ensures NoLineBreak(ScoreLine(score))
    ensures '\n' !in ScoreLine(score)
  {
    var digits := Text.IntToString(score);
    var tail := if score >= 50 then Met else NotMet;
    assert NoLineBreak(digits);
    assert NoLineBreak(ScoreOpening) && NoLineBreak(ScoreClosing) && NoLineBreak(tail);
    NoBreakConcat(ScoreOpening, digits);
    NoBreakConcat(ScoreOpening + digits, ScoreClosing);
    NoBreakConcat(ScoreOpening + digits + ScoreClosing, tail);
    assert ScoreLine(score)[..] == ScoreOpening + digits + ScoreClosing + tail;
  }

  lemma NoBreakConcat(a: string, b: string)
    requires NoLineBreak(a) && NoLineBreak(b)
    ensures NoLineBreak(a + b)
  {
    assert forall i | |a| <= i < |a + b| :: (a + b)[i] == b[i - |a|];
  }

  /** The fallback's own first line reads back as its score. */
  lemma FallbackScoreReadBack(ideal: Option<string>, user: string)
    ensures ExtractScore(FallbackAnswerFeedback(ideal, user).feedback) == FallbackAnswerFeedback(ideal, user).score
  {
    FeedbackReadBack(FallbackAnswerFeedback(ideal, user));
  }

  /** Feedback whose first line is the score line of its score reads back as that score. */
  lemma FeedbackReadBack(r: AnswerFeedback)
    requires r.score.Some? && 0 <= r.score.value <= 100
    requires |Text.SplitOn(r.feedback, '\n')| >= 2 && Text.SplitOn(r.feedback, '\n')[0] == ScoreLine(r.score.value)
    ensures ExtractScore(r.feedback) == r.score
  {
    var line := ScoreLine(r.score.value);
    FirstPiece(r.feedback, line);
    ScoreLineReadBack(r.score.value, r.feedback[|line| + 1..]);
  }

  /** A text whose first `'\n'`-separated piece is `line`, followed by more pieces, is `line`,
      a newline and the rest. */
  lemma FirstPiece(s: string, line: string)
    requires |Text.SplitOn(s, '\n')| >= 2 && Text.SplitOn(s, '\n')[0] == line
    ensures |line| < |s| && s == line + "\n" + s[|line| + 1..]
  {
    var pieces := Text.SplitOn(s, '\n');
    Text.JoinSplitOn(s, '\n');
    assert s == pieces[0] + "\n" + Text.Join(pieces[1..], "\n");
  }

  /** A score line followed by anything reads back as its score. */
  lemma ScoreLineReadBack(score: int, rest: string)
    requires 0 <= score <= 100
    ensures ExtractScore(ScoreLine(score) + "\n" + rest) == Some(score)
  {
    NoBreakInScoreLine(score);
    FirstLine(ScoreLine(score), '\n', rest);
    ScoreLineDecides(score);
  }

  /** The score line mentions `점수` and its only digits are those of the score. */
  lemma ScoreLineDecides(score: int)
    requires 0 <= score <= 100
    ensures Decides(ScoreLine(score))
    ensures LineScore(ScoreLine(score)) == Some(score)
  {
    var line := ScoreLine(score);
    ScoreLineDigits(score);
    ScoreLineMentionsScore(score);
    Text.ShortNumeral(score);
    assert LineScore(line) == Some(Clamp(Text.DigitsValue(Text.NatToString(score))));
  }

  lemma ScoreLineMentionsScore(score: int)
    ensures Text.Contains(ScoreLine(score), ScoreWord)
  {
    var line := ScoreLine(score);
    assert Text.OccursAt(line, ScoreWord, 0) by {
      assert line[..|ScoreWord|] == ScoreOpening[..|ScoreWord|];
    }
  }

  /** The only digits of the score line are those of the score. */
  lemma ScoreLineDigits(score: nat)
    ensures DigitsOf(ScoreLine(score)) == Text.NatToString(score)
  {
    var tail := ScoreClosing + (if score >= 50 then Met else NotMet);
    FixedPartsHaveNoDigits();
    HangulProseConcat(ScoreClosing, if score >= 50 then Met else NotMet);
    HangulHasNoDigits(tail);
    DigitsAround(ScoreOpening, Text.NatToString(score), tail);
    ScoreLineParts(score);
  }

  lemma ScoreLineParts(score: nat)
    ensures ScoreLine(score) == ScoreOpening + Text.NatToString(score) + (ScoreClosing + (if score >= 50 then Met else NotMet))
  {
  }

  /** Digits between two digit-free strings are exactly what `DigitsOf` keeps. */
  lemma DigitsAround(a: string, d: string, b: string)
    requires DigitsOf(a) == "" && DigitsOf(b) == ""
    requires forall i | 0 <= i < |d| :: Text.IsAsciiDigit(d[i])
    ensures DigitsOf(a + d + b) == d
  {
    var db := d + b;
    assert a + d + b == a + db;
    AllDigitsKept(d);
    DigitsOfConcat(d, b);
    DigitsOfConcat(a, db);
  }

  /** The fixed parts of the score line are Hangul prose. */
  lemma FixedPartsHaveNoDigits()
    ensures HangulProse(ScoreOpening) && HangulProse(ScoreClosing)
    ensures HangulProse(Met) && HangulProse(NotMet)
    ensures DigitsOf(ScoreOpening) == ""
  {
    HangulHasNoDigits(ScoreOpening);
  }

  /** A text of Hangul syllables, spaces and full stops. */
  predicate HangulProse(s: string) {
    forall i | 0 <= i < |s| :: s[i] == ' ' || s[i] == '.' || s[i] >= '\U{AC00}'
  }

  lemma HangulProseConcat(a: string, b: string)
    requires HangulProse(a) && HangulProse(b)
    ensures HangulProse(a + b)
  {
    assert forall i | |a| <= i < |a + b| :: (a + b)[i] == b[i - |a|];
  }

  /** Every digit lies below the Hangul syllables. */
  lemma HangulHasNoDigits(s: string)
    requires HangulProse(s)
    ensures DigitsOf(s) == ""
  {
    assert forall c | c in s :: !IsDigit(c);
    NoDigits(s);
  }

  lemma {:induction false} AllDigitsKept(s: string)
    requires forall i | 0 <= i < |s| :: Text.IsAsciiDigit(s[i])
    ensures DigitsOf(s) == s
    decreases |s|
  {
    if |s| > 0 {
      assert forall i | 0 <= i < |s| - 1 :: s[1..][i] == s[i + 1];
      AllDigitsKept(s[1..]);
    }
  }

  /** An empty answer has no tokens and scores 0. */
  lemma BlankAnswerScore(ideal: Option<string>, user: string)
    ensures Text.IsBlank(user) ==> FallbackScore(ideal, user) == 0
  {
    if Text.IsBlank(user) {
      var lowered := Text.Lower(user);
      assert Text.IsBlank(lowered) by {
        assert forall i | 0 <= i < |user| :: lowered[i] == user[i];
      }
      assert Text.Words(lowered) == [];
      assert Tokens(user) == {};
    }
  }

  /** `generate_answer_feedback`: the stripped reply and the score read from it, or the
      fallback when the model failed. */
  function GenerateAnswerFeedback(ideal: Option<string>, user: string, reply: Option<string>): (r: AnswerFeedback)
    ensures reply.Some? ==> r.feedback == Text.Strip(reply.value) && r.score == ExtractScore(r.feedback)
    ensures reply.None? ==> r == FallbackAnswerFeedback(ideal, user)
    ensures r.score.Some? ==> 0 <= r.score.value <= 100
  {
    match reply
    case Some(text) =>
      var feedback := Text.Strip(text);
      AnswerFeedback(feedback, ExtractScore(feedback))
    case None => FallbackAnswerFeedback(ideal, user)
  }

  // ---------------------------------------------------------------------------
  // The fallback speech feedback

  /** The six scores, under the keys `시선처리`, `제스처`, `말의 속도`, `억양`, `시각자료구성` and
      `내용구성`. */
  datatype SpeechScores = SpeechScores(gaze: int, gesture: int, pace: int, intonation: int, visuals: int, content: int)

  datatype SpeechFeedback = SpeechFeedback(feedback: string, scores: SpeechScores)

  const LongScriptWords := 200
  const RichDocumentWords := 100
  const VisualsScoreWords := 80

  const FlowAdvice := "• 전반적으로 발표 흐름이 자연스럽게 이어지도록 구성해 보세요."
  const ScriptPraise := "• 발표 스크립트가 충분히 길어 핵심 내용을 잘 담고 있습니다."
  const ConciseVisuals := "• 시각 자료는 핵심 메시지가 " + "잘 드러나도록 간결하게 정리해 보세요."
  const RichVisuals := "• 시각 자료 분량이 충분하니 슬라이드마다 " + "전달하고 싶은 메시지를 강조해 주세요."
  const VoiceAdvice := "• 중요한 메시지를 전달할 때는 목소리의 " + "억양과 속도를 조절해 청중의 집중을 이끌어 보세요."

  /** `_fallback_speech_feedback`: word counts of the transcript and of the document (none
      when it is missing) choose the first two lines and two pairs of scores. */
  function FallbackSpeechFeedback(transcript: string, document: Option<string>): (r: SpeechFeedback)
    ensures var words, docWords := |Text.Words(transcript)|, |Text.Words(document.GetOr(""))|;
            && r.scores.pace == (if words >= LongScriptWords then 75 else 60)
            && r.scores.content == (if words >= LongScriptWords then 80 else 65)
            && r.scores.visuals == (if docWords >= VisualsScoreWords then 70 else 55)
            && r.scores.gaze == r.scores.gesture == r.scores.intonation == 60
            && Text.SplitOn(r.feedback, '\n') ==
                 [ if words < LongScriptWords then FlowAdvice else ScriptPraise,
                   if docWords < RichDocumentWords then ConciseVisuals else RichVisuals,
                   VoiceAdvice ]
    ensures 60 <= r.scores.pace <= 75 && 55 <= r.scores.visuals <= 70 && 65 <= r.scores.content <= 80
  {
    var words, docWords := |Text.Words(transcript)|, |Text.Words(document.GetOr(""))|;
    var lines := [ if words < LongScriptWords then FlowAdvice else ScriptPraise,
                   if docWords < RichDocumentWords then ConciseVisuals else RichVisuals,
                   VoiceAdvice ];
    assert forall l | l in lines :: '\n' !in l by {
      SpeechLinesNoBreak();
    }
    Text.SplitOnJoin(lines, '\n');
    var scores := SpeechScores(60, 60, if words < LongScriptWords then 60 else 75, 60,
                               if docWords < VisualsScoreWords then 55 else 70,
                               if words < LongScriptWords then 65 else 80);
    SpeechFeedback(Text.Join(lines, "\n"), scores)
  }

  /** More transcript or document words never lower a fallback speech score, and a longer
      transcript alone leaves the visuals score as it was. */
  lemma FallbackSpeechMonotone(t: string, d: Option<string>, t': string, d': Option<string>)
    requires |Text.Words(t)| <= |Text.Words(t')|
    requires |Text.Words(d.GetOr(""))| <= |Text.Words(d'.GetOr(""))|
    ensures var s, s' := FallbackSpeechFeedback(t, d).scores, FallbackSpeechFeedback(t', d').scores;
            && s.pace <= s'.pace && s.content <= s'.content && s.visuals <= s'.visuals
            && s.gaze == s'.gaze && s.gesture == s'.gesture && s.intonation == s'.intonation
    ensures d == d' ==> FallbackSpeechFeedback(t, d).scores.visuals == FallbackSpeechFeedback(t', d').scores.visuals
  {
  }

  lemma SpeechLinesNoBreak()
    ensures '\n' !in FlowAdvice && '\n' !in ScriptPraise && '\n' !in ConciseVisuals
    ensures '\n' !in RichVisuals && '\n' !in VoiceAdvice
  {
    ScriptLinesNoBreak();
    VisualsLinesNoBreak();
    VoiceLineNoBreak();
  }

  lemma ScriptLinesNoBreak()
    ensures '\n' !in FlowAdvice && '\n' !in ScriptPraise
  {
  }

  lemma VisualsLinesNoBreak()
    ensures '\n' !in ConciseVisuals && '\n' !in RichVisuals
  {
  }

  lemma VoiceLineNoBreak()
    ensures '\n' !in VoiceAdvice
  {
  }

}

=== FILE: api.dfy ===
/** The request-independent logic of api.py: the bearer-scheme check of the authorization
    header, title derivation, the document-text lookup in a job's metadata, the sanitising
    of generated questions, and the decision chain of `GET /question/{speech_id}`. The web
    framework, the JWT decode and the stage-ownership lookup are not modelled. */
module Api {
  import opened Wrappers
  import opened Json
  import Text
  import Store
  import QuestionGenerator
  import Seqs

  /** An `HTTPException`: its status code and its detail text. */
  datatype ApiError = ApiError(status: nat, detail: string)

  const Unauthorized: nat := 401
  const NotFound: nat := 404
  const ServerError: nat := 500
  const MissingHeader := "Missing authorization header"
  const InvalidScheme := "Invalid authorization scheme"
  const SpeechNotFound := "Speech not found"
  const NoQuestions := "No questions available"
  /** What the framework answers when an exception escapes a handler. */
  const InternalError := "Internal Server Error"
  const UntitledSpeech := "Untitled Speech"

  // ---------------------------------------------------------------------------
  // The authorization header

  const BearerPrefix := "bearer "

  /** Everything after the first space, as a split at one space at most gives it. */
  function AfterFirstSpace(s: string): (r: string)
    requires Text.IndexOfChar(s, ' ') < |s|
    ensures |r| < |s| && r == s[|s| - |r|..]
  {
    s[Text.IndexOfChar(s, ' ') + 1..]
  }

  /** A header whose lower-cased form starts with `bearer ` has its first space at
      position 6. */
  lemma BearerSpace(h: string)
    requires Text.HasPrefix(Text.Lower(h), BearerPrefix)
    ensures Text.IndexOfChar(h, ' ') == |BearerPrefix| - 1
  {
    var lowered := Text.Lower(h);
    assert forall i | 0 <= i < |BearerPrefix| :: Text.LowerChar(h[i]) == BearerPrefix[i] by {
      forall i | 0 <= i < |BearerPrefix| ensures Text.LowerChar(h[i]) == BearerPrefix[i] {
        assert lowered[..|BearerPrefix|][i] == lowered[i];
      }
    }
    assert h[6] == ' ';
    assert forall i | 0 <= i < 6 :: h[i] != ' ';
  }

  /** The checks `get_current_user_id` makes before decoding the token: a missing or empty
      header, then a scheme other than `bearer` in any case, are rejected with 401; otherwise
      the token is the stripped text after the first space. */
  function Authorize(header: Option<string>): (r: Result<string, ApiError>)
    ensures r.Err? ==> r.error.status == Unauthorized
    ensures r == Err(ApiError(Unauthorized, MissingHeader)) <==> header.None? || header.value == ""
    ensures r.Ok? <==> header.Some? && header.value != "" && Text.HasPrefix(Text.Lower(header.value), BearerPrefix)
    ensures r.Ok? ==> r.value == Text.Strip(header.value[|BearerPrefix|..]) && Text.NoEdgeSpace(r.value)
  {
    match header
    case None => Err(ApiError(Unauthorized, MissingHeader))
    case Some(h) =>
      if h == "" then Err(ApiError(Unauthorized, MissingHeader))
      else if !Text.HasPrefix(Text.Lower(h), BearerPrefix) then Err(ApiError(Unauthorized, InvalidScheme))
      else
        BearerSpace(h);
        Ok(Text.Strip(AfterFirstSpace(h)))
  }

  /** A header made of the scheme in any letter case, one space and a token without
      surrounding whitespace yields that token. */
  lemma BearerRoundTrip(scheme: string, token: string)
    requires |scheme| == 6 && Text.Lower(scheme) == "bearer"
    requires Text.NoEdgeSpace(token)
    ensures Authorize(Some(scheme + " " + token)) == Ok(token)
  {
    var h := scheme + " " + token;
    var lowered := Text.Lower(h);
    assert lowered[..|BearerPrefix|] == BearerPrefix by {
      forall i | 0 <= i < |BearerPrefix| ensures lowered[i] == BearerPrefix[i] {
        if i < 6 {
          assert h[i] == scheme[i];
          assert Text.Lower(scheme)[i] == "bearer"[i];
        }
      }
    }
    assert h[|BearerPrefix|..] == token;
    Text.StripKeepsClean(token);
  }

  // ---------------------------------------------------------------------------
  // Titles

  /** `create_speech`'s title: the stripped request title, or `Untitled Speech` when it is
      absent, empty or blank. */
  function SpeechTitle(title: Option<string>): (r: string)
    ensures r != "" && Text.NoEdgeSpace(r)
    ensures title.Some? && !Text.IsBlank(title.value) ==> r == Text.Strip(title.value)
    ensures title.None? || Text.IsBlank(title.value) ==> r == UntitledSpeech
  {
    var stripped := if title.Some? && title.value != "" then Text.Strip(title.value) else UntitledSpeech;
    UntitledClean();
    if stripped != "" then stripped else UntitledSpeech
  }

  lemma UntitledClean()
    ensures Text.NoEdgeSpace(UntitledSpeech)
  {
    assert !Text.IsSpace(UntitledSpeech[0]) && !Text.IsSpace(UntitledSpeech[|UntitledSpeech| - 1]);
  }

  /** A title that is already clean is served as it is. */
  lemma SpeechTitleOfClean(t: string)
    requires t != "" && Text.NoEdgeSpace(t)
    ensures SpeechTitle(Some(t)) == t
  {
    Text.StripKeepsClean(t);
  }

  /** A derived title is its own derivation. */
  lemma SpeechTitleIdempotent(title: Option<string>)
    ensures SpeechTitle(Some(SpeechTitle(title))) == SpeechTitle(title)
  {
    SpeechTitleOfClean(SpeechTitle(title));
  }

  /** The characters of `urllib.parse.scheme_chars`. */
  predicate IsSchemeChar(c: char) {
    ('a' <= c <= 'z') || ('A' <= c <= 'Z') || ('0' <= c <= '9') || c == '+' || c == '-' || c == '.'
  }

  /** The schemes of `urllib.parse.uses_params`, after which `;` starts parameters. */
  const UsesParams: set<string> :=
    {"", "ftp", "hdl", "prospero", "http", "imap", "https", "shttp", "rtsp", "rtsps", "rtspu",
     "sip", "sips", "mms", "sftp", "tel"}

  /** The first position at or after `from` holding one of `cs`, `|s|` when there is none. */
  function IndexOfAny(s: string, cs: set<char>, from: nat): (k: nat)
    requires from <= |s|
    ensures from <= k <= |s|
    ensures k < |s| ==> s[k] in cs
    ensures forall i | from <= i < k :: s[i] !in cs
    decreases |s| - from
  {
    if from == |s| || s[from] in cs then from else IndexOfAny(s, cs, from + 1)
  }

  /** Where `urlsplit` sees a scheme: the position of the first `:` when the text before it
      starts with an ASCII letter and holds scheme characters only. */
  function SchemeLength(url: string): (r: Option<nat>)
    ensures r.Some? ==> 0 < r.value < |url| && url[r.value] == ':'
    ensures r.Some? ==> forall i | 0 <= i < r.value :: IsSchemeChar(url[i])
    ensures r.None? ==> forall i | 0 <= i < |url| && url[i] == ':' :: i == 0 || !('a' <= url[0] <= 'z' || 'A' <= url[0] <= 'Z') || exists j | 0 <= j < i :: !IsSchemeChar(url[j]) || url[j] == ':'
  {
    var i := Text.IndexOfChar(url, ':');
    if 0 < i < |url| && ('a' <= url[0] <= 'z' || 'A' <= url[0] <= 'Z') && forall j | 0 <= j < i :: IsSchemeChar(url[j])
    then Some(i)
    else None
  }

  /** `_splitparams(url)[0]` for a path holding `;`: the text before the first `;` of the
      last segment, the path unchanged when that segment has none. */
  function WithoutParams(url: string): (r: string)
    ensures |r| <= |url| && r == url[..|r|]
  {
    match Text.LastIndexOfChar(url, '/')
    case Some(j) =>
      var i := IndexOfAny(url, {';'}, j);
      url[..i]
    case None => url[..Text.IndexOfChar(url, ';')]
  }

  /** The characters `urlsplit` strips from the front of a URL: C0 controls and space. */
  predicate IsControlOrSpace(c: char) {
    c <= ' '
  }

  /** The characters `urlsplit` deletes wherever they occur: tab, carriage return, line feed. */
  predicate IsUnsafe(c: char) {
    c == '\t' || c == '\r' || c == '\n'
  }

  /** The URL without its leading controls and spaces. */
  function DropLeadingControls(s: string): (r: string)
    ensures |r| <= |s| && r == s[|s| - |r|..]
    ensures r != "" ==> !IsControlOrSpace(r[0])
    ensures forall i | 0 <= i < |s| - |r| :: IsControlOrSpace(s[i])
    decreases |s|
  {
    if |s| > 0 && IsControlOrSpace(s[0]) then DropLeadingControls(s[1..]) else s
  }

  /** The URL with every tab, carriage return and line feed deleted, the rest in order. */
  function DropUnsafe(s: string): (r: string)
    ensures |r| <= |s|
    ensures forall i | 0 <= i < |r| :: !IsUnsafe(r[i])
    ensures (forall i | 0 <= i < |s| :: !IsUnsafe(s[i])) ==> r == s
    ensures s != "" && !IsUnsafe(s[0]) ==> r != "" && r[0] == s[0]
    decreases |s|
  {
    if |s| == 0 then ""
    else (if IsUnsafe(s[0]) then "" else [s[0]]) + DropUnsafe(s[1..])
  }

  /** What `urlsplit` parses: leading controls and spaces stripped, then tab, carriage
      return and line feed deleted. */
  function CleanUrl(url: string): (r: string)
    ensures r != "" ==> !IsControlOrSpace(r[0])
    ensures forall i | 0 <= i < |r| :: !IsUnsafe(r[i])
  {
    DropUnsafe(DropLeadingControls(url))
  }

  /** The network location and what follows it: after a leading `//`, the text up to the
      first `/`, `?` or `#`; no network location otherwise. */
  function SplitNetloc(rest: string): (r: (string, string))
    ensures |r.1| <= |rest|
  {
    if |rest| >= 2 && rest[..2] == "//" then
      var k := IndexOfAny(rest, {'/', '?', '#'}, 2);
      (rest[2..k], rest[k..])
    else ("", rest)
  }

  /** A network location holding `[` without `]`, or `]` without `[`: `urlsplit` raises
      `ValueError` for it. */
  predicate UnbalancedBrackets(netloc: string) {
    ('[' in netloc && ']' !in netloc) || (']' in netloc && '[' !in netloc)
  }

  /** `urlparse(url).path`, `None` where `urlsplit` raises: the path of the cleaned URL. */
  function UrlPath(url: string): (r: Option<string>)
    ensures r.Some? ==> '#' !in r.value && '?' !in r.value
  {
    ParseCleanPath(CleanUrl(url))
  }

  /** The path of a cleaned URL: the scheme and `:` removed, after `//` the network location
      up to the first `/`, `?` or `#`; the fragment and the query cut off; and, under a
      scheme that uses parameters, the parameters of the last segment. `None` for a network
      location with unbalanced brackets. */
  function ParseCleanPath(clean: string): (r: Option<string>)
    ensures r.Some? ==> '#' !in r.value && '?' !in r.value
  {
    var scheme := match SchemeLength(clean) case Some(i) => Text.Lower(clean[..i]) case None => "";
    var rest := match SchemeLength(clean) case Some(i) => clean[i + 1..] case None => clean;
    var split := SplitNetloc(rest);
    if UnbalancedBrackets(split.0) then None
    else
      var noQuery := CutAt(CutAt(split.1, '#'), '?');
      if scheme in UsesParams && ';' in noQuery then
        var r := WithoutParams(noQuery);
        assert forall i | 0 <= i < |r| :: r[i] == noQuery[i];
        Some(r)
      else Some(noQuery)
  }

  /** The text before the first `c`. */
  function CutAt(s: string, c: char): (r: string)
    ensures |r| <= |s| && r == s[..|r|]
    ensures c !in r
    ensures c !in s ==> r == s
  {
    var r := s[..Text.IndexOfChar(s, c)];
    assert forall i | 0 <= i < |r| :: r[i] == s[i];
    r
  }

  /** The last component that is neither empty nor `.`, `""` when there is none. */
  function LastComponent(parts: seq<string>): (r: string)
    ensures r == "" || r in parts
    ensures r != "."
    decreases |parts|
  {
    if |parts| == 0 then ""
    else
      var last := parts[|parts| - 1];
      if last != "" && last != "." then last else LastComponent(parts[..|parts| - 1])
  }

  /** `PurePosixPath(p).name`: the final component, empty and `.` components ignored. */
  function PathName(p: string): (r: string)
    ensures '/' !in r && r != "."
  {
    LastComponent(Text.SplitOn(p, '/'))
  }

  /** `PurePosixPath(p).stem`: the name without its last suffix, where a dot at the start
      or the end of the name starts no suffix. */
  function Stem(p: string): (r: string)
    ensures '/' !in r
    ensures |r| <= |PathName(p)| && r == PathName(p)[..|r|]
    ensures r == "" <==> PathName(p) == ""
  {
    var name := PathName(p);
    match Text.LastIndexOfChar(name, '.')
    case Some(i) =>
      if 0 < i < |name| - 1 then
        assert forall k | 0 <= k < i :: name[..i][k] == name[k];
        name[..i]
      else name
    case None => name
  }

  /** `_derive_title`: a non-empty provided title as it is; otherwise the stripped stem of
      the URL path, else (for a source without `://`) the stripped stem of the whole source,
      else `Untitled Speech`; `None` where `urlparse` raises. Never empty. */
  function DeriveTitle(source: string, provided: Option<string>): (r: Option<string>)
    ensures provided.Some? && provided.value != "" ==> r == Some(provided.value)
    ensures provided.None? || provided.value == "" ==> (r.None? <==> UrlPath(source).None?)
    ensures r.Some? ==> r.value != ""
    ensures r.Some? && (provided.None? || provided.value == "") ==>
              r.value == UntitledSpeech || (Text.NoEdgeSpace(r.value) && '/' !in r.value)
    ensures (provided.None? || provided.value == "") && UrlPath(source).Some? &&
            Stem(UrlPath(source).value) == "" && Text.Contains(source, "://") ==>
              r == Some(UntitledSpeech)
    ensures (provided.None? || provided.value == "") && UrlPath(source).Some? &&
            Stem(UrlPath(source).value) != "" ==>
              r == Some(SpeechTitle(Some(Stem(UrlPath(source).value))))
    ensures (provided.None? || provided.value == "") && UrlPath(source).Some? &&
            Stem(UrlPath(source).value) == "" && !Text.Contains(source, "://") ==>
              r == Some(SpeechTitle(Some(Stem(source))))
  {
    if provided.Some? && provided.value != "" then Some(provided.value)
    else
      match UrlPath(source)
      case None => None
      case Some(path) => Some(PathTitle(source, path))
  }

  /** The title from a parsed path: its stem, else the stem of a source without `://`,
      stripped, else `Untitled Speech`. */
  function PathTitle(source: string, path: string): (r: string)
    ensures r != ""
    ensures r == UntitledSpeech || (Text.NoEdgeSpace(r) && '/' !in r)
    ensures Stem(path) != "" ==> r == SpeechTitle(Some(Stem(path)))
    ensures Stem(path) == "" && Text.Contains(source, "://") ==> r == UntitledSpeech
    ensures Stem(path) == "" && !Text.Contains(source, "://") ==> r == SpeechTitle(Some(Stem(source)))
  {
    var candidate := if path != "" then Stem(path) else "";
    var candidate' := if candidate != "" then candidate else if !Text.Contains(source, "://") then Stem(source) else "";
    EmptyStem();
    Text.StripKeepsOut(candidate', '/');
    SpeechTitle(Some(candidate'))
  }

  /** The empty path has the empty stem. */
  lemma EmptyStem()
    ensures Stem("") == ""
  {
    assert Text.SplitOn("", '/') == [""];
  }

  /** Characters that would make a file name read as something other than a plain path. */
  predicate PlainChar(c: char) {
    c !in {'/', ':', '?', '#', ';', '[', ']'} && !IsUnsafe(c)
  }

  predicate PlainName(s: string) {
    forall i | 0 <= i < |s| :: PlainChar(s[i])
  }

  /** The name and extension of a plain file name, as one path component. */
  lemma FileNameStem(name: string, ext: string)
    requires name != "" && ext != "" && PlainName(name) && PlainName(ext)
    requires forall i | 0 <= i < |ext| :: ext[i] != '.'
    ensures PathName(name + "." + ext) == name + "." + ext
    ensures Stem(name + "." + ext) == name
  {
    var file := name + "." + ext;
    assert forall i | 0 <= i < |file| :: file[i] != '/' by {
      forall i | 0 <= i < |file| ensures file[i] != '/' {
        if i < |name| { assert file[i] == name[i]; }
        else if i > |name| { assert file[i] == ext[i - |name| - 1]; }
      }
    }
    assert Text.SplitOn(file, '/') == [file];
    assert file != "." by { assert |file| >= 3; }
    assert Text.LastIndexOfChar(file, '.') == Some(|name|) by {
      assert file[|name|] == '.';
      forall i | |name| < i < |file| ensures file[i] != '.' {
        assert file[i] == ext[i - |name| - 1];
      }
    }
    assert file[..|name|] == name;
  }

  lemma PlainFile(name: string, ext: string)
    requires PlainName(name) && PlainName(ext)
    ensures PlainName(name + "." + ext)
  {
    var file := name + "." + ext;
    forall i | 0 <= i < |file| ensures PlainChar(file[i]) {
      if i < |name| { assert file[i] == name[i]; }
      else if i > |name| { assert file[i] == ext[i - |name| - 1]; }
    }
  }

  // The clean-up `urlsplit` does before parsing

  /** A URL that starts with neither a control nor a space and holds no tab, carriage return
      or line feed is parsed as it is. */
  lemma CleanUrlKeeps(url: string)
    requires url == "" || !IsControlOrSpace(url[0])
    requires forall i | 0 <= i < |url| :: !IsUnsafe(url[i])
    ensures UrlPath(url) == ParseCleanPath(url)
  {
    CleanUrlFixed(url);
  }

  lemma CleanUrlFixed(url: string)
    requires url == "" || !IsControlOrSpace(url[0])
    requires forall i | 0 <= i < |url| :: !IsUnsafe(url[i])
    ensures CleanUrl(url) == url
  {
  }

  /** Cleaning twice is cleaning once, so a URL and its cleaned form have one path. */
  lemma CleanUrlIdempotent(url: string)
    ensures CleanUrl(CleanUrl(url)) == CleanUrl(url)
    ensures UrlPath(CleanUrl(url)) == UrlPath(url)
  {
    CleanUrlFixed(CleanUrl(url));
  }

  /** A control character or space in front of a URL changes nothing. */
  lemma LeadingControlIgnored(c: char, url: string)
    requires IsControlOrSpace(c)
    ensures UrlPath([c] + url) == UrlPath(url)
  {
    ControlDropped(c, url);
  }

  /** A tab, carriage return or line feed anywhere in a URL changes nothing. */
  lemma UnsafeIgnored(a: string, c: char, b: string)
    requires IsUnsafe(c)
    ensures UrlPath(a + [c] + b) == UrlPath(a + b)
  {
    UnsafeCleaned(a, c, b);
  }

  lemma {:induction false} UnsafeCleaned(a: string, c: char, b: string)
    requires IsUnsafe(c)
    ensures CleanUrl(a + [c] + b) == CleanUrl(a + b)
    decreases |a|
  {
    if a == "" {
      assert a + [c] + b == [c] + b && a + b == b;
      ControlDropped(c, b);
    } else if IsControlOrSpace(a[0]) {
      assert a + [c] + b == [a[0]] + (a[1..] + [c] + b);
      assert a + b == [a[0]] + (a[1..] + b);
      ControlDropped(a[0], a[1..] + [c] + b);
      ControlDropped(a[0], a[1..] + b);
      UnsafeCleaned(a[1..], c, b);
    } else {
      UnsafeDeleted(a, c, b);
    }
  }

  /** One control character or space in front is stripped. */
  lemma ControlDropped(c: char, s: string)
    requires IsControlOrSpace(c)
    ensures DropLeadingControls([c] + s) == DropLeadingControls(s)
  {
    assert ([c] + s)[1..] == s;
  }

  /** Behind a first character that is kept, the unsafe character is simply deleted. */
  lemma UnsafeDeleted(a: string, c: char, b: string)
    requires IsUnsafe(c) && a != "" && !IsControlOrSpace(a[0])
    ensures CleanUrl(a + [c] + b) == CleanUrl(a + b)
  {
    assert (a + [c] + b)[0] == a[0] && (a + b)[0] == a[0];
    FirstKept(a + [c] + b);
    FirstKept(a + b);
    UnsafeSkipped(a, c, b);
  }

  /** Nothing is stripped in front of a first character that is neither control nor space. */
  lemma FirstKept(s: string)
    requires s != "" && !IsControlOrSpace(s[0])
    ensures DropLeadingControls(s) == s
  {
  }

  lemma UnsafeSkipped(a: string, c: char, b: string)
    requires IsUnsafe(c)
    ensures DropUnsafe(a + [c] + b) == DropUnsafe(a + b)
  {
    var tail := [c] + b;
    assert a + [c] + b == a + tail;
    DropUnsafeAppend(a, tail);
    DropUnsafeAppend(a, b);
    DropUnsafeSkipsHead(c, b);
  }

  lemma DropUnsafeSkipsHead(c: char, b: string)
    requires IsUnsafe(c)
    ensures DropUnsafe([c] + b) == DropUnsafe(b)
  {
    assert ([c] + b)[1..] == b;
  }

  /** Deleting characters from two texts put together deletes them from each. */
  lemma {:induction false} DropUnsafeAppend(a: string, b: string)
    ensures DropUnsafe(a + b) == DropUnsafe(a) + DropUnsafe(b)
    decreases |a|
  {
    if a == "" {
      assert a + b == b;
    } else {
      assert (a + b)[1..] == a[1..] + b;
      DropUnsafeAppend(a[1..], b);
    }
  }

  // Paths of plain URLs

  /** A plain relative path is its own URL path. */
  lemma PlainUrlPath(path: string)
    requires PlainName(path) && (path == "" || !IsControlOrSpace(path[0]))
    ensures UrlPath(path) == Some(path)
  {
    CleanUrlKeeps(path);
    PlainNameLacks(path);
    NoSchemeWithoutColon(path);
    NoNetlocWithoutSlashes(path);
  }

  lemma PlainNameLacks(s: string)
    requires PlainName(s)
    ensures ':' !in s && '#' !in s && '?' !in s && ';' !in s && '[' !in s && ']' !in s
    ensures |s| >= 2 ==> s[..2] != "//"
  {
    if |s| >= 2 {
      assert s[..2][0] == s[0];
    }
  }

  lemma NoSchemeWithoutColon(s: string)
    requires ':' !in s
    ensures SchemeLength(s).None?
  {
    assert Text.IndexOfChar(s, ':') == |s|;
  }

  lemma NoNetlocWithoutSlashes(s: string)
    requires |s| >= 2 ==> s[..2] != "//"
    ensures SplitNetloc(s) == ("", s)
  {
  }

  /** The characters a network location may hold in these lemmas: no delimiter of the
      path, query or fragment, and nothing `urlsplit` deletes. */
  predicate HostChars(host: string) {
    forall i | 0 <= i < |host| :: host[i] !in {'/', '?', '#'} && !IsUnsafe(host[i])
  }

  /** `https://host` followed by a path that is empty or starts with `/` is parsed as
      written: scheme `https`, network location `host`, then the path. */
  lemma HttpsParts(host: string, path: string)
    requires HostChars(host)
    requires path == "" || path[0] == '/'
    requires forall i | 0 <= i < |path| :: !IsUnsafe(path[i])
    ensures var url := "https://" + host + path;
            && (forall i | 0 <= i < |url| :: !IsUnsafe(url[i]))
            && SchemeLength(url) == Some(5)
            && Text.Lower(url[..5]) == "https"
            && url[6..] == "//" + host + path
            && SplitNetloc(url[6..]) == (host, path)
  {
    var url := "https://" + host + path;
    HttpsSafe(host, path);
    HttpsScheme(url, host + path);
    assert url[6..] == "//" + host + path;
    NetlocOf(host, path);
  }

  lemma HttpsSafe(host: string, path: string)
    requires HostChars(host)
    requires forall i | 0 <= i < |path| :: !IsUnsafe(path[i])
    ensures var url := "https://" + host + path;
            forall i | 0 <= i < |url| :: !IsUnsafe(url[i])
  {
    var url := "https://" + host + path;
    forall i | 0 <= i < |url| ensures !IsUnsafe(url[i]) {
      if 8 <= i < 8 + |host| { assert url[i] == host[i - 8]; }
      else if i >= 8 + |host| { assert url[i] == path[i - 8 - |host|]; }
    }
  }

  /** `https://` starts a URL whose scheme `urlsplit` recognises as `https`. */
  lemma HttpsScheme(url: string, tail: string)
    requires url == "https://" + tail
    ensures SchemeLength(url) == Some(5)
    ensures Text.Lower(url[..5]) == "https" && url[6..] == "//" + tail
  {
    assert url[..5] == "https" && url[5] == ':';
    assert Text.IndexOfChar(url, ':') == 5;
  }

  /** After `//`, the network location runs to the slash that starts the path. */
  lemma NetlocOf(host: string, path: string)
    requires HostChars(host)
    requires path == "" || path[0] == '/'
    ensures SplitNetloc("//" + host + path) == (host, path)
  {
    var rest := "//" + host + path;
    assert rest[..2] == "//";
    forall i | 2 <= i < 2 + |host| ensures rest[i] !in {'/', '?', '#'} {
      assert rest[i] == host[i - 2];
    }
    assert 2 + |host| < |rest| ==> rest[2 + |host|] == '/';
    IndexOfAnyAt(rest, {'/', '?', '#'}, 2, 2 + |host|);
    assert rest[2..2 + |host|] == host && rest[2 + |host|..] == path;
  }

  /** The search stops at the first character of `cs` from `from` on. */
  lemma {:induction false} IndexOfAnyAt(s: string, cs: set<char>, from: nat, k: nat)
    requires from <= k <= |s|
    requires forall i | from <= i < k :: s[i] !in cs
    requires k == |s| || s[k] in cs
    ensures IndexOfAny(s, cs, from) == k
    decreases k - from
  {
    if from < k {
      IndexOfAnyAt(s, cs, from + 1, k);
    }
  }

  /** Behind `https://`, a network location with one bracket and not the other makes
      `urlparse` raise, and one without makes it return the path. */
  lemma HttpsBrackets(host: string, path: string)
    requires HostChars(host)
    requires path == "" || path[0] == '/'
    requires forall i | 0 <= i < |path| :: !IsUnsafe(path[i])
    ensures UrlPath("https://" + host + path).None? <==> UnbalancedBrackets(host)
  {
    HttpsParts(host, path);
    CleanUrlKeeps("https://" + host + path);
  }

  /** After `https:`, a plain host and a plain file, the URL path is the file with its
      leading slash. */
  lemma HttpsUrlPath(host: string, file: string)
    requires PlainName(host) && PlainName(file)
    ensures UrlPath("https://" + host + "/" + file) == Some("/" + file)
  {
    var path := "/" + file;
    RootedPlain(file);
    PlainHost(host);
    assert "https://" + host + "/" + file == "https://" + host + path;
    HttpsParts(host, path);
    CleanUrlKeeps("https://" + host + path);
    assert CutAt(CutAt(path, '#'), '?') == path;
  }

  lemma PlainHost(host: string)
    requires PlainName(host)
    ensures HostChars(host) && !UnbalancedBrackets(host)
  {
    assert '[' !in host && ']' !in host by {
      forall i | 0 <= i < |host| ensures host[i] != '[' && host[i] != ']' {
        assert PlainChar(host[i]);
      }
    }
  }

  /** A plain file behind a slash has no fragment, query or parameters, and nothing
      `urlsplit` deletes. */
  lemma RootedPlain(file: string)
    requires PlainName(file)
    ensures '#' !in "/" + file && '?' !in "/" + file && ';' !in "/" + file
    ensures forall i | 0 <= i < |"/" + file| :: !IsUnsafe(("/" + file)[i])
  {
    var path := "/" + file;
    forall i | 0 <= i < |path| ensures path[i] != '#' && path[i] != '?' && path[i] != ';' && !IsUnsafe(path[i]) {
      if i > 0 { assert path[i] == file[i - 1]; }
    }
  }

  // Titles

  /** Without a provided title, a URL path whose stem has no surrounding whitespace gives
      that stem. */
  lemma TitleFromPathStem(source: string)
    requires UrlPath(source).Some?
    requires Stem(UrlPath(source).value) != "" && Text.NoEdgeSpace(Stem(UrlPath(source).value))
    ensures DeriveTitle(source, None) == Some(Stem(UrlPath(source).value))
  {
    StemOfEmpty();
    Text.StripKeepsClean(Stem(UrlPath(source).value));
  }

  lemma StemOfEmpty()
    ensures Stem("") == ""
  {
    assert Text.SplitOn("", '/') == [""];
  }

  /** A plain file name `name.ext` is titled `name`. */
  lemma TitleFromFileName(name: string, ext: string)
    requires name != "" && ext != "" && PlainName(name) && PlainName(ext) && Text.NoEdgeSpace(name)
    requires !IsControlOrSpace(name[0])
    requires forall i | 0 <= i < |ext| :: ext[i] != '.'
    ensures DeriveTitle(name + "." + ext, None) == Some(name)
  {
    PlainFile(name, ext);
    PlainUrlPath(name + "." + ext);
    FileNameStem(name, ext);
    TitleFromPathStem(name + "." + ext);
  }

  /** `https://host/name.ext` is titled `name`: the host and the scheme play no part. */
  lemma TitleFromUrl(host: string, name: string, ext: string)
    requires PlainName(host)
    requires name != "" && ext != "" && PlainName(name) && PlainName(ext) && Text.NoEdgeSpace(name)
    requires forall i | 0 <= i < |ext| :: ext[i] != '.'
    ensures DeriveTitle("https://" + host + "/" + name + "." + ext, None) == Some(name)
  {
    var file := name + "." + ext;
    var url := "https://" + host + "/" + file;
    assert url == "https://" + host + "/" + name + "." + ext;
    assert Stem(UrlPath(url).value) == name by {
      PlainFile(name, ext);
      HttpsUrlPath(host, file);
      FileNameStem(name, ext);
      RootedName(file);
    }
    TitleFromPathStem(url);
  }

  /** A leading slash does not change a path's name. */
  lemma RootedName(file: string)
    requires PlainName(file)
    ensures PathName("/" + file) == PathName(file)
  {
    assert Text.SplitOn(file, '/') == [file];
    assert Text.SplitOn("/" + file, '/') == ["", file] by {
      assert Text.IndexOfChar("/" + file, '/') == 0;
      assert ("/" + file)[1..] == file;
    }
  }

  /** A scheme-relative source such as `//cdn.example.com` has an empty URL path and no
      `://`, so its title comes from the stem of the whole source. */
  lemma TitleOfSchemeRelative(host: string)
    requires PlainName(host)
    ensures DeriveTitle("//" + host, None) == Some(SpeechTitle(Some(Stem("//" + host))))
  {
    SchemeRelativePath(host);
    NoColonNoScheme("//" + host);
  }

  /** `urlparse` puts all of `//host` in the network location, so the path is empty. */
  lemma SchemeRelativePath(host: string)
    requires PlainName(host)
    ensures UrlPath("//" + host) == Some("")
    ensures ':' !in "//" + host
  {
    var url := "//" + host;
    PlainHost(host);
    forall i | 0 <= i < |url| ensures url[i] == '/' || PlainChar(url[i]) {
      if i >= 2 { assert url[i] == host[i - 2]; }
    }
    CleanUrlKeeps(url);
    assert SchemeLength(url) == None;
    assert url[..2] == "//" && url[2..] == host;
    assert IndexOfAny(url, {'/', '?', '#'}, 2) == |url|;
  }

  /** A text without `:` does not contain `://`. */
  lemma NoColonNoScheme(s: string)
    requires ':' !in s
    ensures !Text.Contains(s, "://")
  {
    forall i | 0 <= i && i + 3 <= |s| ensures !Text.OccursAt(s, "://", i) {
      assert s[i..i + 3][0] == s[i] != ':';
    }
  }

  /** A URL with no path after its host falls back to `Untitled Speech`. */
  lemma TitleOfBareHost(host: string)
    requires PlainName(host)
    ensures DeriveTitle("https://" + host, None) == Some(UntitledSpeech)
  {
    var url := "https://" + host;
    PlainHost(host);
    HttpsParts(host, "");
    assert url + "" == url;
    CleanUrlKeeps(url);
    assert UrlPath(url) == Some("");
    assert Text.OccursAt(url, "://", 5);
  }

  /** A bracket left open in the network location makes the derivation raise, whatever the
      path. */
  lemma OpenBracketRaises(host: string, path: string)
    requires HostChars(host) && '[' in host && ']' !in host
    requires path == "" || path[0] == '/'
    requires forall i | 0 <= i < |path| :: !IsUnsafe(path[i])
    ensures DeriveTitle("https://" + host + path, None).None?
  {
    HttpsBrackets(host, path);
  }

  // ---------------------------------------------------------------------------
  // Document text in a job's metadata

  /** The string at `path` inside `j` when it is not blank. */
  function NonBlankAt(j: Json, path: seq<string>): Option<string> {
    match Lookup(j, path)
    case Some(JStr(s)) => if Text.IsBlank(s) then None else Some(s)
    case _ => None
  }

  /** `_extract_document_text_from_metadata`: `document.full_text` when it is a non-blank
      string, else `document.details.full_text` when it is one, else `""`; the text is
      returned unstripped. */
  function ExtractDocumentText(metadata: Json): (r: string)
    ensures NonBlankAt(metadata, ["document", "full_text"]).Some? ==>
              r == NonBlankAt(metadata, ["document", "full_text"]).value
    ensures NonBlankAt(metadata, ["document", "full_text"]).None? ==>
              r == NonBlankAt(metadata, ["document", "details", "full_text"]).GetOr("")
    ensures r == "" || !Text.IsBlank(r)
  {
    assert ["document", "full_text"][1..] == ["full_text"];
    assert ["document", "details", "full_text"][1..] == ["details", "full_text"];
    assert ["details", "full_text"][1..] == ["full_text"];
    match metadata
    case JObject(fields) =>
      (match Get(fields, "document")
       case JObject(document) =>
         var direct := Get(document, "full_text");
         if direct.JStr? && !Text.IsBlank(direct.s) then direct.s
         else
           (match Get(document, "details")
            case JObject(details) =>
              var nested := Get(details, "full_text");
              if nested.JStr? && !Text.IsBlank(nested.s) then nested.s else ""
            case _ => "")
       case _ => "")
    case _ => ""
  }

  // ---------------------------------------------------------------------------
  // Sanitising generated questions

  /** `str(v)` for a JSON value; `show` stands for the repr of a list or a dict, whose key
      order a map does not keep. */
  function PyStr(v: Json, show: Json -> string): string {
    match v
    case JNull => "None"
    case JBool(b) => if b then "True" else "False"
    case JInt(i) => Text.IntToString(i)
    case JStr(s) => s
    case _ => show(v)
  }

  /** The entry's question as text, stripped; the empty text when it has none. */
  function QuestionText(e: map<string, Json>, show: Json -> string): string {
    Text.Strip(if "question" in e then PyStr(e["question"], show) else "")
  }

  /** The model answer kept for an entry: a falsy or blank value becomes `JNull`, a string
      is stripped; `None` as the result means the value is truthy but not a string, which
      makes the stripping raise. */
  function ModelAnswer(v: Json): (r: Option<Json>)
    ensures r == Some(JNull) <==> !Truthy(v) || (v.JStr? && Text.IsBlank(v.s))
    ensures r.None? <==> Truthy(v) && !v.JStr?
    ensures r.Some? && r.value != JNull ==> r.value.JStr? && r.value.s != "" && Text.NoEdgeSpace(r.value.s)
  {
    if !Truthy(v) then Some(JNull)
    else match v
      case JStr(s) => if Text.IsBlank(s) then Some(JNull) else Some(JStr(Text.Strip(s)))
      case _ => None
  }

  /** The entry `_sanitize_generated_questions` builds. */
  function SanitizedEntry(question: string, modelAnswer: Json, score: Json): map<string, Json> {
    map["question" := JStr(question), "answer" := JNull, "model_answer" := modelAnswer,
        "improvement_tips" := JNull, "score" := score]
  }

  /** An entry such as sanitising produces: built from its own non-blank stripped question,
      its model answer (`None` or non-blank and stripped) and its score. */
  predicate IsSanitized(e: map<string, Json>) {
    && "question" in e && "model_answer" in e && "score" in e
    && e["question"].JStr? && e["question"].s != "" && Text.NoEdgeSpace(e["question"].s)
    && (e["model_answer"] == JNull ||
        (e["model_answer"].JStr? && e["model_answer"].s != "" && Text.NoEdgeSpace(e["model_answer"].s)))
    && e == SanitizedEntry(e["question"].s, e["model_answer"], e["score"])
  }

  /** What the loop does with one entry: skips it, appends its rebuilt form, or raises. */
  datatype Outcome<T> = Skip | Keep(value: T) | Fail

  /** An entry with a question whose model answer cannot be stripped. */
  predicate Raises(e: map<string, Json>, show: Json -> string) {
    QuestionText(e, show) != "" && ModelAnswer(Get(e, "model_answer")).None?
  }

  /** One iteration of `_sanitize_generated_questions`. */
  function EntryOutcome(e: map<string, Json>, show: Json -> string): (r: Outcome<map<string, Json>>)
    ensures r.Skip? <==> QuestionText(e, show) == ""
    ensures r.Fail? <==> Raises(e, show)
    ensures r.Keep? ==> IsSanitized(r.value)
  {
    var q := QuestionText(e, show);
    if q == "" then Skip
    else
      match ModelAnswer(Get(e, "model_answer"))
      case None => Fail
      case Some(m) =>
        SanitizedEntryIsSanitized(q, m, Get(e, "score"));
        Keep(SanitizedEntry(q, m, Get(e, "score")))
  }

  /** A rebuilt entry whose question and model answer are clean is sanitised. */
  lemma SanitizedEntryIsSanitized(q: string, m: Json, score: Json)
    requires q != "" && Text.NoEdgeSpace(q)
    requires m == JNull || (m.JStr? && m.s != "" && Text.NoEdgeSpace(m.s))
    ensures IsSanitized(SanitizedEntry(q, m, score))
  {
    SanitizedEntryFields(q, m, score);
  }

  /** The kept values in order, or the position of the first failure. */
  function Collect<T>(outs: seq<Outcome<T>>): (r: Result<seq<T>, nat>)
    ensures r.Ok? <==> forall i | 0 <= i < |outs| :: !outs[i].Fail?
    ensures r.Err? ==> r.error < |outs| && outs[r.error].Fail? && forall i | 0 <= i < r.error :: !outs[i].Fail?
    ensures r.Ok? ==> |r.value| <= |outs|
    ensures r.Ok? ==> forall k | 0 <= k < |r.value| :: exists i | 0 <= i < |outs| :: outs[i] == Keep(r.value[k])
    decreases |outs|
  {
    if |outs| == 0 then Ok([])
    else
      var rest := Collect(outs[1..]);
      assert forall i | 1 <= i < |outs| :: outs[1..][i - 1] == outs[i];
      match outs[0]
      case Fail => Err(0)
      case Skip =>
        (match rest
         case Ok(v) => Ok(v)
         case Err(i) => Err(i + 1))
      case Keep(x) =>
        (match rest
         case Ok(v) =>
           assert forall k | 1 <= k < |v| + 1 :: ([x] + v)[k] == v[k - 1];
           Ok([x] + v)
         case Err(i) => Err(i + 1))
  }

  /** The result for two lists in a row, from the results for each: the first failure,
      counted from the start of the first list, or the values of both in order. */
  function Chain<T>(x: Result<seq<T>, nat>, y: Result<seq<T>, nat>, offset: nat): Result<seq<T>, nat> {
    match x
    case Err(i) => Err(i)
    case Ok(u) =>
      match y
      case Err(j) => Err(offset + j)
      case Ok(v) => Ok(u + v)
  }

  /** Collecting is done piece by piece. */
  lemma {:induction false} CollectAppend<T>(a: seq<Outcome<T>>, b: seq<Outcome<T>>)
    ensures Collect(a + b) == Chain(Collect(a), Collect(b), |a|)
    decreases |a|
  {
    if |a| == 0 {
      assert a + b == b;
      if Collect(b).Ok? {
        assert [] + Collect(b).value == Collect(b).value;
      }
    } else {
      assert a + b == [a[0]] + (a[1..] + b);
      assert a == [a[0]] + a[1..];
      CollectAppend(a[1..], b);
      CollectCons(a[0], a[1..] + b);
      CollectCons(a[0], a[1..]);
      PrependChain(a[0], Collect(a[1..]), Collect(b), |a| - 1);
    }
  }

  /** The result with one more outcome in front. */
  function Prepend<T>(o: Outcome<T>, rest: Result<seq<T>, nat>): Result<seq<T>, nat> {
    match o
    case Fail => Err(0)
    case Skip => (match rest case Ok(v) => Ok(v) case Err(i) => Err(i + 1))
    case Keep(x) => (match rest case Ok(v) => Ok([x] + v) case Err(i) => Err(i + 1))
  }

  lemma CollectCons<T>(o: Outcome<T>, rest: seq<Outcome<T>>)
    ensures Collect([o] + rest) == Prepend(o, Collect(rest))
  {
    assert ([o] + rest)[1..] == rest;
  }

  lemma PrependChain<T>(o: Outcome<T>, x: Result<seq<T>, nat>, y: Result<seq<T>, nat>, n: nat)
    ensures Prepend(o, Chain(x, y, n)) == Chain(Prepend(o, x), y, n + 1)
  {
    if o.Keep? && x.Ok? && y.Ok? {
      assert [o.value] + (x.value + y.value) == ([o.value] + x.value) + y.value;
    }
  }

  /** Collecting nothing but kept values gives them all. */
  lemma {:induction false} CollectKept<T>(outs: seq<Outcome<T>>, values: seq<T>)
    requires |outs| == |values| && forall i | 0 <= i < |outs| :: outs[i] == Keep(values[i])
    ensures Collect(outs) == Ok(values)
    decreases |outs|
  {
    if |outs| > 0 {
      var rest, later := outs[1..], values[1..];
      assert forall i | 0 <= i < |rest| :: rest[i] == Keep(later[i]);
      CollectKept(rest, later);
      CollectCons(outs[0], rest);
      assert outs == [outs[0]] + rest && values == [values[0]] + later;
    }
  }

  function Outcomes(raw: seq<map<string, Json>>, show: Json -> string): (r: seq<Outcome<map<string, Json>>>)
    ensures |r| == |raw| && forall i | 0 <= i < |raw| :: r[i] == EntryOutcome(raw[i], show)
  {
    Seqs.MapSeq(raw, e => EntryOutcome(e, show))
  }

  /** `_sanitize_generated_questions`: the entries with a non-blank question, in order,
      rebuilt with the question stripped, no answer or tips, the model answer stripped (or
      `None`) and the score as it was; `Err(i)` when entry `i` is the first to raise. */
  function Sanitize(raw: seq<map<string, Json>>, show: Json -> string): (r: Result<seq<map<string, Json>>, nat>)
    ensures r.Ok? <==> forall i | 0 <= i < |raw| :: !Raises(raw[i], show)
    ensures r.Err? ==> r.error < |raw| && Raises(raw[r.error], show)
    ensures r.Err? ==> forall i | 0 <= i < r.error :: !Raises(raw[i], show)
    ensures r.Ok? ==> |r.value| <= |raw|
    ensures r.Ok? ==> forall k | 0 <= k < |r.value| :: IsSanitized(r.value[k])
  {
    var outs := Outcomes(raw, show);
    var r := Collect(outs);
    assert r.Ok? ==> forall k | 0 <= k < |r.value| :: IsSanitized(r.value[k]) by {
      if r.Ok? {
        forall k | 0 <= k < |r.value| ensures IsSanitized(r.value[k]) {
          var i :| 0 <= i < |outs| && outs[i] == Keep(r.value[k]);
        }
      }
    }
    r
  }

  /** A kept entry carries the stripped question, the stripped model answer and the score. */
  lemma KeptEntry(e: map<string, Json>, show: Json -> string)
    requires EntryOutcome(e, show).Keep?
    ensures var kept := EntryOutcome(e, show).value;
            && kept["question"] == JStr(QuestionText(e, show))
            && kept["model_answer"] == ModelAnswer(Get(e, "model_answer")).value
            && kept["score"] == Get(e, "score")
  {
    var q, m := QuestionText(e, show), ModelAnswer(Get(e, "model_answer")).value;
    assert EntryOutcome(e, show) == Keep(SanitizedEntry(q, m, Get(e, "score")));
    SanitizedEntryFields(q, m, Get(e, "score"));
  }

  lemma SanitizedEntryFields(q: string, m: Json, score: Json)
    ensures var e := SanitizedEntry(q, m, score);
            e["question"] == JStr(q) && e["model_answer"] == m && e["score"] == score
  {
  }

  /** A single entry is skipped, kept or raises, as its outcome says. */
  lemma SanitizeOne(e: map<string, Json>, show: Json -> string)
    ensures Sanitize([e], show) ==
              match EntryOutcome(e, show)
              case Skip => Ok([])
              case Fail => Err(0)
              case Keep(x) => Ok([x])
  {
    assert Outcomes([e], show) == [EntryOutcome(e, show)];
    CollectOne(EntryOutcome(e, show));
  }

  lemma CollectOne<T>(o: Outcome<T>)
    ensures Collect([o]) == match o case Skip => Ok([]) case Fail => Err(0) case Keep(x) => Ok([x])
  {
    assert [o][1..] == [];
    if o.Keep? {
      assert [o.value] + [] == [o.value];
    }
  }

  /** Sanitising keeps the order: a list is sanitised piece by piece. */
  lemma SanitizeAppend(a: seq<map<string, Json>>, b: seq<map<string, Json>>, show: Json -> string)
    ensures Sanitize(a + b, show) == Chain(Sanitize(a, show), Sanitize(b, show), |a|)
  {
    OutcomesAppend(a, b, show);
    CollectAppend(Outcomes(a, show), Outcomes(b, show));
  }

  lemma OutcomesAppend(a: seq<map<string, Json>>, b: seq<map<string, Json>>, show: Json -> string)
    ensures Outcomes(a + b, show) == Outcomes(a, show) + Outcomes(b, show)
  {
    Seqs.MapSeqAppend(a, b, e => EntryOutcome(e, show));
  }

  /** A sanitised entry is kept as it is. */
  lemma SanitizedEntryFixed(e: map<string, Json>, show: Json -> string)
    requires IsSanitized(e)
    ensures EntryOutcome(e, show) == Keep(e)
  {
    var q, m := e["question"].s, e["model_answer"];
    Text.StripKeepsClean(q);
    assert QuestionText(e, show) == q;
    CleanModelAnswerFixed(m);
    assert Get(e, "model_answer") == m;
    assert EntryOutcome(e, show) == Keep(SanitizedEntry(q, m, Get(e, "score")));
  }

  /** A model answer that is NULL or a non-empty stripped string is kept as it is. */
  lemma CleanModelAnswerFixed(m: Json)
    requires m == JNull || (m.JStr? && m.s != "" && Text.NoEdgeSpace(m.s))
    ensures ModelAnswer(m) == Some(m)
  {
    if m != JNull {
      Text.StripKeepsClean(m.s);
      assert !Text.IsSpace(m.s[0]);
    }
  }

  /** Sanitised entries are their own sanitising. */
  lemma SanitizeSanitized(entries: seq<map<string, Json>>, show: Json -> string)
    requires forall k | 0 <= k < |entries| :: IsSanitized(entries[k])
    ensures Sanitize(entries, show) == Ok(entries)
  {
    forall k | 0 <= k < |entries| ensures Outcomes(entries, show)[k] == Keep(entries[k]) {
      SanitizedEntryFixed(entries[k], show);
    }
    CollectKept(Outcomes(entries, show), entries);
  }

  /** Sanitising is idempotent. */
  lemma SanitizeIdempotent(raw: seq<map<string, Json>>, show: Json -> string)
    requires Sanitize(raw, show).Ok?
    ensures Sanitize(Sanitize(raw, show).value, show) == Sanitize(raw, show)
  {
    SanitizeSanitized(Sanitize(raw, show).value, show);
  }

  /** The dictionary `generate_questions` returns for one question. */
  function GeneratedEntry(g: QuestionGenerator.GeneratedQuestion): map<string, Json> {
    map["question" := JStr(g.question), "answer" := JStr(g.answer), "hint" := JStr(g.hint),
        "type" := JStr(g.kind)]
  }

  function GeneratedEntries(gs: seq<QuestionGenerator.GeneratedQuestion>): (r: seq<map<string, Json>>)
    ensures |r| == |gs|
    ensures forall i | 0 <= i < |gs| :: r[i] == GeneratedEntry(gs[i])
  {
    seq(|gs|, i requires 0 <= i < |gs| => GeneratedEntry(gs[i]))
  }

  /** The entry a generated question becomes: its question alone, no model answer, no score. */
  function AskedOnly(question: string): map<string, Json> {
    SanitizedEntry(question, JNull, JNull)
  }

  /** A generated question, never blank and already stripped, survives sanitising; the
      model answer and score it lacks become `None`. */
  lemma GeneratedEntryKept(g: QuestionGenerator.GeneratedQuestion, show: Json -> string)
    requires g.question != "" && Text.NoEdgeSpace(g.question)
    ensures EntryOutcome(GeneratedEntry(g), show) == Keep(AskedOnly(g.question))
  {
    var e := GeneratedEntry(g);
    GeneratedEntryFields(g);
    Text.StripKeepsClean(g.question);
    assert QuestionText(e, show) == g.question;
  }

  lemma GeneratedEntryFields(g: QuestionGenerator.GeneratedQuestion)
    ensures var e := GeneratedEntry(g);
            && "question" in e && e["question"] == JStr(g.question)
            && Get(e, "model_answer") == JNull && Get(e, "score") == JNull
  {
  }

  /** Generated questions all survive sanitising, in order, each as its question alone. */
  lemma SanitizeGenerated(gs: seq<QuestionGenerator.GeneratedQuestion>, show: Json -> string)
    requires forall q | q in gs :: q.question != "" && Text.NoEdgeSpace(q.question)
    ensures Sanitize(GeneratedEntries(gs), show).Ok?
    ensures |Sanitize(GeneratedEntries(gs), show).value| == |gs|
    ensures forall i | 0 <= i < |gs| :: Sanitize(GeneratedEntries(gs), show).value[i] == AskedOnly(gs[i].question)
  {
    var asked := seq(|gs|, i requires 0 <= i < |gs| => AskedOnly(gs[i].question));
    var outs := Outcomes(GeneratedEntries(gs), show);
    forall i | 0 <= i < |gs| ensures outs[i] == Keep(asked[i]) {
      assert gs[i] in gs;
      GeneratedEntryKept(gs[i], show);
    }
    CollectKept(outs, asked);
  }

  /** Every sanitised entry has a truthy question, so the store inserts them all. */
  lemma SanitizedInsertable(entries: seq<map<string, Json>>)
    requires forall k | 0 <= k < |entries| :: IsSanitized(entries[k])
    ensures Store.Insertable(entries) == entries
  {
    forall k | 0 <= k < |entries| ensures Truthy(Get(entries[k], "question")) {
      assert Get(entries[k], "question") == entries[k]["question"];
    }
    Store.InsertableAll(entries);
  }

  // ---------------------------------------------------------------------------
  // GET /question/{speech_id}

  /** The two texts joined by a blank line, a blank one left out and neither stripped;
      `None` when both are blank. */
  function CombinedText(transcript: string, document: string): (r: Option<string>)
    ensures r.None? <==> Text.IsBlank(transcript) && Text.IsBlank(document)
    ensures !Text.IsBlank(transcript) && !Text.IsBlank(document) ==> r == Some(transcript + "\n\n" + document)
    ensures !Text.IsBlank(transcript) && Text.IsBlank(document) ==> r == Some(transcript)
    ensures Text.IsBlank(transcript) && !Text.IsBlank(document) ==> r == Some(document)
  {
    if Text.IsBlank(transcript) && Text.IsBlank(document) then None
    else Some(Text.Fuse(transcript, document, "\n\n"))
  }

  /** The stored list as dictionaries, `None` when one of its entries is not an object. */
  function Objects(items: seq<Json>): (r: Option<seq<map<string, Json>>>)
    ensures r.None? <==> exists i | 0 <= i < |items| :: !items[i].JObject?
    ensures r.Some? ==> |r.value| == |items| && forall i | 0 <= i < |items| :: items[i] == JObject(r.value[i])
    decreases |items|
  {
    if |items| == 0 then Some([])
    else
      assert forall i | 1 <= i < |items| :: items[1..][i - 1] == items[i];
      match (items[0], Objects(items[1..]))
      case (JObject(fields), Some(rest)) => Some([fields] + rest)
      case _ => None
  }

  /** The completed job's stored list holds something other than an object, which makes
      `upsert_questions` raise. */
  predicate StoredListBroken(db: Store.Db, speechId: Store.Uuid) {
    match Store.LatestCompleted(db.jobs, speechId)
    case Some(job) => job.questions.JList? && Objects(job.questions.items).None?
    case None => false
  }

  /** The number of questions and the difficulty `generate_questions` is called with. */
  const QuestionCount := 5
  const Difficulty := "medium"

  /** The questions `get_questions_for_speech` generates for a job: from its transcript and
      document text when one of them is not blank. */
  function GeneratedFor(job: Store.Job, reply: Option<string>): Option<seq<QuestionGenerator.GeneratedQuestion>> {
    match CombinedText(job.transcript.GetOr(""), ExtractDocumentText(job.metadata))
    case None => None
    case Some(text) => Some(QuestionGenerator.GenerateQuestions(text, QuestionCount, Difficulty, reply))
  }

  /** `get_questions_for_speech` (ownership aside): the speech's questions when it has any;
      otherwise those of its latest completed job, stored or generated, which then replace
      the speech's questions. `reply` is the language model's answer to the generator,
      `None` when calling it failed; `show` renders a list or dict question as `str` would.
      The handler's 503 branch is unreachable: `generate_questions` falls back instead of
      raising. An error leaves the store as it was. */
  function QuestionsForSpeech(db: Store.Db, speechId: Store.Uuid, reply: Option<string>, show: Json -> string)
    : (r: Result<(Store.Db, seq<Store.QuestionRow>), ApiError>)
    ensures speechId !in db.speeches ==> r == Err(ApiError(NotFound, SpeechNotFound))
    ensures speechId in db.speeches && Store.QuestionsOf(db.questions, speechId) != [] ==>
              r == Ok((db, Store.QuestionsOf(db.questions, speechId)))
    ensures r.Err? ==> r.error.status == NotFound || (r.error.status == ServerError && StoredListBroken(db, speechId))
    ensures r.Ok? ==>
              && r.value.1 == Store.QuestionsOf(r.value.0.questions, speechId)
              && r.value.0.jobs == db.jobs && r.value.0.speeches == db.speeches
              && (forall other | other != speechId ::
                    Store.QuestionsOf(r.value.0.questions, other) == Store.QuestionsOf(db.questions, other))
  {
    if speechId !in db.speeches then Err(ApiError(NotFound, SpeechNotFound))
    else
      var existing := Store.QuestionsOf(db.questions, speechId);
      if existing != [] then Ok((db, existing))
      else
        match Store.LatestCompleted(db.jobs, speechId)
        case None => Err(ApiError(NotFound, NoQuestions))
        case Some(job) =>
          if job.questions.JList? && job.questions.items != [] then
            match Objects(job.questions.items)
            case None => Err(ApiError(ServerError, InternalError))
            case Some(entries) => Ok(Store.UpsertQuestions(db, speechId, entries))
          else
            match GeneratedFor(job, reply)
            case None => Err(ApiError(NotFound, NoQuestions))
            case Some(generated) => ServeGenerated(db, speechId, generated, show)
  }

  /** The end of `get_questions_for_speech`: the generated questions sanitised and, unless
      none is left, stored in place of the speech's questions. Generated questions are never
      blank, so all of them are stored, each as its question alone. */
  function ServeGenerated(db: Store.Db, speechId: Store.Uuid, generated: seq<QuestionGenerator.GeneratedQuestion>,
                          show: Json -> string): (r: Result<(Store.Db, seq<Store.QuestionRow>), ApiError>)
    requires forall q | q in generated :: q.question != "" && Text.NoEdgeSpace(q.question)
    ensures r.Ok? <==> generated != []
    ensures r.Err? ==> r.error == ApiError(NotFound, NoQuestions)
    ensures r.Ok? ==>
              && r.value.1 == Store.QuestionsOf(r.value.0.questions, speechId)
              && r.value.0.jobs == db.jobs && r.value.0.speeches == db.speeches
              && (forall other | other != speechId ::
                    Store.QuestionsOf(r.value.0.questions, other) == Store.QuestionsOf(db.questions, other))
              && |r.value.1| == |generated|
              && forall i | 0 <= i < |generated| ::
                   && r.value.1[i].question == JStr(generated[i].question)
                   && r.value.1[i].modelAnswer == JNull
                   && r.value.1[i].userAnswer.None? && r.value.1[i].aiFeedback.None?
  {
    // Sanitising cannot raise here: every generated entry's model answer is absent.
    SanitizeGenerated(generated, show);
    var sanitized := Sanitize(GeneratedEntries(generated), show).value;
    if sanitized == [] then Err(ApiError(NotFound, NoQuestions))
    else
      StoreAsked(db, speechId, sanitized, generated);
      Ok(Store.UpsertQuestions(db, speechId, sanitized))
  }

  /** Storing the sanitised generated questions makes them the speech's rows, in order. */
  lemma StoreAsked(db: Store.Db, speechId: Store.Uuid, sanitized: seq<map<string, Json>>,
                   generated: seq<QuestionGenerator.GeneratedQuestion>)
    requires sanitized != [] && |sanitized| == |generated|
    requires forall i | 0 <= i < |sanitized| :: IsSanitized(sanitized[i])
    requires forall i | 0 <= i < |generated| :: sanitized[i] == AskedOnly(generated[i].question)
    ensures var rows := Store.UpsertQuestions(db, speechId, sanitized).1;
            && |rows| == |generated|
            && forall i | 0 <= i < |generated| ::
                 && rows[i].question == JStr(generated[i].question)
                 && rows[i].modelAnswer == JNull
                 && rows[i].userAnswer.None? && rows[i].aiFeedback.None?
  {
    SanitizedInsertable(sanitized);
    assert forall i | 0 <= i < |generated| :: Get(sanitized[i], "question") == JStr(generated[i].question);
    assert forall i | 0 <= i < |generated| :: Get(sanitized[i], "model_answer") == JNull;
  }

  /** When the speech has no questions and its latest completed job stored none, the
      generated questions are served; with nothing to generate from, the answer is 404. */
  lemma GeneratedQuestionsServed(db: Store.Db, speechId: Store.Uuid, reply: Option<string>, show: Json -> string)
    requires speechId in db.speeches && Store.QuestionsOf(db.questions, speechId) == []
    requires Store.LatestCompleted(db.jobs, speechId).Some?
    requires var job := Store.LatestCompleted(db.jobs, speechId).value;
             !(job.questions.JList? && job.questions.items != [])
    ensures var job := Store.LatestCompleted(db.jobs, speechId).value;
            var r := QuestionsForSpeech(db, speechId, reply, show);
            && (GeneratedFor(job, reply).None? ==> r == Err(ApiError(NotFound, NoQuestions)))
            && (GeneratedFor(job, reply).Some? ==> r == ServeGenerated(db, speechId, GeneratedFor(job, reply).value, show))
  {
  }

  /** A completed job's stored list of objects replaces the speech's questions: those with a
      truthy question, in order. */
  lemma StoredQuestionsServed(db: Store.Db, speechId: Store.Uuid, reply: Option<string>, show: Json -> string)
    requires speechId in db.speeches && Store.QuestionsOf(db.questions, speechId) == []
    requires Store.LatestCompleted(db.jobs, speechId).Some?
    requires var job := Store.LatestCompleted(db.jobs, speechId).value;
             job.questions.JList? && job.questions.items != [] && Objects(job.questions.items).Some?
    ensures var entries := Objects(Store.LatestCompleted(db.jobs, speechId).value.questions.items).value;
            var r := QuestionsForSpeech(db, speechId, reply, show);
            && r.Ok?
            && |r.value.1| == |Store.Insertable(entries)|
            && forall i | 0 <= i < |r.value.1| :: r.value.1[i].question == Get(Store.Insertable(entries)[i], "question")
  {
  }
}

=== FILE: config.dfy ===
/** `Settings.from_env` and `postgres_dsn` of config.py, with the process environment as a
    map from variable names to values (an unset variable is a missing key). */
module Config {
  import opened Wrappers
  import Text

  type Env = map<string, string>

  datatype Settings = Settings(
    postgresDb: string,
    postgresUser: string,
    postgresPassword: string,
    postgresHost: string,
    postgresPort: int,
    jwtSecretKey: string,
    awsAccessKey: string,
    awsSecretKey: string,
    awsRegion: string,
    awsBucket: string,
    downloadsDir: string,
    audioOutputDir: string,
    jobBatchSize: int)

  /** Why `from_env` raises: required variables missing or empty (in the order they are
      checked), a port or batch size that `int()` rejects, or no bucket. */
  datatype ConfigError =
    | MissingVariables(names: seq<string>)
    | InvalidInteger(name: string, value: string)
    | MissingBucket

  /** The six variables that must be set and non-empty, in the order they are checked. */
  const Required: seq<string> :=
    ["POSTGRES_DB", "POSTGRES_USER", "POSTGRES_PASSWORD", "JWT_SECRET_KEY", "AWS_ACCESS_KEY", "AWS_SECRET_KEY"]

  const DefaultHost := "localhost"
  const DefaultPort := "5432"
  const DefaultRegion := "ap-northeast-2"
  const DefaultDownloadsDir := "downloads"
  const DefaultAudioOutputDir := "audio"
  const DefaultBatchSize := "1"

  /** The message of each failure: the two `RuntimeError`s `from_env` raises itself, and
      for an invalid integer the `ValueError` of `int()`. Python quotes that value with
      `repr`; the single quotes around the raw text here agree with it only for a value
      holding no quote, backslash or unprintable character. */
  function Message(e: ConfigError): string {
    match e
    case MissingVariables(names) => "Missing required environment variables: " + Text.Join(names, ", ")
    case InvalidInteger(name, value) => "invalid literal for int() with base 10: '" + value + "'"
    case MissingBucket => "Missing required environment variable: AWS_BUCKET"
  }

  /** `os.getenv(name, default)`: the value when set, even when empty; the default otherwise. */
  function GetEnv(env: Env, name: string, default: string): (v: string)
    ensures name in env ==> v == env[name]
    ensures name !in env ==> v == default
  {
    if name in env then env[name] else default
  }

  /** `os.getenv(name)` is truthy. */
  predicate IsSet(env: Env, name: string) {
    name in env && env[name] != ""
  }

  /** The names among `names` that are unset or empty, in order. */
  function Missing(env: Env, names: seq<string>): (r: seq<string>)
    ensures forall n | n in r :: n in names && !IsSet(env, n)
    ensures forall n | n in names && !IsSet(env, n) :: n in r
    ensures |r| <= |names|
    decreases |names|
  {
    if |names| == 0 then []
    else (if IsSet(env, names[0]) then [] else [names[0]]) + Missing(env, names[1..])
  }

  /** Checking two lists of names one after the other reports the first list's missing
      names first. */
  lemma {:induction false} MissingAppend(env: Env, a: seq<string>, b: seq<string>)
    ensures Missing(env, a + b) == Missing(env, a) + Missing(env, b)
    decreases |a|
  {
    if |a| > 0 {
      assert (a + b)[1..] == a[1..] + b;
      MissingAppend(env, a[1..], b);
    } else {
      assert a + b == b;
    }
  }

  /** Each of the six required variables is set and non-empty. */
  predicate RequiredSet(env: Env) {
    && IsSet(env, "POSTGRES_DB") && IsSet(env, "POSTGRES_USER") && IsSet(env, "POSTGRES_PASSWORD")
    && IsSet(env, "JWT_SECRET_KEY") && IsSet(env, "AWS_ACCESS_KEY") && IsSet(env, "AWS_SECRET_KEY")
  }

  /** Nothing is reported missing exactly when every required variable is set. */
  lemma NoneMissing(env: Env)
    ensures Missing(env, Required) == [] <==> RequiredSet(env)
  {
    NoneMissingOf(env, Required);
    RequiredListed(env);
  }

  /** An empty report means every checked name is set, and conversely. */
  lemma {:induction false} NoneMissingOf(env: Env, names: seq<string>)
    ensures Missing(env, names) == [] <==> forall n | n in names :: IsSet(env, n)
    decreases |names|
  {
    if |names| > 0 {
      NoneMissingOf(env, names[1..]);
      assert forall n :: n in names <==> n == names[0] || n in names[1..];
    }
  }

  /** `RequiredSet` spells out the six names of `Required`. */
  lemma RequiredListed(env: Env)
    ensures RequiredSet(env) <==> forall n | n in Required :: IsSet(env, n)
  {
    assert forall n :: n in Required <==>
      n == Required[0] || n == Required[1] || n == Required[2] ||
      n == Required[3] || n == Required[4] || n == Required[5];
  }

  /** The setting (or its default) read as an integer, an error when it is not one. */
  function IntSetting(env: Env, name: string, default: string): (r: Result<int, ConfigError>)
    ensures r.Ok? <==> Text.ParseInt(GetEnv(env, name, default)).Some?
    ensures r.Ok? ==> Text.ParseInt(GetEnv(env, name, default)) == Some(r.value)
    ensures r.Err? ==> r.error == InvalidInteger(name, GetEnv(env, name, default))
  {
    var raw := GetEnv(env, name, default);
    match Text.ParseInt(raw)
    case Some(v) => Ok(v)
    case None => Err(InvalidInteger(name, raw))
  }

  /** `Settings.from_env`. The checks run in the source's order: the six required names, the
      port, the bucket, then the batch size; the first that fails decides the error. */
  function FromEnv(env: Env): (r: Result<Settings, ConfigError>)
    ensures r.Err? && r.error.MissingVariables? <==> Missing(env, Required) != []
    ensures r.Err? && r.error.MissingVariables? ==> r.error.names == Missing(env, Required)
    ensures r.Err? && r.error == InvalidInteger("POSTGRES_PORT", GetEnv(env, "POSTGRES_PORT", DefaultPort)) <==>
              RequiredSet(env) && Text.ParseInt(GetEnv(env, "POSTGRES_PORT", DefaultPort)).None?
    ensures r.Err? && r.error.MissingBucket? <==>
              && RequiredSet(env)
              && Text.ParseInt(GetEnv(env, "POSTGRES_PORT", DefaultPort)).Some?
              && !IsSet(env, "AWS_BUCKET")
    ensures r.Err? && r.error == InvalidInteger("JOB_BATCH_SIZE", GetEnv(env, "JOB_BATCH_SIZE", DefaultBatchSize)) <==>
              && RequiredSet(env)
              && Text.ParseInt(GetEnv(env, "POSTGRES_PORT", DefaultPort)).Some?
              && IsSet(env, "AWS_BUCKET")
              && Text.ParseInt(GetEnv(env, "JOB_BATCH_SIZE", DefaultBatchSize)).None?
    ensures r.Ok? <==>
              && RequiredSet(env)
              && Text.ParseInt(GetEnv(env, "POSTGRES_PORT", DefaultPort)).Some?
              && IsSet(env, "AWS_BUCKET")
              && Text.ParseInt(GetEnv(env, "JOB_BATCH_SIZE", DefaultBatchSize)).Some?
    ensures r.Ok? ==>
              && RequiredSet(env) && IsSet(env, "AWS_BUCKET")
              && r.value.postgresDb == env["POSTGRES_DB"]
              && r.value.postgresUser == env["POSTGRES_USER"]
              && r.value.postgresPassword == env["POSTGRES_PASSWORD"]
              && r.value.jwtSecretKey == env["JWT_SECRET_KEY"]
              && r.value.awsAccessKey == env["AWS_ACCESS_KEY"]
              && r.value.awsSecretKey == env["AWS_SECRET_KEY"]
              && r.value.awsBucket == env["AWS_BUCKET"]
              && r.value.postgresHost == GetEnv(env, "POSTGRES_HOST", DefaultHost)
              && Text.ParseInt(GetEnv(env, "POSTGRES_PORT", DefaultPort)) == Some(r.value.postgresPort)
              && r.value.awsRegion == GetEnv(env, "AWS_REGION", GetEnv(env, "AWS_DEFAULT_REGION", DefaultRegion))
              && r.value.downloadsDir == GetEnv(env, "DOWNLOADS_DIR", DefaultDownloadsDir)
              && r.value.audioOutputDir == GetEnv(env, "AUDIO_OUTPUT_DIR", DefaultAudioOutputDir)
              && Text.ParseInt(GetEnv(env, "JOB_BATCH_SIZE", DefaultBatchSize)) == Some(r.value.jobBatchSize)
  {
    var missing := Missing(env, Required);
    NoneMissing(env);
    if missing != [] then Err(MissingVariables(missing))
    else
      var host := GetEnv(env, "POSTGRES_HOST", DefaultHost);
      match IntSetting(env, "POSTGRES_PORT", DefaultPort)
      case Err(e) => Err(e)
      case Ok(port) =>
        var region := GetEnv(env, "AWS_REGION", GetEnv(env, "AWS_DEFAULT_REGION", DefaultRegion));
        if !IsSet(env, "AWS_BUCKET") then Err(MissingBucket)
        else
          match IntSetting(env, "JOB_BATCH_SIZE", DefaultBatchSize)
          case Err(e) => Err(e)
          case Ok(batch) =>
            Ok(Settings(env["POSTGRES_DB"], env["POSTGRES_USER"], env["POSTGRES_PASSWORD"], host, port,
                        env["JWT_SECRET_KEY"], env["AWS_ACCESS_KEY"], env["AWS_SECRET_KEY"], region,
                        env["AWS_BUCKET"], GetEnv(env, "DOWNLOADS_DIR", DefaultDownloadsDir),
                        GetEnv(env, "AUDIO_OUTPUT_DIR", DefaultAudioOutputDir), batch))
  }

  /** With every variable unset only the six required names are reported, all of them. */
  lemma EmptyEnvironment()
    ensures FromEnv(map[]) == Err(MissingVariables(Required))
  {
    MissingAll(map[], Required);
  }

  lemma {:induction false} MissingAll(env: Env, names: seq<string>)
    requires forall i | 0 <= i < |names| :: names[i] !in env
    ensures Missing(env, names) == names
    decreases |names|
  {
    if |names| > 0 {
      var rest := names[1..];
      assert forall i | 0 <= i < |rest| :: rest[i] == names[i + 1];
      MissingAll(env, rest);
      assert !IsSet(env, names[0]);
      assert Missing(env, names) == [names[0]] + Missing(env, rest);
      assert names == [names[0]] + rest;
    }
  }

  /** The variables that have a default. */
  const Optional: seq<string> :=
    ["POSTGRES_HOST", "POSTGRES_PORT", "AWS_REGION", "AWS_DEFAULT_REGION", "DOWNLOADS_DIR",
     "AUDIO_OUTPUT_DIR", "JOB_BATCH_SIZE"]

  /** With the required names and the bucket set and none of the optional ones, the
      settings carry the defaults. */
  lemma UnsetOptionalDefaults(env: Env)
    requires Missing(env, Required) == [] && IsSet(env, "AWS_BUCKET")
    requires forall n | n in Optional :: n !in env
    ensures FromEnv(env).Ok?
    ensures var s := FromEnv(env).value;
            && s.postgresHost == "localhost" && s.postgresPort == 5432 && s.awsRegion == "ap-northeast-2"
            && s.downloadsDir == "downloads" && s.audioOutputDir == "audio" && s.jobBatchSize == 1
  {
    ParseFixed();
    assert Optional[0] !in env && Optional[1] !in env && Optional[2] !in env && Optional[3] !in env;
    assert Optional[4] !in env && Optional[5] !in env && Optional[6] !in env;
  }

  /** The two numeric defaults read as 5432 and 1. */
  lemma ParseFixed()
    ensures Text.ParseInt(DefaultPort) == Some(5432)
    ensures Text.ParseInt(DefaultBatchSize) == Some(1)
  {
    assert Text.NatToString(5432) == DefaultPort by {
      assert Text.NatToString(5) == "5";
      assert Text.NatToString(54) == "54";
      assert Text.NatToString(543) == "543";
    }
    assert Text.NatToString(1) == DefaultBatchSize;
    Text.IntToStringRoundTrip(5432);
    Text.IntToStringRoundTrip(1);
  }

  // ---------------------------------------------------------------------------
  // The connection string

  /** `postgres_dsn`: `postgresql://{user}:{password}@{host}:{port}/{db}`. */
  function PostgresDsn(s: Settings): string {
    "postgresql://" + s.postgresUser + ":" + s.postgresPassword + "@" + s.postgresHost + ":"
      + Text.IntToString(s.postgresPort) + "/" + s.postgresDb
  }

  const Scheme := "postgresql://"

  datatype DsnParts = DsnParts(user: string, password: string, host: string, port: int, db: string)

  /** The text before and after the first `c`, `None` when there is no `c`
      (Python's `s.partition(c)` with the separator found). */
  function SplitAt(s: string, c: char): (r: Option<(string, string)>)
    ensures r.None? <==> c !in s
    ensures r.Some? ==> s == r.value.0 + [c] + r.value.1 && c !in r.value.0
  {
    var k := Text.IndexOfChar(s, c);
    if k == |s| then None
    else
      assert s == s[..k] + [c] + s[k + 1..];
      Some((s[..k], s[k + 1..]))
  }

  /** Reads a connection string of that layout back: the user runs to the first `:`, the
      password to the first `@`, the host to the next `:`, the port to the next `/`. */
  function ParseDsn(dsn: string): Option<DsnParts> {
    if !Text.HasPrefix(dsn, Scheme) then None
    else
      match SplitAt(dsn[|Scheme|..], '@')
      case None => None
      case Some((userinfo, location)) =>
        match (SplitAt(userinfo, ':'), SplitAt(location, '/'))
        case (Some((user, password)), Some((hostport, db))) =>
          (match SplitAt(hostport, ':')
           case Some((host, port)) =>
             (match Text.ParseInt(port)
              case Some(p) => Some(DsnParts(user, password, host, p, db))
              case None => None)
           case None => None)
        case _ => None
  }

  /** The fields can be read back from the connection string whenever the user has no `:`
      or `@`, the password no `@` and the host no `:` or `/`. */
  lemma PostgresDsnRoundTrip(s: Settings)
    requires ':' !in s.postgresUser && '@' !in s.postgresUser
    requires '@' !in s.postgresPassword
    requires ':' !in s.postgresHost && '/' !in s.postgresHost
    requires Text.WithinDigitLimit(s.postgresPort)
    ensures ParseDsn(PostgresDsn(s)) ==
              Some(DsnParts(s.postgresUser, s.postgresPassword, s.postgresHost, s.postgresPort, s.postgresDb))
  {
    var user, password, host, db := s.postgresUser, s.postgresPassword, s.postgresHost, s.postgresDb;
    var port := Text.IntToString(s.postgresPort);
    var userinfo := user + ":" + password;
    var hostport := host + ":" + port;
    var location := hostport + "/" + db;
    var rest := userinfo + "@" + location;
    assert PostgresDsn(s) == Scheme + rest;
    assert Text.HasPrefix(PostgresDsn(s), Scheme) && PostgresDsn(s)[|Scheme|..] == rest;
    assert '@' !in userinfo by {
      forall i | 0 <= i < |userinfo| ensures userinfo[i] != '@' {
        if i < |user| { assert userinfo[i] == user[i]; }
        else if i > |user| { assert userinfo[i] == password[i - |user| - 1]; }
      }
    }
    assert '/' !in hostport by {
      forall i | 0 <= i < |hostport| ensures hostport[i] != '/' {
        if i < |host| { assert hostport[i] == host[i]; }
        else if i > |host| {
          assert hostport[i] == port[i - |host| - 1];
          assert Text.IsAsciiDigit(port[i - |host| - 1]) || port[i - |host| - 1] == '-';
        }
      }
    }
    SplitAtJoin(userinfo, location, '@');
    SplitAtJoin(user, password, ':');
    SplitAtJoin(hostport, db, '/');
    SplitAtJoin(host, port, ':');
    Text.IntToStringRoundTrip(s.postgresPort);
  }

  /** Splitting `a + [c] + b` at the first `c` gives `a` and `b` when `a` has no `c`. */
  lemma SplitAtJoin(a: string, b: string, c: char)
    requires c !in a
    ensures SplitAt(a + [c] + b, c) == Some((a, b))
  {
    var s := a + [c] + b;
    assert s[|a|] == c;
    assert forall i | 0 <= i < |a| :: s[i] == a[i];
    assert Text.IndexOfChar(s, c) == |a|;
    assert s[..|a|] == a && s[|a| + 1..] == b;
  }
}

=== FILE: json.dfy ===
/** JSON values as the store's JSONB columns and the API's dictionaries hold them.
    Numbers are integers only; Python `None` and SQL NULL are both `JNull`. */
module Json {
  import opened Wrappers

  datatype Json =
    | JNull
    | JBool(b: bool)
    | JInt(i: int)
    | JStr(s: string)
    | JList(items: seq<Json>)
    | JObject(fields: map<string, Json>)

  /** Python truthiness: `None`, `False`, `0`, `""`, `[]` and `{}` are false. */
  predicate Truthy(j: Json) {
    match j
    case JNull => false
    case JBool(b) => b
    case JInt(i) => i != 0
    case JStr(s) => s != ""
    case JList(items) => items != []
    case JObject(fields) => fields != map[]
  }

  /** Python's `d.get(key)`: the value under `key`, or `None` when the key is absent. */
  function Get(d: map<string, Json>, key: string): Json {
    if key in d then d[key] else JNull
  }

  /** Follows `path` through nested objects: `j[path[0]][path[1]]...`, `None` as soon
      as a step meets a non-object or a missing key. */
  function Lookup(j: Json, path: seq<string>): Option<Json>
    decreases |path|
  {
    if |path| == 0 then Some(j)
    else match j
      case JObject(fields) =>
        if path[0] in fields then Lookup(fields[path[0]], path[1..]) else None
      case _ => None
  }
}

=== FILE: pdf_ocr.dfy ===
/** pdf_ocr.py: per page, the OCR output of several Tesseract configurations is scored by
    its share of Hangul syllables and ASCII letters and the best one kept; the pages are
    then cleaned and aggregated as in the pdfplumber extractor. Rendering the PDF and
    running Tesseract are not modelled: their outputs (or their failures) are parameters. */
module PdfOcr {
  import opened Wrappers
  import Text
  import PdfText
  import Seqs

  /** The four configurations tried on each page, in order. */
  const Configs: seq<string> := ["--oem 3 --psm 6", "--oem 3 --psm 3", "--oem 3 --psm 4", "--oem 3 --psm 1"]
  const Dpi := 300

  // ---------------------------------------------------------------------------
  // The quality score

  /** A precomposed Hangul syllable, `'가' <= c <= '힣'`. */
  predicate IsHangulSyllable(c: char) {
    '가' <= c <= '힣'
  }

  /** An ASCII letter: alphabetic and below code point 128. */
  predicate IsAsciiLetter(c: char) {
    ('a' <= c <= 'z') || ('A' <= c <= 'Z')
  }

  function Count(s: string, p: char -> bool): (n: nat)
    ensures n <= |s|
    decreases |s|
  {
    if |s| == 0 then 0 else (if p(s[0]) then 1 else 0) + Count(s[1..], p)
  }

  /** The Hangul syllables and the ASCII letters of `s`. */
  function Letters(s: string): nat {
    Count(s, IsHangulSyllable) + Count(s, IsAsciiLetter)
  }

  /** The characters of `s` other than spaces and newlines. */
  function Counted(s: string): nat {
    Count(s, c => c != ' ' && c != '\n')
  }

  /** Every letter the score counts is also a counted character. */
  lemma {:induction false} LettersAtMostCounted(s: string)
    ensures Letters(s) <= Counted(s)
    decreases |s|
  {
    if |s| > 0 {
      LettersAtMostCounted(s[1..]);
    }
  }

  /** The score of one OCR output, `None` when it has no counted character (the source
      skips those). */
  function Score(s: string): (r: Option<real>)
    ensures r.None? <==> Counted(s) == 0
    ensures r.Some? ==> 0.0 <= r.value <= 1.0
    ensures r.Some? ==> (r.value > 0.0 <==> Letters(s) > 0)
  {
    if Counted(s) == 0 then None
    else
      LettersAtMostCounted(s);
      RatioBounds(Letters(s) as real, Counted(s) as real);
      Some(Letters(s) as real / Counted(s) as real)
  }

  /** A share of a positive whole lies in [0, 1] and is zero only for an empty part. */
  lemma RatioBounds(part: real, whole: real)
    requires 0.0 <= part <= whole && whole > 0.0
    ensures 0.0 <= part / whole <= 1.0
    ensures part / whole > 0.0 <==> part > 0.0
  {
    assert part / whole * whole == part;
  }

  // ---------------------------------------------------------------------------
  // Choosing a configuration

  /** What one `image_to_string` call gave: its text, or `None` when it raised. */
  type Attempt = Option<string>

  predicate Scored(a: Attempt) {
    a.Some? && Score(a.value).Some?
  }

  function ScoreOf(a: Attempt): real
    requires Scored(a)
  {
    Score(a.value).value
  }

  /** `k` is the configuration the loop keeps: its score is above zero, strictly above every
      earlier attempt's and at least every later one's; `None` when no attempt scores above
      zero. */
  predicate IsBestChoice(attempts: seq<Attempt>, k: Option<nat>) {
    match k
    case None => forall i | 0 <= i < |attempts| && Scored(attempts[i]) :: ScoreOf(attempts[i]) <= 0.0
    case Some(k) =>
      && k < |attempts| && Scored(attempts[k]) && ScoreOf(attempts[k]) > 0.0
      && (forall i | 0 <= i < k && Scored(attempts[i]) :: ScoreOf(attempts[i]) < ScoreOf(attempts[k]))
      && (forall i | k < i < |attempts| && Scored(attempts[i]) :: ScoreOf(attempts[i]) <= ScoreOf(attempts[k]))
  }

  /** At most one choice fits that description. */
  lemma BestChoiceUnique(attempts: seq<Attempt>, k1: Option<nat>, k2: Option<nat>)
    requires IsBestChoice(attempts, k1) && IsBestChoice(attempts, k2)
    ensures k1 == k2
  {
  }

  /** The loop over the configurations: `best_score` starts at 0 and only a strictly
      greater score replaces the kept text. */
  function BestAttempt(attempts: seq<Attempt>): (k: Option<nat>)
    ensures IsBestChoice(attempts, k)
    decreases |attempts|
  {
    if |attempts| == 0 then None
    else
      var prev := BestAttempt(attempts[..|attempts| - 1]);
      BestChoiceExtends(attempts, prev);
      Keep(attempts, prev)
  }

  /** The choice after looking at the last attempt, given the choice among the others. */
  function Keep(attempts: seq<Attempt>, prev: Option<nat>): Option<nat>
    requires |attempts| > 0 && IsBestChoice(attempts[..|attempts| - 1], prev)
  {
    var n := |attempts| - 1;
    var bar := if prev.Some? then ScoreOf(attempts[..n][prev.value]) else 0.0;
    if Scored(attempts[n]) && ScoreOf(attempts[n]) > bar then Some(n) else prev
  }

  /** Looking at one more attempt keeps the choice the best one. */
  lemma BestChoiceExtends(attempts: seq<Attempt>, prev: Option<nat>)
    requires |attempts| > 0 && IsBestChoice(attempts[..|attempts| - 1], prev)
    ensures IsBestChoice(attempts, Keep(attempts, prev))
  {
    var n := |attempts| - 1;
    var bar := if prev.Some? then ScoreOf(attempts[..n][prev.value]) else 0.0;
    assert forall i | 0 <= i < n :: attempts[..n][i] == attempts[i];
    assert forall i | 0 <= i < n && Scored(attempts[i]) :: ScoreOf(attempts[i]) <= bar;
    if Scored(attempts[n]) && ScoreOf(attempts[n]) > bar {
      assert Keep(attempts, prev) == Some(n);
    } else {
      assert Keep(attempts, prev) == prev;
      assert prev.Some? ==> prev.value < n && attempts[prev.value] == attempts[..n][prev.value];
    }
  }

  /** One rendered page: the output of each configured attempt, in `Configs` order, and of
      the unconfigured call that is made when no attempt is kept. */
  datatype OcrPage = OcrPage(attempts: seq<Attempt>, plain: Attempt)

  /** The raw text of a page: the kept attempt's text, or the unconfigured call's; `None`
      when that call raised (the exception leaves `extract_text_from_pdf`). */
  function PageText(page: OcrPage): (r: Option<string>)
    ensures BestAttempt(page.attempts).Some? ==>
              r == page.attempts[BestAttempt(page.attempts).value] && r.Some? && r.value != ""
    ensures BestAttempt(page.attempts).None? ==> r == page.plain
  {
    match BestAttempt(page.attempts)
    case Some(k) =>
      var text := page.attempts[k].value;
      assert Letters(text) > 0;
      Some(text)
    case None => page.plain
  }

  // ---------------------------------------------------------------------------
  // The whole document

  datatype OcrError =
    | FileNotFound(message: string)
    | ConversionFailed
    | OcrFailed(pageNumber: nat)

  /** The dictionary `extract_text_from_pdf` returns. */
  datatype OcrResult = OcrResult(
    fileName: string,
    totalPages: nat,
    pages: seq<PdfText.PageInfo>,
    fullText: string,
    language: string,
    dpi: nat,
    totalCharacters: nat,
    totalWords: nat)

  /** The page entry for one raw text. */
  function OcrEntry(text: string, number: nat): (p: PdfText.PageInfo)
    ensures p.pageNumber == number && p.rawText == text
    ensures p.cleanedText == PdfText.CleanText(text)
    ensures p.cleanedText == "" <==> Text.IsBlank(text)
    ensures p.characterCount == |p.cleanedText| && p.wordCount == |Text.Words(p.cleanedText)|
  {
    var cleaned := PdfText.CleanText(text);
    PdfText.PageInfo(number, text, cleaned, |cleaned|, if cleaned != "" then |Text.Words(cleaned)| else 0)
  }

  /** The raw text of every page in order, or the number of the first page whose
      unconfigured OCR call raised. */
  function RawTexts(pages: seq<OcrPage>): (r: Result<seq<string>, nat>)
    ensures r.Err? <==> exists i | 0 <= i < |pages| :: PageText(pages[i]).None?
    ensures r.Err? ==> 1 <= r.error <= |pages| && PageText(pages[r.error - 1]).None?
    ensures r.Err? ==> forall i | 0 <= i < r.error - 1 :: PageText(pages[i]).Some?
    ensures r.Ok? ==> |r.value| == |pages| && forall i | 0 <= i < |pages| :: PageText(pages[i]) == Some(r.value[i])
    decreases |pages|
  {
    if |pages| == 0 then Ok([])
    else
      match PageText(pages[0])
      case None => Err(1)
      case Some(raw) =>
        var tail := pages[1..];
        var rest := RawTexts(tail);
        assert forall i | 1 <= i < |pages| :: tail[i - 1] == pages[i];
        match rest
        case Err(e) =>
          assert PageText(pages[e]).None? by { assert tail[e - 1] == pages[e]; }
          Err(e + 1)
        case Ok(texts) =>
          assert forall i | 0 <= i < |pages| :: PageText(pages[i]).Some?;
          Ok([raw] + texts)
  }

  /** The page entries, numbered from 1. */
  function OcrEntries(texts: seq<string>): (r: seq<PdfText.PageInfo>)
    ensures |r| == |texts|
    ensures forall i | 0 <= i < |texts| :: r[i] == OcrEntry(texts[i], i + 1)
  {
    Seqs.Numbered(texts, OcrEntry)
  }

  /** `full_text`: every page's cleaned text followed by a blank line. */
  function OcrFullText(entries: seq<PdfText.PageInfo>): (r: string)
    requires forall i | 0 <= i < |entries| :: entries[i].characterCount == |entries[i].cleanedText|
    ensures |r| == CharacterTotal(entries) + 2 * |entries|
    decreases |entries|
  {
    if |entries| == 0 then ""
    else
      var n := |entries| - 1;
      OcrFullText(entries[..n]) + entries[n].cleanedText + "\n\n"
  }

  /** Each entry's cleaned text followed by a blank line. */
  function Paragraphs(entries: seq<PdfText.PageInfo>): (r: seq<string>)
    ensures |r| == |entries| && forall i | 0 <= i < |entries| :: r[i] == entries[i].cleanedText + "\n\n"
  {
    seq(|entries|, i requires 0 <= i < |entries| => entries[i].cleanedText + "\n\n")
  }

  /** The full text is the pages' paragraphs concatenated in page order. */
  lemma {:induction false} OcrFullTextPages(entries: seq<PdfText.PageInfo>)
    requires forall i | 0 <= i < |entries| :: entries[i].characterCount == |entries[i].cleanedText|
    ensures OcrFullText(entries) == PdfText.Concat(Paragraphs(entries))
    decreases |entries|
  {
    if |entries| > 0 {
      var n := |entries| - 1;
      OcrFullTextPages(entries[..n]);
      assert Paragraphs(entries)[..n] == Paragraphs(entries[..n]);
    }
  }

  /** The characters of all page entries together. */
  function CharacterTotal(entries: seq<PdfText.PageInfo>): nat
    decreases |entries|
  {
    if |entries| == 0 then 0
    else CharacterTotal(entries[..|entries| - 1]) + entries[|entries| - 1].characterCount
  }

  /** `extract_text_from_pdf`. `fileExists` is `os.path.exists(path)`; `rendered` the pages
      `convert_from_path` produced at 300 DPI, `None` when it raised. A missing file is
      reported before anything is converted; every other failure is re-raised. */
  function ExtractTextFromPdf(path: string, fileExists: bool, language: string,
                              rendered: Option<seq<OcrPage>>): (r: Result<OcrResult, OcrError>)
    ensures !fileExists ==> r == Err(FileNotFound("PDF 파일을 찾을 수 없습니다: " + path))
    ensures fileExists && rendered.None? ==> r == Err(ConversionFailed)
    ensures fileExists && rendered.Some? ==>
              (r.Ok? <==> forall i | 0 <= i < |rendered.value| :: PageText(rendered.value[i]).Some?)
    ensures r.Ok? ==>
              && rendered.Some?
              && r.value.fileName == PdfText.Basename(path)
              && r.value.totalPages == |rendered.value| == |r.value.pages|
              && (forall i | 0 <= i < |r.value.pages| ::
                    r.value.pages[i] == OcrEntry(PageText(rendered.value[i]).value, i + 1))
              && r.value.language == language && r.value.dpi == Dpi
              && r.value.fullText == PdfText.Concat(Paragraphs(r.value.pages))
              && r.value.totalCharacters == |r.value.fullText|
              && r.value.totalCharacters == CharacterTotal(r.value.pages) + 2 * r.value.totalPages
              && r.value.totalWords == |Text.Words(r.value.fullText)|
  {
    if !fileExists then Err(FileNotFound("PDF 파일을 찾을 수 없습니다: " + path))
    else
      match rendered
      case None => Err(ConversionFailed)
      case Some(pages) =>
        match RawTexts(pages)
        case Err(number) => Err(OcrFailed(number))
        case Ok(texts) =>
          var entries := OcrEntries(texts);
          var text := OcrFullText(entries);
          OcrFullTextPages(entries);
          Ok(OcrResult(PdfText.Basename(path), |pages|, entries, text, language, Dpi, |text|,
                       |Text.Words(text)|))
  }
}

=== FILE: pdf_text.dfy ===
/** pdf_to_text.py: the line cleaning both PDF extractors share, the per-page aggregation
    of `extract_with_pdfplumber` and the result shaping of `extract_text`. What pdfplumber
    reads from a file arrives as a parameter: the document either fails to open, or yields
    one outcome per page (the page's text, `None`, or the exception its extraction raised). */
module PdfText {
  import opened Wrappers
  import Text
  import Seqs

  // ---------------------------------------------------------------------------
  // Line cleaning

  /** The lines worth keeping: each line stripped, blank lines dropped, order kept. */
  function CleanLines(lines: seq<string>): (r: seq<string>)
    ensures |r| <= |lines|
    ensures forall l | l in r :: l != "" && Text.NoEdgeSpace(l)
    decreases |lines|
  {
    if |lines| == 0 then []
    else
      var rest := CleanLines(lines[1..]);
      if Text.IsBlank(lines[0]) then rest else [Text.Strip(lines[0])] + rest
  }

  /** Nothing is kept exactly when every line is blank. */
  lemma {:induction false} CleanLinesEmpty(lines: seq<string>)
    ensures CleanLines(lines) == [] <==> forall l | l in lines :: Text.IsBlank(l)
    decreases |lines|
  {
    if |lines| > 0 {
      CleanLinesEmpty(lines[1..]);
      assert forall l | l in lines :: l == lines[0] || l in lines[1..];
      assert forall l | l in lines[1..] :: l in lines;
    }
  }

  /** `_clean_text`: the lines of `text` (cut at `'\n'`) that are not blank, stripped and
      joined again by `'\n'`. */
  function CleanText(text: string): (r: string)
    ensures r == "" <==> Text.IsBlank(text)
    ensures r != "" ==> Text.SplitOn(r, '\n') == CleanLines(Text.SplitOn(text, '\n'))
    ensures r != "" ==> forall l | l in Text.SplitOn(r, '\n') :: l != "" && Text.NoEdgeSpace(l)
  {
    if text == "" then ""
    else
      var lines := CleanLines(Text.SplitOn(text, '\n'));
      Text.BlankPieces(text, '\n');
      CleanLinesEmpty(Text.SplitOn(text, '\n'));
      CleanLinesNoNewline(Text.SplitOn(text, '\n'));
      if lines == [] then ""
      else
        Text.SplitOnJoin(lines, '\n');
        assert lines[0] in lines;
        JoinNonEmpty(lines, "\n");
        Text.Join(lines, "\n")
  }

  /** Cleaned lines keep the property of having no line break. */
  lemma {:induction false} CleanLinesNoNewline(lines: seq<string>)
    requires forall l | l in lines :: '\n' !in l
    ensures forall l | l in CleanLines(lines) :: '\n' !in l
    decreases |lines|
  {
    if |lines| > 0 {
      assert lines[0] in lines;
      assert forall l | l in lines[1..] :: l in lines;
      CleanLinesNoNewline(lines[1..]);
      Text.StripKeepsOut(lines[0], '\n');
    }
  }

  lemma JoinNonEmpty(parts: seq<string>, sep: string)
    requires |parts| >= 1 && parts[0] != ""
    ensures Text.Join(parts, sep) != ""
  {
  }

  /** A cleaned line list is its own cleaning. */
  lemma {:induction false} CleanLinesIdempotent(lines: seq<string>)
    requires forall i | 0 <= i < |lines| :: lines[i] != "" && Text.NoEdgeSpace(lines[i])
    ensures CleanLines(lines) == lines
    decreases |lines|
  {
    if |lines| > 0 {
      var head, rest := lines[0], lines[1..];
      assert lines == [head] + rest;
      assert CleanLines(rest) == rest by {
        assert forall i | 0 <= i < |rest| :: rest[i] == lines[i + 1];
        CleanLinesIdempotent(rest);
      }
      CleanLineKept(head);
      CleanLinesCons(head, rest);
    }
  }

  /** One step of the cleaning. */
  lemma CleanLinesCons(head: string, rest: seq<string>)
    ensures CleanLines([head] + rest) ==
              if Text.IsBlank(head) then CleanLines(rest) else [Text.Strip(head)] + CleanLines(rest)
  {
    assert ([head] + rest)[1..] == rest;
  }

  lemma CleanLineKept(l: string)
    requires l != "" && Text.NoEdgeSpace(l)
    ensures !Text.IsBlank(l) && Text.Strip(l) == l
  {
    Text.StripKeepsClean(l);
    assert !Text.IsSpace(l[0]);
  }

  /** Cleaning cleaned text changes nothing. */
  lemma CleanTextIdempotent(text: string)
    ensures CleanText(CleanText(text)) == CleanText(text)
  {
    var r := CleanText(text);
    if r != "" {
      var lines := Text.SplitOn(r, '\n');
      assert forall i | 0 <= i < |lines| :: lines[i] in lines;
      CleanLinesIdempotent(lines);
      Text.JoinSplitOn(r, '\n');
    }
  }

  // ---------------------------------------------------------------------------
  // Pages

  /** What pdfplumber produced for one page: `extract_text()`'s result, or the message of
      the exception it raised. */
  datatype PageOutcome = PageText(text: Option<string>) | PageFailure(message: string)

  /** What opening the file produced: the pages, or the message of the exception. */
  datatype Document = Opened(pages: seq<PageOutcome>) | OpenFailure(message: string)

  /** One entry of `results['pages']`. */
  datatype PageInfo = PageInfo(
    pageNumber: nat,
    rawText: string,
    cleanedText: string,
    characterCount: nat,
    wordCount: nat)

  /** The dictionary `extract_with_pdfplumber` returns; `method` is always `'pdfplumber'`. */
  datatype PlumberResult = PlumberResult(
    totalPages: nat,
    pages: seq<PageInfo>,
    fullText: string,
    success: bool,
    error: Option<string>)

  /** The cleaned text of a page, the empty text when the page has none. */
  function CleanedOf(text: Option<string>): string {
    match text
    case Some(t) => if t != "" then CleanText(t) else ""
    case None => ""
  }

  /** The entry for page `number` (counted from 1). */
  function PageEntry(outcome: PageOutcome, number: nat): (p: PageInfo)
    ensures p.pageNumber == number
    ensures outcome.PageFailure? ==> p.rawText == "" && p.characterCount == 0 && p.wordCount == 0
    ensures outcome.PageText? ==>
              && p.rawText == outcome.text.GetOr("")
              && p.cleanedText == CleanText(outcome.text.GetOr(""))
              && p.characterCount == |p.cleanedText|
              && p.wordCount == |Text.Words(p.cleanedText)|
              && (p.cleanedText == "" <==> Text.IsBlank(outcome.text.GetOr("")))
  {
    match outcome
    case PageText(text) =>
      var cleaned := CleanedOf(text);
      PageInfo(number, text.GetOr(""), cleaned, |cleaned|, if cleaned != "" then |Text.Words(cleaned)| else 0)
    case PageFailure(message) =>
      PageInfo(number, "", "❌ 페이지 " + Text.NatToString(number) + " 추출 실패: " + message, 0, 0)
  }

  /** What a page adds to `full_text`: its cleaned text and a blank line, or nothing when
      its extraction failed. */
  function Contribution(outcome: PageOutcome, entry: PageInfo): string {
    if outcome.PageText? then entry.cleanedText + "\n\n" else ""
  }

  function Concat(parts: seq<string>): string
    decreases |parts|
  {
    if |parts| == 0 then "" else Concat(parts[..|parts| - 1]) + parts[|parts| - 1]
  }

  /** What each page adds to `full_text`, given its entry. */
  function Contributions(pages: seq<PageOutcome>, entries: seq<PageInfo>): (r: seq<string>)
    requires |entries| == |pages|
    ensures |r| == |pages| && forall i | 0 <= i < |pages| :: r[i] == Contribution(pages[i], entries[i])
  {
    seq(|pages|, i requires 0 <= i < |pages| => Contribution(pages[i], entries[i]))
  }

  /** The page loop of `extract_with_pdfplumber`: one entry per page, numbered from 1, and
      the full text, each successful page's cleaned text followed by a blank line. */
  function Aggregate(pages: seq<PageOutcome>): (r: (seq<PageInfo>, string))
    ensures |r.0| == |pages|
    ensures forall i | 0 <= i < |pages| :: r.0[i] == PageEntry(pages[i], i + 1)
    ensures r.1 == Concat(Contributions(pages, r.0))
  {
    var entries := Seqs.Numbered(pages, PageEntry);
    (entries, Concat(Contributions(pages, entries)))
  }

  /** `extract_with_pdfplumber`. */
  function ExtractWithPdfplumber(doc: Document): (r: PlumberResult)
    ensures doc.OpenFailure? ==> r == PlumberResult(0, [], "", false, Some(doc.message))
    ensures doc.Opened? ==>
              && r.success && r.error.None?
              && r.totalPages == |doc.pages| == |r.pages|
              && (forall i | 0 <= i < |r.pages| :: r.pages[i] == PageEntry(doc.pages[i], i + 1))
              && r.fullText == Concat(Contributions(doc.pages, r.pages))
  {
    match doc
    case OpenFailure(message) => PlumberResult(0, [], "", false, Some(message))
    case Opened(pages) =>
      var (entries, text) := Aggregate(pages);
      PlumberResult(|pages|, entries, text, true, None)
  }

  /** The characters the successful pages account for: each one's count plus two. */
  function SuccessLength(pages: seq<PageOutcome>, entries: seq<PageInfo>): nat
    requires |entries| == |pages|
    decreases |pages|
  {
    if |pages| == 0 then 0
    else
      var n := |pages| - 1;
      SuccessLength(pages[..n], entries[..n]) + (if pages[n].PageText? then entries[n].characterCount + 2 else 0)
  }

  /** The full text is exactly as long as the successful pages' cleaned texts plus a blank
      line each; failed pages add nothing. */
  lemma FullTextLength(pages: seq<PageOutcome>)
    ensures |Aggregate(pages).1| == SuccessLength(pages, Aggregate(pages).0)
  {
    var entries := Aggregate(pages).0;
    ContributionsLength(pages, entries);
  }

  lemma {:induction false} ContributionsLength(pages: seq<PageOutcome>, entries: seq<PageInfo>)
    requires |entries| == |pages|
    requires forall i | 0 <= i < |pages| && pages[i].PageText? :: entries[i].characterCount == |entries[i].cleanedText|
    ensures |Concat(Contributions(pages, entries))| == SuccessLength(pages, entries)
    decreases |pages|
  {
    if |pages| > 0 {
      var n := |pages| - 1;
      var parts := Contributions(pages, entries);
      assert parts[..n] == Contributions(pages[..n], entries[..n]);
      ContributionsLength(pages[..n], entries[..n]);
    }
  }

  // ---------------------------------------------------------------------------
  // Result shaping

  /** `os.path.basename`: the part after the last `/`. */
  function Basename(path: string): (r: string)
    ensures '/' !in r
    ensures exists k | 0 <= k <= |path| :: r == path[k..]
  {
    match Text.LastIndexOfChar(path, '/')
    case Some(k) =>
      var r := path[k + 1..];
      assert forall j | 0 <= j < |r| :: r[j] == path[k + 1 + j];
      r
    case None =>
      assert path == path[0..];
      path
  }

  /** What `extract_text` returns. */
  datatype Extraction =
    | FileMissing(error: string)
    | ExtractionFailed(result: PlumberResult)
    | ExtractionSucceeded(fileName: string, totalPages: nat, totalCharacters: nat, totalWords: nat,
                          fullText: string, pages: seq<PageInfo>)

  /** `extract_text`: `fileExists` is `os.path.exists(path)`, `doc` what pdfplumber reads when the
      file is there. A missing file is reported without opening anything; a failed extraction
      is passed through as it is. */
  function ExtractText(path: string, fileExists: bool, doc: Document): (r: Extraction)
    ensures !fileExists ==> r == FileMissing("PDF 파일을 찾을 수 없습니다: " + path)
    ensures fileExists && doc.OpenFailure? ==> r == ExtractionFailed(ExtractWithPdfplumber(doc))
    ensures fileExists && doc.Opened? ==>
              && r.ExtractionSucceeded?
              && r.fileName == Basename(path)
              && r.totalPages == |doc.pages| == |r.pages|
              && r.fullText == ExtractWithPdfplumber(doc).fullText
              && r.pages == ExtractWithPdfplumber(doc).pages
              && r.totalCharacters == |r.fullText|
              && r.totalWords == |Text.Words(r.fullText)|
  {
    if !fileExists then FileMissing("PDF 파일을 찾을 수 없습니다: " + path)
    else
      var result := ExtractWithPdfplumber(doc);
      if !result.success then ExtractionFailed(result)
      else ExtractionSucceeded(Basename(path), result.totalPages, |result.fullText|,
                               |Text.Words(result.fullText)|, result.fullText, result.pages)
  }
}

=== FILE: question_generator.dfy ===
/** question_generator.py: the parser that turns the model's numbered reply into question
    entries, the sentence-based fallback used whenever the model cannot be used, and the
    dispatch between the two. The model itself is an oracle: its reply arrives as a
    parameter, `None` when creating the model, calling it or reading `response.text` raised. */
module QuestionGenerator {
  import opened Wrappers
  import Text
  import Seqs

  /** One entry of the returned list: the dictionary keys `question`, `answer`, `hint` and
      `type`. */
  datatype GeneratedQuestion = GeneratedQuestion(question: string, answer: string, hint: string, kind: string)

  const DefaultKind := "주관식"
  const QuestionMarker := "질문:"
  const AnswerMarker := "답변:"
  const HintMarker := "힌트:"
  const KindMarker := "유형:"

  // ---------------------------------------------------------------------------
  // Splitting the reply into blocks: `re.split(r'\n(?=\d+\.\s*질문:)', text)`

  /** The end of the run of characters satisfying `p` that starts at `i`. */
  function Run(t: string, i: nat, p: char -> bool): (j: nat)
    requires i <= |t|
    ensures i <= j <= |t|
    ensures forall x | i <= x < j :: p(t[x])
    ensures j < |t| ==> !p(t[j])
    decreases |t| - i
  {
    if i == |t| || !p(t[i]) then i else Run(t, i + 1, p)
  }

  /** A run ending inside a prefix of `t` ends at the same place in the prefix. */
  lemma {:induction false} RunInPrefix(t: string, i: nat, n: nat, p: char -> bool)
    requires i <= |t| && Run(t, i, p) < n <= |t|
    ensures Run(t[..n], i, p) == Run(t, i, p)
    decreases |t| - i
  {
    assert t[..n][i] == t[i];
    if p(t[i]) {
      RunInPrefix(t, i + 1, n, p);
    }
  }

  /** Where the digits at the start of `t` end. */
  function DigitsEnd(t: string): nat {
    Run(t, 0, Text.IsAsciiDigit)
  }

  /** Where the whitespace after the `.` ends, for a `t` that has digits followed by `.`. */
  function SpacesEnd(t: string): nat
    requires DigitsEnd(t) < |t|
  {
    Run(t, DigitsEnd(t) + 1, Text.IsSpace)
  }

  /** `t` begins with `\d+\.\s*질문:`: at least one digit, a dot, any whitespace, the marker. */
  predicate StartsBlock(t: string) {
    var d := DigitsEnd(t);
    && 0 < d < |t| && t[d] == '.'
    && Text.OccursAt(t, QuestionMarker, SpacesEnd(t))
  }

  /** The length of the text `StartsBlock` matches. */
  function MatchEnd(t: string): nat
    requires StartsBlock(t)
  {
    SpacesEnd(t) + |QuestionMarker|
  }

  /** Position `p` of `s` is a split point: a line break followed by the start of a block. */
  predicate IsBreak(s: string, p: int) {
    0 <= p < |s| && s[p] == '\n' && StartsBlock(s[p + 1..])
  }

  /** The first split point at or after `i`. */
  function FirstBreak(s: string, i: nat): (r: Option<nat>)
    requires i <= |s|
    ensures r.Some? ==> i <= r.value && IsBreak(s, r.value)
    ensures r.Some? ==> forall j | i <= j < r.value :: !IsBreak(s, j)
    ensures r.None? ==> forall j | i <= j < |s| :: !IsBreak(s, j)
    decreases |s| - i
  {
    if i == |s| then None
    else if IsBreak(s, i) then Some(i)
    else FirstBreak(s, i + 1)
  }

  lemma SpaceNotDigit(c: char)
    requires Text.IsSpace(c)
    ensures !Text.IsAsciiDigit(c)
  {
  }

  /** No split point lies inside the text a block start matches: the matched digits, dot
      and marker are not line breaks, and a line break among the spaces is followed by
      another space or by the marker, never by a digit. */
  lemma {:induction false} NoBreakInsideMatch(t: string, j: nat)
    requires StartsBlock(t)
    requires j + 1 < |t| && t[j] == '\n' && Text.IsAsciiDigit(t[j + 1])
    ensures MatchEnd(t) <= j
  {
    var d, m := DigitsEnd(t), SpacesEnd(t);
    assert t[m..m + 3] == QuestionMarker;
    assert forall x | m <= x < m + 3 :: t[x] == QuestionMarker[x - m];
    forall y | d + 1 <= y < m
      ensures !Text.IsAsciiDigit(t[y])
    {
      SpaceNotDigit(t[y]);
    }
  }

  /** A block start survives cutting the text anywhere after the matched part. */
  lemma StartsBlockPrefix(t: string, n: nat)
    requires StartsBlock(t) && MatchEnd(t) <= n <= |t|
    ensures StartsBlock(t[..n])
  {
    var d := DigitsEnd(t);
    RunInPrefix(t, 0, n, Text.IsAsciiDigit);
    RunInPrefix(t, d + 1, n, Text.IsSpace);
    var m := SpacesEnd(t);
    assert t[..n][m..m + 3] == t[m..m + 3];
  }

  /** When `s` starts a block, the text before its first split point still does. */
  lemma FirstBlockStarts(s: string, p: nat)
    requires IsBreak(s, p)
    ensures StartsBlock(s) ==> StartsBlock(s[..p])
  {
    if StartsBlock(s) {
      assert Text.IsAsciiDigit(s[p + 1]) by {
        assert s[p + 1..][0] == s[p + 1];
      }
      NoBreakInsideMatch(s, p);
      StartsBlockPrefix(s, p);
    }
  }

  /** The blocks of `s`: the pieces between split points, each split point's line break
      consumed. */
  function Blocks(s: string): (r: seq<string>)
    ensures |r| >= 1
    ensures Text.Join(r, "\n") == s
    ensures forall i | 1 <= i < |r| :: StartsBlock(r[i])
    ensures StartsBlock(s) ==> StartsBlock(r[0])
    ensures FirstBreak(s, 0).None? <==> r == [s]
    decreases |s|
  {
    match FirstBreak(s, 0)
    case None => [s]
    case Some(p) =>
      var rest := Blocks(s[p + 1..]);
      BlocksCons(s, p, rest);
      [s[..p]] + rest
  }

  /** The block before a split point followed by the blocks after it. */
  lemma BlocksCons(s: string, p: nat, rest: seq<string>)
    requires IsBreak(s, p)
    requires |rest| >= 1 && Text.Join(rest, "\n") == s[p + 1..]
    requires StartsBlock(s[p + 1..]) ==> StartsBlock(rest[0])
    requires forall i | 1 <= i < |rest| :: StartsBlock(rest[i])
    ensures var r := [s[..p]] + rest;
            && Text.Join(r, "\n") == s
            && (forall i | 1 <= i < |r| :: StartsBlock(r[i]))
            && (StartsBlock(s) ==> StartsBlock(r[0]))
            && r != [s]
  {
    var r := [s[..p]] + rest;
    FirstBlockStarts(s, p);
    assert r[1..] == rest;
    assert Text.Join(r, "\n") == s[..p] + "\n" + Text.Join(rest, "\n");
    assert s == s[..p] + "\n" + s[p + 1..];
    assert forall i | 1 <= i < |r| :: r[i] == rest[i - 1];
  }

  // ---------------------------------------------------------------------------
  // Recognising lines

  /** What one stripped line of a block sets. */
  datatype Line =
    | QuestionLine(text: string)
    | AnswerLine(text: string)
    | HintLine(text: string)
    | KindLine(text: string)
    | OtherLine

  /** The line starts with one digit from 1 to 9 and then a dot. */
  predicate Numbered(line: string) {
    |line| >= 2 && '1' <= line[0] <= '9' && line[1] == '.'
  }

  /** The text after the first occurrence of `marker` (the one `Text.Find` reports),
      stripped. */
  function ValueAfter(line: string, marker: string): (r: string)
    requires Text.Contains(line, marker)
    ensures Text.NoEdgeSpace(r)
    ensures Text.HasPrefix(line, marker) ==> r == Text.Strip(line[|marker|..])
  {
    assert Text.HasPrefix(line, marker) ==> Text.OccursAt(line, marker, 0);
    var k := Text.Find(line, marker).value;
    Text.Strip(line[k + |marker|..])
  }

  /** The `if`/`elif` chain over one stripped line. */
  function Classify(line: string): (r: Line)
    ensures r.OtherLine? || Text.NoEdgeSpace(r.text)
    ensures line == "" ==> r.OtherLine?
  {
    if Numbered(line) && Text.Contains(line, QuestionMarker) then QuestionLine(ValueAfter(line, QuestionMarker))
    else if Text.HasPrefix(line, AnswerMarker) then AnswerLine(ValueAfter(line, AnswerMarker))
    else if Text.HasPrefix(line, HintMarker) then HintLine(ValueAfter(line, HintMarker))
    else if Text.HasPrefix(line, KindMarker) then KindLine(ValueAfter(line, KindMarker))
    else OtherLine
  }

  /** How a line is recognised: a question line must be numbered 1 to 9 and contain the
      marker anywhere, and takes the text after the marker's first occurrence; the other
      kinds must start with their marker, are tried in the order answer, hint, type, and take
      the rest of the line. Each value is stripped. */
  lemma ClassifyCases(line: string)
    ensures Classify(line).QuestionLine? <==> Numbered(line) && Text.Contains(line, QuestionMarker)
    ensures Classify(line).QuestionLine? ==> Classify(line).text == ValueAfter(line, QuestionMarker)
    ensures !Classify(line).QuestionLine? ==>
              && (Classify(line).AnswerLine? <==> Text.HasPrefix(line, AnswerMarker))
              && (Classify(line).HintLine? <==> !Text.HasPrefix(line, AnswerMarker) && Text.HasPrefix(line, HintMarker))
              && (Classify(line).KindLine? <==> !Text.HasPrefix(line, AnswerMarker) && !Text.HasPrefix(line, HintMarker)
                                                 && Text.HasPrefix(line, KindMarker))
    ensures Classify(line).AnswerLine? ==> Classify(line).text == Text.Strip(line[|AnswerMarker|..])
    ensures Classify(line).HintLine? ==> Classify(line).text == Text.Strip(line[|HintMarker|..])
    ensures Classify(line).KindLine? ==> Classify(line).text == Text.Strip(line[|KindMarker|..])
  {
  }

  /** A tenth question starts a block of its own but is not recognised as a question line,
      so that block yields no entry. */
  lemma TenthQuestionNotRecognised()
    ensures StartsBlock("10. 질문: x")
    ensures Classify("10. 질문: x") == OtherLine
  {
    var t := "10. 질문: x";
    assert DigitsEnd(t) == 2 by {
      assert Run(t, 2, Text.IsAsciiDigit) == 2;
      assert Run(t, 1, Text.IsAsciiDigit) == 2;
    }
    assert SpacesEnd(t) == 4 by {
      assert Run(t, 4, Text.IsSpace) == 4;
    }
    assert t[4..7] == QuestionMarker;
    assert !Text.HasPrefix(t, AnswerMarker) && !Text.HasPrefix(t, HintMarker) && !Text.HasPrefix(t, KindMarker) by {
      assert t[..3] == "10.";
    }
  }

  // ---------------------------------------------------------------------------
  // Gathering the fields of a block

  datatype Field = Question | Answer | Hint | Kind

  /** What a recognised line says about `f`: its text when it is a line of that kind. */
  function Pick(l: Line, f: Field): Option<string> {
    match (l, f)
    case (QuestionLine(t), Question) => Some(t)
    case (AnswerLine(t), Answer) => Some(t)
    case (HintLine(t), Hint) => Some(t)
    case (KindLine(t), Kind) => Some(t)
    case _ => None
  }

  /** The fields set so far, `None` for a key not yet in the dictionary. */
  datatype Fields = Fields(question: Option<string>, answer: Option<string>, hint: Option<string>, kind: Option<string>) {
    function Get(f: Field): Option<string> {
      match f
      case Question => question
      case Answer => answer
      case Hint => hint
      case Kind => kind
    }
  }

  /** `v` is what the last line of kind `f` says, or `None` when there is no such line: the
      reference definition of "a later line overwrites an earlier one". */
  predicate IsLast(lines: seq<Line>, f: Field, v: Option<string>) {
    && (v.None? <==> forall i | 0 <= i < |lines| :: Pick(lines[i], f).None?)
    && (v.Some? ==> exists i | 0 <= i < |lines| :: Pick(lines[i], f) == v &&
                      forall j | i < j < |lines| :: Pick(lines[j], f).None?)
  }

  /** One line's assignment to the dictionary. */
  function Absorb(fs: Fields, l: Line): (r: Fields)
    ensures forall f: Field :: r.Get(f) == if Pick(l, f).Some? then Pick(l, f) else fs.Get(f)
  {
    match l
    case QuestionLine(t) => fs.(question := Some(t))
    case AnswerLine(t) => fs.(answer := Some(t))
    case HintLine(t) => fs.(hint := Some(t))
    case KindLine(t) => fs.(kind := Some(t))
    case OtherLine => fs
  }

  /** The loop over a block's lines, from an empty dictionary. Every key holds what the
      last line of its kind says. */
  function Gather(lines: seq<Line>): (r: Fields)
    ensures forall f: Field :: IsLast(lines, f, r.Get(f))
    decreases |lines|
  {
    if |lines| == 0 then Fields(None, None, None, None)
    else
      var n := |lines| - 1;
      var prev := Gather(lines[..n]);
      assert forall i | 0 <= i < n :: lines[..n][i] == lines[i];
      var r := Absorb(prev, lines[n]);
      GatherStep(lines, prev, r);
      r
  }

  lemma GatherStep(lines: seq<Line>, prev: Fields, r: Fields)
    requires |lines| > 0
    requires forall f: Field :: IsLast(lines[..|lines| - 1], f, prev.Get(f))
    requires r == Absorb(prev, lines[|lines| - 1])
    ensures forall f: Field :: IsLast(lines, f, r.Get(f))
  {
    var n := |lines| - 1;
    assert forall i | 0 <= i < n :: lines[..n][i] == lines[i];
    forall f: Field
      ensures IsLast(lines, f, r.Get(f))
    {
      if Pick(lines[n], f).None? {
        assert r.Get(f) == prev.Get(f);
        if prev.Get(f).Some? {
          var i :| 0 <= i < n && Pick(lines[..n][i], f) == prev.Get(f) &&
                   forall j | i < j < n :: Pick(lines[..n][j], f).None?;
          assert Pick(lines[i], f) == r.Get(f);
        }
      }
    }
  }

  /** The stripped lines of a block, recognised one by one. */
  function ClassifyAll(lines: seq<string>): (r: seq<Line>)
    ensures |r| == |lines|
    ensures forall i | 0 <= i < |lines| :: r[i] == Classify(Text.Strip(lines[i]))
  {
    Seqs.MapSeq(lines, ClassifyStripped)
  }

  function ClassifyStripped(line: string): Line {
    Classify(Text.Strip(line))
  }

  /** The lines of the stripped block, each line stripped and recognised. Empty lines,
      which the loop skips, are recognised as nothing and so change nothing. */
  function BlockLines(block: string): seq<Line> {
    ClassifyAll(Text.SplitOn(Text.Strip(block), '\n'))
  }

  function Default(f: Field): string {
    if f == Kind then DefaultKind else ""
  }

  function FieldOf(q: GeneratedQuestion, f: Field): string {
    match f
    case Question => q.question
    case Answer => q.answer
    case Hint => q.hint
    case Kind => q.kind
  }

  /** The entry one block yields before the emptiness test. */
  function ParseBlock(block: string): GeneratedQuestion
  {
    var fs := Gather(BlockLines(block));
    GeneratedQuestion(fs.question.GetOr(""), fs.answer.GetOr(""), fs.hint.GetOr(""), fs.kind.GetOr(DefaultKind))
  }

  /** Each key of a block's entry holds what the last line of its kind says, or its default
      (`""`, and `주관식` for the type) when the block has no such line. */
  lemma ParseBlockFields(block: string, f: Field)
    ensures var lines := BlockLines(block);
            || ((forall i | 0 <= i < |lines| :: Pick(lines[i], f).None?) && FieldOf(ParseBlock(block), f) == Default(f))
            || IsLast(lines, f, Some(FieldOf(ParseBlock(block), f)))
  {
    var fs := Gather(BlockLines(block));
    assert IsLast(BlockLines(block), f, fs.Get(f));
    assert FieldOf(ParseBlock(block), f) == fs.Get(f).GetOr(Default(f));
  }

  /** Every value read from a line is stripped. */
  lemma ParsedFieldsStripped(block: string, f: Field)
    requires f != Kind || FieldOf(ParseBlock(block), f) != DefaultKind
    ensures Text.NoEdgeSpace(FieldOf(ParseBlock(block), f))
  {
    ParseBlockFields(block, f);
    BlockLinesStripped(block);
    var v := FieldOf(ParseBlock(block), f);
    if IsLast(BlockLines(block), f, Some(v)) {
      LastStripped(BlockLines(block), f, v);
    }
  }

  lemma BlockLinesStripped(block: string)
    ensures forall l | l in BlockLines(block) :: l.OtherLine? || Text.NoEdgeSpace(l.text)
  {
  }

  lemma LastStripped(lines: seq<Line>, f: Field, v: string)
    requires forall l | l in lines :: l.OtherLine? || Text.NoEdgeSpace(l.text)
    requires IsLast(lines, f, Some(v))
    ensures Text.NoEdgeSpace(v)
  {
    var i :| 0 <= i < |lines| && Pick(lines[i], f) == Some(v) &&
             forall j | i < j < |lines| :: Pick(lines[j], f).None?;
    assert lines[i] in lines;
  }

  // ---------------------------------------------------------------------------
  // The parser

  /** The loop over the blocks, for a given per-block parser: blank blocks are skipped, and a
      block's entry is kept exactly when its question is not empty. */
  function KeepAsked(blocks: seq<string>, parse: string -> GeneratedQuestion): (r: seq<GeneratedQuestion>)
    ensures |r| <= |blocks|
    ensures forall q | q in r :: q.question != ""
    ensures forall q | q in r :: exists b | b in blocks :: !Text.IsBlank(b) && q == parse(b)
    ensures forall b | b in blocks && !Text.IsBlank(b) && parse(b).question != "" :: parse(b) in r
    decreases |blocks|
  {
    if |blocks| == 0 then []
    else
      var n := |blocks| - 1;
      var prev := KeepAsked(blocks[..n], parse);
      assert blocks == blocks[..n] + [blocks[n]];
      var b := blocks[n];
      if Text.IsBlank(b) || parse(b).question == "" then prev else prev + [parse(b)]
  }

  /** One block gives its entry, or nothing when it is blank or has no question. */
  lemma KeepAskedOne(b: string, parse: string -> GeneratedQuestion)
    ensures KeepAsked([b], parse) == if Text.IsBlank(b) || parse(b).question == "" then [] else [parse(b)]
  {
    assert [b][..0] == [];
  }

  /** The entries of two runs of blocks are those of the first run followed by those of the
      second: the result keeps block order and has one entry per kept block. */
  lemma {:induction false} KeepAskedAppend(a: seq<string>, b: seq<string>, parse: string -> GeneratedQuestion)
    ensures KeepAsked(a + b, parse) == KeepAsked(a, parse) + KeepAsked(b, parse)
    decreases |b|
  {
    if |b| == 0 {
      assert a + b == a;
    } else {
      var n := |b| - 1;
      KeepAskedAppend(a, b[..n], parse);
      assert (a + b)[..|a + b| - 1] == a + b[..n];
      assert (a + b)[|a + b| - 1] == b[n];
    }
  }

  /** `_parse_questions`: the reply, stripped, split into blocks, each block parsed; the
      entries of the non-blank blocks that have a question, in block order. */
  function ParseQuestions(reply: string): (r: seq<GeneratedQuestion>)
    ensures |r| <= |Blocks(Text.Strip(reply))|
    ensures forall q | q in r :: q.question != ""
    ensures forall q | q in r :: exists b | b in Blocks(Text.Strip(reply)) :: !Text.IsBlank(b) && q == ParseBlock(b)
    ensures forall b | b in Blocks(Text.Strip(reply)) && !Text.IsBlank(b) && ParseBlock(b).question != "" ::
              ParseBlock(b) in r
  {
    KeepAsked(Blocks(Text.Strip(reply)), ParseBlock)
  }

  /** The question of every parsed entry is stripped and not empty. */
  lemma ParsedQuestionsStripped(reply: string)
    ensures forall q | q in ParseQuestions(reply) :: q.question != "" && Text.NoEdgeSpace(q.question)
  {
    forall q | q in ParseQuestions(reply)
      ensures Text.NoEdgeSpace(q.question)
    {
      var b :| b in Blocks(Text.Strip(reply)) && !Text.IsBlank(b) && q == ParseBlock(b);
      ParsedFieldsStripped(b, Question);
    }
  }

  // ---------------------------------------------------------------------------
  // The fallback generator

  /** The parts that are not blank, stripped, in order. */
  function StrippedNonBlank(parts: seq<string>): (r: seq<string>)
    ensures |r| <= |parts|
    ensures forall x | x in r :: x != "" && Text.NoEdgeSpace(x)
    decreases |parts|
  {
    if |parts| == 0 then []
    else
      var rest := StrippedNonBlank(parts[1..]);
      if Text.IsBlank(parts[0]) then rest else [Text.Strip(parts[0])] + rest
  }

  /** Every kept text is the stripped form of a part that is not blank. */
  lemma {:induction false} StrippedNonBlankFrom(parts: seq<string>)
    ensures forall x | x in StrippedNonBlank(parts) :: exists p | p in parts :: !Text.IsBlank(p) && x == Text.Strip(p)
    decreases |parts|
  {
    if |parts| > 0 {
      StrippedNonBlankFrom(parts[1..]);
      assert forall p | p in parts[1..] :: p in parts;
      assert parts[0] in parts;
    }
  }

  /** Every part that is not blank is kept, stripped. */
  lemma {:induction false} StrippedNonBlankKeeps(parts: seq<string>)
    ensures forall p | p in parts && !Text.IsBlank(p) :: Text.Strip(p) in StrippedNonBlank(parts)
    decreases |parts|
  {
    if |parts| > 0 {
      StrippedNonBlankKeeps(parts[1..]);
      assert forall p | p in parts :: p == parts[0] || p in parts[1..];
    }
  }

  /** The sentences of `text`: its `.`-separated pieces, stripped, blank ones dropped. */
  function Sentences(text: string): (r: seq<string>)
    ensures forall x | x in r :: x != "" && Text.NoEdgeSpace(x) && '.' !in x
  {
    var parts := Text.SplitOn(text, '.');
    var r := StrippedNonBlank(parts);
    StrippedNonBlankFrom(parts);
    assert forall x | x in r :: '.' !in x by {
      forall x | x in r
        ensures '.' !in x
      {
        var p :| p in parts && !Text.IsBlank(p) && x == Text.Strip(p);
        Text.StripKeepsOut(p, '.');
      }
    }
    r
  }

  const MinSentenceLength := 10
  const QuestionLead := "다음 문장의 핵심 내용은 무엇인가요? '"
  const QuestionTail := "...'"
  const FallbackHint := "문장을 다시 읽어보고 주요 키워드를 찾아보세요."

  /** The entry made from one sentence: its first 50 characters quoted in the question, the
      whole sentence as the answer. */
  function FallbackEntry(sentence: string): (q: GeneratedQuestion)
    ensures q.answer == sentence && q.hint == FallbackHint && q.kind == DefaultKind
    ensures Text.HasPrefix(q.question, QuestionLead)
    ensures Text.OccursAt(q.question, Text.Take(sentence, 50), |QuestionLead|)
    ensures q.question != "" && Text.NoEdgeSpace(q.question)
  {
    var question := QuestionLead + Text.Take(sentence, 50) + QuestionTail;
    assert question[..|QuestionLead|] == QuestionLead;
    assert question[|QuestionLead|..|QuestionLead| + |Text.Take(sentence, 50)|] == Text.Take(sentence, 50);
    assert question[0] == QuestionLead[0] && question[|question| - 1] == QuestionTail[3];
    GeneratedQuestion(question, sentence, FallbackHint, DefaultKind)
  }

  /** The loop body over the considered sentences: those shorter than 10 characters are
      skipped, the others give one entry each, in order. */
  function FallbackFrom(sentences: seq<string>): (r: seq<GeneratedQuestion>)
    ensures |r| <= |sentences|
    ensures forall q | q in r :: exists i | 0 <= i < |sentences| ::
              |sentences[i]| >= MinSentenceLength && q == FallbackEntry(sentences[i])
    ensures forall i | 0 <= i < |sentences| && |sentences[i]| >= MinSentenceLength :: FallbackEntry(sentences[i]) in r
    decreases |sentences|
  {
    if |sentences| == 0 then []
    else
      var rest := FallbackFrom(sentences[1..]);
      assert forall i | 1 <= i < |sentences| :: sentences[1..][i - 1] == sentences[i];
      if |sentences[0]| < MinSentenceLength then rest else [FallbackEntry(sentences[0])] + rest
  }

  /** How many sentences are considered at most: the requested number, none when that is
      negative. */
  function Considered(n: int): nat {
    if n < 0 then 0 else n
  }

  /** `_generate_fallback_questions`: at most `n` entries, drawn only from the first `n`
      sentences; a short sentence among them is skipped, not replaced by a later one. */
  function FallbackQuestions(text: string, n: int): (r: seq<GeneratedQuestion>)
    ensures |r| <= Considered(n)
    ensures forall q | q in r :: exists i | 0 <= i < |Sentences(text)| && i < n ::
              |Sentences(text)[i]| >= MinSentenceLength && q == FallbackEntry(Sentences(text)[i])
    ensures forall i | 0 <= i < |Sentences(text)| && i < n && |Sentences(text)[i]| >= MinSentenceLength ::
              FallbackEntry(Sentences(text)[i]) in r
  {
    var sentences := Sentences(text);
    var first := Text.Take(sentences, Considered(n));
    assert forall i | 0 <= i < |first| :: first[i] == sentences[i];
    FallbackFrom(first)
  }

  /** Asking for more questions only adds entries at the end. */
  lemma {:induction false} FallbackFromPrefix(a: seq<string>, b: seq<string>)
    ensures FallbackFrom(a) <= FallbackFrom(a + b)
    decreases |a|
  {
    if |a| > 0 {
      assert (a + b)[1..] == a[1..] + b;
      assert (a + b)[0] == a[0];
      FallbackFromPrefix(a[1..], b);
    }
  }

  lemma FallbackTakePrefix(sentences: seq<string>, n: nat, m: nat)
    requires n <= m
    ensures FallbackFrom(Text.Take(sentences, n)) <= FallbackFrom(Text.Take(sentences, m))
  {
    var a, c := Text.Take(sentences, n), Text.Take(sentences, m);
    assert c == a + c[|a|..];
    FallbackFromPrefix(a, c[|a|..]);
  }

  lemma FallbackMonotone(text: string, n: int, m: int)
    requires n <= m
    ensures FallbackQuestions(text, n) <= FallbackQuestions(text, m)
  {
    FallbackTakePrefix(Sentences(text), Considered(n), Considered(m));
  }

  // ---------------------------------------------------------------------------
  // Dispatch

  /** The difficulty guide `_create_prompt` looks up; `None` where the dictionary lookup
      raises `KeyError`. */
  function DifficultyGuide(difficulty: string): (r: Option<string>)
    ensures r.Some? <==> difficulty == "easy" || difficulty == "medium" || difficulty == "hard"
  {
    if difficulty == "easy" then Some("기본적인 이해를 확인하는 쉬운 질문")
    else if difficulty == "medium" then Some("적당한 수준의 분석과 이해를 요구하는 질문")
    else if difficulty == "hard" then Some("심화된 사고와 응용을 요구하는 어려운 질문")
    else None
  }

  /** `generate_questions`. `reply` is the model's `response.text`, `None` when building the
      model, calling it or reading the text raised. Any failure, including an unknown
      difficulty, which raises before the model is called, gives the fallback list; a reply
      is parsed and its result returned even when empty. */
  function GenerateQuestions(text: string, n: int, difficulty: string, reply: Option<string>): (r: seq<GeneratedQuestion>)
    ensures reply.None? || DifficultyGuide(difficulty).None? ==> r == FallbackQuestions(text, n)
    ensures reply.Some? && DifficultyGuide(difficulty).Some? ==> r == ParseQuestions(reply.value)
    ensures forall q | q in r :: q.question != "" && Text.NoEdgeSpace(q.question)
  {
    match (reply, DifficultyGuide(difficulty))
    case (Some(answer), Some(_)) =>
      ParsedQuestionsStripped(answer);
      ParseQuestions(answer)
    case _ => FallbackQuestions(text, n)
  }
}

=== FILE: seqs.dfy ===
/** Element-wise sequence helpers the modules share. */
module Seqs {
  /** `f` applied to each element, in order. */
  function MapSeq<A, B>(xs: seq<A>, f: A -> B): (r: seq<B>)
    ensures |r| == |xs| && forall i | 0 <= i < |xs| :: r[i] == f(xs[i])
  {
    seq(|xs|, i requires 0 <= i < |xs| => f(xs[i]))
  }

  /** Mapping is done piece by piece. */
  lemma MapSeqAppend<A, B>(a: seq<A>, b: seq<A>, f: A -> B)
    ensures MapSeq(a + b, f) == MapSeq(a, f) + MapSeq(b, f)
  {
    var l, r := MapSeq(a, f), MapSeq(b, f);
    forall i | 0 <= i < |a| + |b| ensures MapSeq(a + b, f)[i] == (l + r)[i] {
      if i < |a| { assert (a + b)[i] == a[i]; } else { assert (a + b)[i] == b[i - |a|]; }
    }
  }

  /** `f` applied to each element and its position counted from 1. */
  function Numbered<A, B>(xs: seq<A>, f: (A, nat) -> B): (r: seq<B>)
    ensures |r| == |xs|
    ensures forall i | 0 <= i < |xs| :: r[i] == f(xs[i], i + 1)
  {
    seq(|xs|, i requires 0 <= i < |xs| => f(xs[i], i + 1))
  }
}

=== FILE: store.dfy ===
/** The job, speech and question tables of database.py as an immutable state, and every
    statement the pipeline and the API issue against them as a pure transition.

    `transcription_jobs` and `question` are kept in insertion order (ids strictly
    increasing); `speeches` is keyed by id. `now` plays the part of PostgreSQL's `NOW()`:
    every row one call writes carries the same stamp, and each committing call advances it. */
module Store {
  import opened Wrappers
  import opened Json
  import Text

  /** Speech, stage and user identifiers (UUID columns). */
  type Uuid = nat

  datatype JobStatus = Pending | Processing | Completed | Failed | Cancelled

  /** One row of `transcription_jobs`; `None` and `JNull` stand for SQL NULL. */
  datatype Job = Job(
    id: nat,
    videoSource: string,
    userId: Option<Uuid>,
    stageId: Option<Uuid>,
    speechId: Option<Uuid>,
    language: Option<string>,
    modelSize: Option<string>,
    generateQuestions: Option<bool>,
    status: JobStatus,
    transcript: Option<string>,
    metadata: Json,
    questions: Json,
    errorMessage: Option<string>,
    createdAt: nat,
    updatedAt: nat)

  /** One row of `speeches`. */
  datatype Speech = Speech(
    id: Uuid,
    stageId: Uuid,
    title: string,
    speechName: Option<string>,
    videoSource: Option<string>,
    documentUrl: Option<string>,
    createdAt: nat,
    updatedAt: nat)

  /** One row of `question`. The columns filled from a generated entry hold whatever
      JSON value the entry carried under that key. */
  datatype QuestionRow = QuestionRow(
    id: nat,
    speechId: Uuid,
    question: Json,
    answer: Json,
    modelAnswer: Json,
    improvementTips: Json,
    userAnswer: Option<string>,
    aiFeedback: Option<string>,
    score: Json,
    createdAt: nat,
    updatedAt: nat)

  /** The three tables, the clock and the id sources (`SERIAL` for jobs; a counter for
      the `gen_random_uuid()` of questions and speeches). */
  datatype Db = Db(
    jobs: seq<Job>,
    speeches: map<Uuid, Speech>,
    questions: seq<QuestionRow>,
    now: nat,
    nextJobId: nat,
    nextQuestionId: nat,
    nextSpeechId: nat)

  /** The columns `fetch_next_job` selects, with its COALESCE defaults applied. */
  datatype ClaimedJob = ClaimedJob(
    id: nat,
    videoSource: string,
    language: string,
    modelSize: string,
    generateQuestions: bool,
    userId: Option<Uuid>,
    stageId: Option<Uuid>,
    speechId: Option<Uuid>)

  const DefaultLanguage := "ko"
  const DefaultModelSize := "medium"
  const MaxErrorLength := 2000
  const SpeechNameLength := 255
  const MinListLimit := 1
  const MaxListLimit := 200

  /** An empty store. */
  function Empty(): Db {
    Db([], map[], [], 0, 1, 0, 0)
  }

  // ---------------------------------------------------------------------------
  // Jobs: claim, create, complete, fail

  /** Position of the pending job with the smallest `created_at`; on equal stamps the one
      earlier in the table (PostgreSQL leaves that tie unspecified). */
  function OldestPending(jobs: seq<Job>): (k: Option<nat>)
    ensures k.None? <==> forall i | 0 <= i < |jobs| :: jobs[i].status != Pending
    ensures k.Some? ==> k.value < |jobs| && jobs[k.value].status == Pending
    ensures k.Some? ==> forall i | 0 <= i < |jobs| && jobs[i].status == Pending ::
                          jobs[k.value].createdAt <= jobs[i].createdAt
    decreases |jobs|
  {
    if |jobs| == 0 then None
    else
      var last := |jobs| - 1;
      var prev := OldestPending(jobs[..last]);
      assert forall i | 0 <= i < last :: jobs[..last][i] == jobs[i];
      if jobs[last].status != Pending then prev
      else if prev.None? || jobs[last].createdAt < jobs[prev.value].createdAt then Some(last)
      else prev
  }

  /** The row `fetch_next_job` returns: the selected columns of `j` with the defaults
      `'ko'`, `'medium'` and `TRUE` for NULL language, model size and question flag. */
  function Selected(j: Job): ClaimedJob {
    ClaimedJob(j.id, j.videoSource, j.language.GetOr(DefaultLanguage), j.modelSize.GetOr(DefaultModelSize),
               j.generateQuestions.GetOr(true), j.userId, j.stageId, j.speechId)
  }

  /** `db'` is `db` after claiming the job at position `k` and `c` is what the claim returned. */
  ghost predicate ClaimedAt(db: Db, db': Db, c: ClaimedJob, k: int) {
    && 0 <= k < |db.jobs|
    && db.jobs[k].status == Pending
    && (forall i | 0 <= i < |db.jobs| && db.jobs[i].status == Pending :: db.jobs[k].createdAt <= db.jobs[i].createdAt)
    && c == Selected(db.jobs[k])
    && |db'.jobs| == |db.jobs|
    && (forall i | 0 <= i < |db.jobs| && db.jobs[i].id == c.id ::
          db'.jobs[i] == db.jobs[i].(status := Processing, errorMessage := None, updatedAt := db.now))
    && (forall i | 0 <= i < |db.jobs| && db.jobs[i].id != c.id :: db'.jobs[i] == db.jobs[i])
    && db'.speeches == db.speeches && db'.questions == db.questions
  }

  /** `fetch_next_job`: claim the oldest pending job, mark it processing and clear its error
      message; with no pending job, roll back and return nothing. */
  function ClaimNext(db: Db): (r: (Db, Option<ClaimedJob>))
    ensures r.1.None? <==> forall i | 0 <= i < |db.jobs| :: db.jobs[i].status != Pending
    ensures r.1.None? ==> r.0 == db
    ensures r.1.Some? ==> exists k :: ClaimedAt(db, r.0, r.1.value, k)
  {
    match OldestPending(db.jobs)
    case None => (db, None)
    case Some(k) =>
      var id := db.jobs[k].id;
      var jobs := seq(|db.jobs|, i requires 0 <= i < |db.jobs| =>
        if db.jobs[i].id == id
        then db.jobs[i].(status := Processing, errorMessage := None, updatedAt := db.now)
        else db.jobs[i]);
      var db' := db.(jobs := jobs, now := db.now + 1);
      assert ClaimedAt(db, db', Selected(db.jobs[k]), k);
      (db', Some(Selected(db.jobs[k])))
  }

  /** `create_job`: insert one pending job for the given source and owners; the language,
      model size and question flag take their column defaults. */
  function CreateJob(db: Db, videoSource: string, userId: Uuid, stageId: Uuid, speechId: Uuid): (r: (Db, Job))
    ensures r.0.jobs == db.jobs + [r.1]
    ensures r.1.status == Pending && r.1.videoSource == videoSource
    ensures r.1.userId == Some(userId) && r.1.stageId == Some(stageId) && r.1.speechId == Some(speechId)
    ensures r.1.transcript.None? && r.1.errorMessage.None? && r.1.questions == JNull
    ensures r.1.id == db.nextJobId && r.0.nextJobId > db.nextJobId
    ensures r.1.createdAt == db.now && r.0.now > db.now
    ensures r.0.speeches == db.speeches && r.0.questions == db.questions
  {
    var job := Job(db.nextJobId, videoSource, Some(userId), Some(stageId), Some(speechId),
                   Some(DefaultLanguage), Some(DefaultModelSize), Some(true), Pending,
                   None, JNull, JNull, None, db.now, db.now);
    (db.(jobs := db.jobs + [job], now := db.now + 1, nextJobId := db.nextJobId + 1), job)
  }

  /** `mark_completed`: the job with `jobId` becomes completed with its transcript, metadata
      and questions (`JNull` for Python `None`), whatever status it had; no other row changes. */
  function MarkCompleted(db: Db, jobId: nat, transcript: string, qualityInfo: Json, questions: Json): (r: Db)
    ensures |r.jobs| == |db.jobs|
    ensures forall i | 0 <= i < |db.jobs| && db.jobs[i].id == jobId ::
              && r.jobs[i].status == Completed
              && r.jobs[i].transcript == Some(transcript)
              && r.jobs[i].metadata == qualityInfo
              && r.jobs[i].questions == questions
              && r.jobs[i] == db.jobs[i].(status := r.jobs[i].status, transcript := r.jobs[i].transcript,
                                          metadata := r.jobs[i].metadata, questions := r.jobs[i].questions,
                                          updatedAt := r.jobs[i].updatedAt)
    ensures forall i | 0 <= i < |db.jobs| && db.jobs[i].id != jobId :: r.jobs[i] == db.jobs[i]
    ensures r.speeches == db.speeches && r.questions == db.questions
  {
    var jobs := seq(|db.jobs|, i requires 0 <= i < |db.jobs| =>
      if db.jobs[i].id == jobId
      then db.jobs[i].(status := Completed, transcript := Some(transcript), metadata := qualityInfo,
                       questions := questions, updatedAt := db.now)
      else db.jobs[i]);
    db.(jobs := jobs, now := db.now + 1)
  }

  /** `mark_failed`: the job with `jobId` becomes failed and keeps the first
      `min(|message|, 2000)` characters of `message`; no other row changes. */
  function MarkFailed(db: Db, jobId: nat, message: string): (r: Db)
    ensures |r.jobs| == |db.jobs|
    ensures forall i | 0 <= i < |db.jobs| && db.jobs[i].id == jobId ::
              && r.jobs[i].status == Failed
              && r.jobs[i].errorMessage.Some?
              && |r.jobs[i].errorMessage.value| == (if |message| < MaxErrorLength then |message| else MaxErrorLength)
              && Text.HasPrefix(message, r.jobs[i].errorMessage.value)
              && r.jobs[i] == db.jobs[i].(status := r.jobs[i].status, errorMessage := r.jobs[i].errorMessage,
                                          updatedAt := r.jobs[i].updatedAt)
    ensures forall i | 0 <= i < |db.jobs| && db.jobs[i].id != jobId :: r.jobs[i] == db.jobs[i]
    ensures r.speeches == db.speeches && r.questions == db.questions
  {
    var stored := Text.Take(message, MaxErrorLength);
    var jobs := seq(|db.jobs|, i requires 0 <= i < |db.jobs| =>
      if db.jobs[i].id == jobId
      then db.jobs[i].(status := Failed, errorMessage := Some(stored), updatedAt := db.now)
      else db.jobs[i]);
    db.(jobs := jobs, now := db.now + 1)
  }

  /** The page size `list_jobs` uses: `limit` brought into the range 1 to 200. */
  function ListLimit(limit: int): (n: nat)
    ensures MinListLimit <= n <= MaxListLimit
    ensures MinListLimit <= limit <= MaxListLimit ==> n == limit
    ensures limit < MinListLimit ==> n == MinListLimit
    ensures limit > MaxListLimit ==> n == MaxListLimit
  {
    if limit < MinListLimit then MinListLimit
    else if limit > MaxListLimit then MaxListLimit
    else limit
  }

  /** `list_jobs`: the newest jobs first, at most `ListLimit(limit)` of them. Newest means
      latest in the table, which in every reachable store is the latest `created_at`. */
  function ListJobs(db: Db, limit: int): (r: seq<Job>)
    ensures |r| == (if ListLimit(limit) < |db.jobs| then ListLimit(limit) else |db.jobs|)
    ensures 1 <= |r| <= MaxListLimit || db.jobs == []
    ensures forall i | 0 <= i < |r| :: r[i] == db.jobs[|db.jobs| - 1 - i]
  {
    var n := ListLimit(limit);
    var count := if n < |db.jobs| then n else |db.jobs|;
    seq(count, i requires 0 <= i < count => db.jobs[|db.jobs| - 1 - i])
  }

  /** `a` is not newer than `b` in the listing order: an earlier update time, or the same
      time and a smaller id. */
  predicate NotLater(a: Job, b: Job) {
    a.updatedAt < b.updatedAt || (a.updatedAt == b.updatedAt && a.id <= b.id)
  }

  predicate IsCompletedFor(j: Job, speechId: Uuid) {
    j.status == Completed && j.speechId == Some(speechId)
  }

  /** `get_latest_completed_job_for_speech`: the completed job of the speech that comes
      first under `ORDER BY updated_at DESC, id DESC`. */
  function LatestCompleted(jobs: seq<Job>, speechId: Uuid): (r: Option<Job>)
    ensures r.None? <==> forall i | 0 <= i < |jobs| :: !IsCompletedFor(jobs[i], speechId)
    ensures r.Some? ==> r.value in jobs && IsCompletedFor(r.value, speechId)
    ensures r.Some? ==> forall i | 0 <= i < |jobs| && IsCompletedFor(jobs[i], speechId) :: NotLater(jobs[i], r.value)
    decreases |jobs|
  {
    if |jobs| == 0 then None
    else
      var last := jobs[|jobs| - 1];
      var prev := LatestCompleted(jobs[..|jobs| - 1], speechId);
      assert forall i | 0 <= i < |jobs| - 1 :: jobs[..|jobs| - 1][i] == jobs[i];
      if !IsCompletedFor(last, speechId) then prev
      else if prev.None? || NotLater(prev.value, last) then Some(last)
      else prev
  }

  // ---------------------------------------------------------------------------
  // Questions

  /** The question rows of one speech, in table order (`list_questions_for_speech`). */
  function QuestionsOf(qs: seq<QuestionRow>, speechId: Uuid): (r: seq<QuestionRow>)
    ensures forall q | q in r :: q in qs && q.speechId == speechId
    ensures forall q | q in qs && q.speechId == speechId :: q in r
    ensures |r| <= |qs|
    decreases |qs|
  {
    if |qs| == 0 then []
    else (if qs[0].speechId == speechId then [qs[0]] else []) + QuestionsOf(qs[1..], speechId)
  }

  /** The question rows of every other speech, in table order (`DELETE ... WHERE speech_id`). */
  function WithoutSpeech(qs: seq<QuestionRow>, speechId: Uuid): (r: seq<QuestionRow>)
    ensures forall q | q in r :: q in qs && q.speechId != speechId
    ensures forall q | q in qs && q.speechId != speechId :: q in r
    ensures |r| <= |qs|
    decreases |qs|
  {
    if |qs| == 0 then []
    else (if qs[0].speechId == speechId then [] else [qs[0]]) + WithoutSpeech(qs[1..], speechId)
  }

  lemma {:induction false} QuestionsOfAppend(a: seq<QuestionRow>, b: seq<QuestionRow>, speechId: Uuid)
    ensures QuestionsOf(a + b, speechId) == QuestionsOf(a, speechId) + QuestionsOf(b, speechId)
    decreases |a|
  {
    if |a| > 0 {
      assert (a + b)[1..] == a[1..] + b;
      QuestionsOfAppend(a[1..], b, speechId);
    } else {
      assert a + b == b;
    }
  }

  lemma {:induction false} QuestionsOfWithout(qs: seq<QuestionRow>, removed: Uuid, speechId: Uuid)
    ensures QuestionsOf(WithoutSpeech(qs, removed), speechId) ==
              (if speechId == removed then [] else QuestionsOf(qs, speechId))
    decreases |qs|
  {
    if |qs| > 0 {
      QuestionsOfWithout(qs[1..], removed, speechId);
      var head := if qs[0].speechId == removed then [] else [qs[0]];
      QuestionsOfAppend(head, WithoutSpeech(qs[1..], removed), speechId);
    }
  }

  lemma {:induction false} QuestionsOfUniform(qs: seq<QuestionRow>, owner: Uuid, speechId: Uuid)
    requires forall i | 0 <= i < |qs| :: qs[i].speechId == owner
    ensures QuestionsOf(qs, speechId) == if speechId == owner then qs else []
    decreases |qs|
  {
    if |qs| > 0 {
      QuestionsOfUniform(qs[1..], owner, speechId);
      assert qs == [qs[0]] + qs[1..];
    }
  }

  /** The entries `store_questions` and `upsert_questions` insert: those whose `question`
      value is truthy, in order. */
  function Insertable(entries: seq<map<string, Json>>): (r: seq<map<string, Json>>)
    ensures forall e | e in r :: e in entries && Truthy(Get(e, "question"))
    ensures forall e | e in entries && Truthy(Get(e, "question")) :: e in r
    ensures |r| <= |entries|
    decreases |entries|
  {
    if |entries| == 0 then []
    else (if Truthy(Get(entries[0], "question")) then [entries[0]] else []) + Insertable(entries[1..])
  }

  /** One entry is inserted exactly when its `question` is truthy. */
  lemma InsertableOne(e: map<string, Json>)
    ensures Insertable([e]) == if Truthy(Get(e, "question")) then [e] else []
  {
    assert [e][1..] == [];
  }

  /** The entries inserted from two lists are those of the first followed by those of the
      second: insertion keeps entry order and inserts each kept entry once. */
  lemma {:induction false} InsertableAppend(a: seq<map<string, Json>>, b: seq<map<string, Json>>)
    ensures Insertable(a + b) == Insertable(a) + Insertable(b)
    decreases |a|
  {
    if |a| == 0 {
      assert a + b == b;
    } else {
      InsertableAppend(a[1..], b);
      assert (a + b)[0] == a[0];
      assert (a + b)[1..] == a[1..] + b;
    }
  }

  /** When every entry has a truthy `question`, all of them are inserted. */
  lemma {:induction false} InsertableAll(entries: seq<map<string, Json>>)
    requires forall k | 0 <= k < |entries| :: Truthy(Get(entries[k], "question"))
    ensures Insertable(entries) == entries
    decreases |entries|
  {
    if |entries| > 0 {
      var rest := entries[1..];
      assert forall k | 0 <= k < |rest| :: rest[k] == entries[k + 1];
      InsertableAll(rest);
      assert entries == [entries[0]] + rest;
    }
  }

  /** The row one entry becomes: its values under the five keys (NULL where absent), with
      no user answer and no feedback yet. */
  function RowFrom(e: map<string, Json>, speechId: Uuid, id: nat, now: nat): QuestionRow {
    QuestionRow(id, speechId, Get(e, "question"), Get(e, "answer"), Get(e, "model_answer"),
                Get(e, "improvement_tips"), None, None, Get(e, "score"), now, now)
  }

  function NewRows(payload: seq<map<string, Json>>, speechId: Uuid, firstId: nat, now: nat): (r: seq<QuestionRow>)
    ensures |r| == |payload|
    ensures forall i | 0 <= i < |r| :: r[i] == RowFrom(payload[i], speechId, firstId + i, now)
  {
    seq(|payload|, i requires 0 <= i < |payload| => RowFrom(payload[i], speechId, firstId + i, now))
  }

  /** Deletes the speech's questions and appends `payload` as its new ones. */
  function ReplaceQuestions(db: Db, speechId: Uuid, payload: seq<map<string, Json>>): (r: Db)
    ensures QuestionsOf(r.questions, speechId) == NewRows(payload, speechId, db.nextQuestionId, db.now)
    ensures forall other | other != speechId :: QuestionsOf(r.questions, other) == QuestionsOf(db.questions, other)
    ensures r.jobs == db.jobs && r.speeches == db.speeches
  {
    var rows := NewRows(payload, speechId, db.nextQuestionId, db.now);
    var kept := WithoutSpeech(db.questions, speechId);
    forall other {
      ReplacedQuestionsOf(db.questions, rows, speechId, other);
    }
    db.(questions := kept + rows, now := db.now + 1, nextQuestionId := db.nextQuestionId + |rows|)
  }

  /** After the speech's rows are removed and its new rows appended, the speech has exactly
      the new rows and every other speech keeps its own. */
  lemma ReplacedQuestionsOf(qs: seq<QuestionRow>, rows: seq<QuestionRow>, speechId: Uuid, other: Uuid)
    requires forall i | 0 <= i < |rows| :: rows[i].speechId == speechId
    ensures QuestionsOf(WithoutSpeech(qs, speechId) + rows, other) ==
              (if other == speechId then rows else QuestionsOf(qs, other))
  {
    QuestionsOfAppend(WithoutSpeech(qs, speechId), rows, other);
    QuestionsOfWithout(qs, speechId, other);
    QuestionsOfUniform(rows, speechId, other);
  }

  /** `store_questions`: with no entry carrying a truthy `question`, nothing happens (the
      existing questions stay); otherwise the speech's questions are replaced by those
      entries, in order, with no user answer or feedback. */
  function StoreQuestions(db: Db, speechId: Uuid, entries: seq<map<string, Json>>): (r: Db)
    ensures Insertable(entries) == [] ==> r == db
    ensures Insertable(entries) != [] ==>
              && |QuestionsOf(r.questions, speechId)| == |Insertable(entries)|
              && (forall i | 0 <= i < |Insertable(entries)| ::
                    var q := QuestionsOf(r.questions, speechId)[i];
                    && q.question == Get(Insertable(entries)[i], "question")
                    && q.answer == Get(Insertable(entries)[i], "answer")
                    && q.modelAnswer == Get(Insertable(entries)[i], "model_answer")
                    && q.improvementTips == Get(Insertable(entries)[i], "improvement_tips")
                    && q.score == Get(Insertable(entries)[i], "score")
                    && q.userAnswer.None? && q.aiFeedback.None?)
    ensures forall other | other != speechId :: QuestionsOf(r.questions, other) == QuestionsOf(db.questions, other)
    ensures r.jobs == db.jobs && r.speeches == db.speeches
  {
    if |entries| == 0 then db
    else
      var payload := Insertable(entries);
      if |payload| == 0 then db
      else ReplaceQuestions(db, speechId, payload)
  }

  /** `upsert_questions`: with no entries at all, nothing happens and nothing is returned;
      otherwise the speech's questions are deleted and the entries with a truthy `question`
      inserted, even when there are none of those, and the speech's rows are returned. */
  function UpsertQuestions(db: Db, speechId: Uuid, entries: seq<map<string, Json>>): (r: (Db, seq<QuestionRow>))
    ensures entries == [] ==> r == (db, [])
    ensures entries != [] ==>
              && r.1 == QuestionsOf(r.0.questions, speechId)
              && |r.1| == |Insertable(entries)|
              && (forall i | 0 <= i < |r.1| ::
                    && r.1[i].question == Get(Insertable(entries)[i], "question")
                    && r.1[i].answer == Get(Insertable(entries)[i], "answer")
                    && r.1[i].modelAnswer == Get(Insertable(entries)[i], "model_answer")
                    && r.1[i].improvementTips == Get(Insertable(entries)[i], "improvement_tips")
                    && r.1[i].score == Get(Insertable(entries)[i], "score")
                    && r.1[i].userAnswer.None? && r.1[i].aiFeedback.None?)
    ensures forall other | other != speechId :: QuestionsOf(r.0.questions, other) == QuestionsOf(db.questions, other)
    ensures r.0.jobs == db.jobs && r.0.speeches == db.speeches
  {
    if |entries| == 0 then (db, [])
    else
      var db' := ReplaceQuestions(db, speechId, Insertable(entries));
      (db', QuestionsOf(db'.questions, speechId))
  }

  /** `update_question_feedback`: the answer and feedback are overwritten; the score only
      when one is given (`COALESCE(%s, score)`). */
  function UpdateQuestionFeedback(db: Db, questionId: nat, userAnswer: string, aiFeedback: string,
                                  score: Option<int>): (r: Db)
    ensures |r.questions| == |db.questions|
    ensures forall i | 0 <= i < |db.questions| && db.questions[i].id == questionId ::
              r.questions[i] == db.questions[i].(userAnswer := Some(userAnswer), aiFeedback := Some(aiFeedback),
                                                 score := if score.Some? then JInt(score.value) else db.questions[i].score,
                                                 updatedAt := r.questions[i].updatedAt)
    ensures forall i | 0 <= i < |db.questions| && db.questions[i].id != questionId ::
              r.questions[i] == db.questions[i]
    ensures r == db.(questions := r.questions, now := db.now + 1)
  {
    var newScore := (q: QuestionRow) => match score case Some(s) => JInt(s) case None => q.score;
    var qs := seq(|db.questions|, i requires 0 <= i < |db.questions| =>
      if db.questions[i].id == questionId
      then db.questions[i].(userAnswer := Some(userAnswer), aiFeedback := Some(aiFeedback),
                            score := newScore(db.questions[i]), updatedAt := db.now)
      else db.questions[i]);
    db.(questions := qs, now := db.now + 1)
  }

  // ---------------------------------------------------------------------------
  // Speeches

  /** Whether a job is still in flight: `status IN ('pending', 'processing')`. */
  predicate InFlight(j: Job) {
    j.status == Pending || j.status == Processing
  }

  /** `create_speech`: insert one speech with a fresh id, the given title and sources and
      no speech name; no other speech and no job or question changes. */
  function CreateSpeech(db: Db, stageId: Uuid, title: string, videoSource: Option<string>,
                        documentUrl: Option<string>): (r: (Db, Speech))
    ensures r.1.id == db.nextSpeechId && r.0.nextSpeechId > db.nextSpeechId
    ensures r.0.speeches == db.speeches[r.1.id := r.1]
    ensures r.1.stageId == stageId && r.1.title == title && r.1.speechName.None?
    ensures r.1.videoSource == videoSource && r.1.documentUrl == documentUrl
    ensures r.0.jobs == db.jobs && r.0.questions == db.questions
  {
    var s := Speech(db.nextSpeechId, stageId, title, None, videoSource, documentUrl, db.now, db.now);
    (db.(speeches := db.speeches[s.id := s], now := db.now + 1, nextSpeechId := db.nextSpeechId + 1), s)
  }

  /** `update_speech_video`: delete the speech's questions, cancel its pending and processing
      jobs, set its title and video source and clear its speech name; return the updated
      row, or nothing when there is no such speech (the delete and the cancel still happen). */
  function UpdateSpeechVideo(db: Db, speechId: Uuid, title: string, videoSource: string): (r: (Db, Option<Speech>))
    ensures QuestionsOf(r.0.questions, speechId) == []
    ensures forall other | other != speechId :: QuestionsOf(r.0.questions, other) == QuestionsOf(db.questions, other)
    ensures r.0 == db.(questions := r.0.questions, jobs := r.0.jobs, speeches := r.0.speeches, now := db.now + 1)
    ensures |r.0.jobs| == |db.jobs|
    ensures forall i | 0 <= i < |db.jobs| ::
              if db.jobs[i].speechId == Some(speechId) && InFlight(db.jobs[i])
              then r.0.jobs[i] == db.jobs[i].(status := Cancelled, updatedAt := r.0.jobs[i].updatedAt)
              else r.0.jobs[i] == db.jobs[i]
    ensures r.1.Some? <==> speechId in db.speeches
    ensures r.0.speeches.Keys == db.speeches.Keys
    ensures forall k | k in db.speeches && k != speechId :: r.0.speeches[k] == db.speeches[k]
    ensures speechId in db.speeches ==>
              && r.1 == Some(r.0.speeches[speechId])
              && r.0.speeches[speechId] == db.speeches[speechId].(title := title, videoSource := Some(videoSource),
                                                                  speechName := None, updatedAt := r.0.speeches[speechId].updatedAt)
  {
    var kept := WithoutSpeech(db.questions, speechId);
    QuestionsOfWithout(db.questions, speechId, speechId);
    assert forall other | other != speechId :: QuestionsOf(kept, other) == QuestionsOf(db.questions, other) by {
      forall other | other != speechId ensures QuestionsOf(kept, other) == QuestionsOf(db.questions, other) {
        QuestionsOfWithout(db.questions, speechId, other);
      }
    }
    var jobs := seq(|db.jobs|, i requires 0 <= i < |db.jobs| =>
      if db.jobs[i].speechId == Some(speechId) && InFlight(db.jobs[i])
      then db.jobs[i].(status := Cancelled, updatedAt := db.now)
      else db.jobs[i]);
    if speechId in db.speeches then
      var s := db.speeches[speechId].(title := title, videoSource := Some(videoSource), speechName := None,
                                      updatedAt := db.now);
      (db.(questions := kept, jobs := jobs, speeches := db.speeches[speechId := s], now := db.now + 1), Some(s))
    else
      (db.(questions := kept, jobs := jobs, now := db.now + 1), None)
  }

  /** `update_speech_document`: delete the speech's questions and set its title and document
      source; jobs and the speech name are left alone. */
  function UpdateSpeechDocument(db: Db, speechId: Uuid, title: string, documentUrl: string): (r: (Db, Option<Speech>))
    ensures QuestionsOf(r.0.questions, speechId) == []
    ensures forall other | other != speechId :: QuestionsOf(r.0.questions, other) == QuestionsOf(db.questions, other)
    ensures r.0 == db.(questions := r.0.questions, speeches := r.0.speeches, now := db.now + 1)
    ensures r.1.Some? <==> speechId in db.speeches
    ensures r.0.speeches.Keys == db.speeches.Keys
    ensures forall k | k in db.speeches && k != speechId :: r.0.speeches[k] == db.speeches[k]
    ensures speechId in db.speeches ==>
              && r.1 == Some(r.0.speeches[speechId])
              && r.0.speeches[speechId] == db.speeches[speechId].(title := title, documentUrl := Some(documentUrl),
                                                                  updatedAt := r.0.speeches[speechId].updatedAt)
  {
    var kept := WithoutSpeech(db.questions, speechId);
    QuestionsOfWithout(db.questions, speechId, speechId);
    assert forall other | other != speechId :: QuestionsOf(kept, other) == QuestionsOf(db.questions, other) by {
      forall other | other != speechId ensures QuestionsOf(kept, other) == QuestionsOf(db.questions, other) {
        QuestionsOfWithout(db.questions, speechId, other);
      }
    }
    if speechId in db.speeches then
      var s := db.speeches[speechId].(title := title, documentUrl := Some(documentUrl), updatedAt := db.now);
      (db.(questions := kept, speeches := db.speeches[speechId := s], now := db.now + 1), Some(s))
    else
      (db.(questions := kept, now := db.now + 1), None)
  }

  /** The transcript and the document, each stripped, the blank ones left out. */
  function StrippedPair(t: string, d: string): seq<string> {
    (if Text.IsBlank(t) then [] else [Text.Strip(t)]) + (if Text.IsBlank(d) then [] else [Text.Strip(d)])
  }

  /** The `speech_name` text before the cut: the stripped transcript and document joined by
      a blank line, a blank part left out; it has no surrounding whitespace. */
  function Snippet(t: string, d: string): (r: string)
    ensures r == Text.Fuse(Text.Strip(t), Text.Strip(d), "\n\n")
    ensures r == "" <==> Text.IsBlank(t) && Text.IsBlank(d)
    ensures r != "" ==> !Text.IsSpace(r[0])
  {
    var combined := Text.Join(StrippedPair(t, d), "\n\n");
    SpeechNameFacts(t, d);
    assert Text.NoEdgeSpace(Text.Strip(combined));
    if combined != "" then Text.Strip(combined) else Text.Strip(t)
  }

  /** The `speech_name` `update_speech_after_transcription` stores: the snippet cut to 255
      characters; `None` when transcript and document are both blank. */
  function SpeechName(transcript: string, document: Option<string>): (r: Option<string>)
    ensures r.None? <==> Text.IsBlank(transcript) && Text.IsBlank(document.GetOr(""))
    ensures r.Some? ==>
              var fused := Text.Fuse(Text.Strip(transcript), Text.Strip(document.GetOr("")), "\n\n");
              && |r.value| == (if |fused| < SpeechNameLength then |fused| else SpeechNameLength)
              && Text.HasPrefix(fused, r.value)
              && !Text.IsSpace(r.value[0])
  {
    var snippet := Snippet(transcript, document.GetOr(""));
    if snippet != "" then
      CutSnippet(snippet, SpeechNameLength);
      Some(Text.Take(snippet, SpeechNameLength))
    else None
  }

  /** Cutting a non-empty text keeps a prefix that starts like the text. */
  lemma CutSnippet(snippet: string, n: nat)
    requires snippet != "" && n > 0
    ensures var cut := Text.Take(snippet, n);
            && |cut| == (if |snippet| < n then |snippet| else n)
            && Text.HasPrefix(snippet, cut)
            && cut[0] == snippet[0]
  {
  }

  /** A stripped text is blank exactly when the text was. */
  lemma StripBlank(s: string)
    ensures Text.IsBlank(Text.Strip(s)) <==> Text.IsBlank(s)
  {
    var st := Text.Strip(s);
    if st != [] {
      assert !Text.IsSpace(st[0]);
    }
  }

  /** The join in `SpeechName` already has no surrounding whitespace, so its `strip()` is the
      fused text itself; it is empty exactly when both parts are blank. */
  lemma SpeechNameFacts(t: string, d: string)
    ensures var combined := Text.Join(StrippedPair(t, d), "\n\n");
            var fused := Text.Fuse(Text.Strip(t), Text.Strip(d), "\n\n");
            && combined == fused
            && (combined == "" <==> Text.IsBlank(t) && Text.IsBlank(d))
            && Text.Strip(combined) == combined
            && (combined == "" ==> Text.Strip(t) == "")
  {
    var st, sd := Text.Strip(t), Text.Strip(d);
    var sep := "\n\n";
    StripBlank(t);
    StripBlank(d);
    var pa: seq<string> := if Text.IsBlank(t) then [] else [st];
    var pb: seq<string> := if Text.IsBlank(d) then [] else [sd];
    assert StrippedPair(t, d) == pa + pb;
    JoinPair(pa, pb, sep);
    if !Text.IsBlank(t) && !Text.IsBlank(d) {
      JoinedClean(st, sd, sep);
    } else if !Text.IsBlank(t) {
      Text.StripIdempotent(t);
    } else if !Text.IsBlank(d) {
      Text.StripIdempotent(d);
    }
  }

  /** Joining at most one part on each side. */
  lemma JoinPair(pa: seq<string>, pb: seq<string>, sep: string)
    requires |pa| <= 1 && |pb| <= 1
    ensures Text.Join(pa + pb, sep) ==
              if pa == [] then (if pb == [] then "" else pb[0])
              else if pb == [] then pa[0]
              else pa[0] + sep + pb[0]
  {
    if pa != [] && pb != [] {
      assert (pa + pb)[1..] == pb;
    } else if pa != [] {
      assert pa + pb == pa;
    } else {
      assert pa + pb == pb;
    }
  }

  /** Two non-empty texts without surrounding whitespace, joined by any separator, keep
      that property. */
  lemma JoinedClean(a: string, b: string, sep: string)
    requires a != "" && b != "" && Text.NoEdgeSpace(a) && Text.NoEdgeSpace(b)
    ensures Text.Strip(a + sep + b) == a + sep + b
  {
    var fused := a + sep + b;
    assert fused[0] == a[0];
    assert fused[|fused| - 1] == b[|b| - 1];
    Text.StripKeepsClean(fused);
  }

  /** `update_speech_after_transcription`: only the speech's `speech_name` changes. */
  function UpdateSpeechAfterTranscription(db: Db, speechId: Uuid, transcript: string, document: Option<string>): (r: Db)
    ensures r == db.(speeches := r.speeches, now := db.now + 1)
    ensures r.speeches.Keys == db.speeches.Keys
    ensures forall k | k in db.speeches && k != speechId :: r.speeches[k] == db.speeches[k]
    ensures speechId in db.speeches ==>
              r.speeches[speechId] == db.speeches[speechId].(speechName := SpeechName(transcript, document),
                                                             updatedAt := r.speeches[speechId].updatedAt)
  {
    var name := SpeechName(transcript, document);
    SetNameKeepsOthers(db, speechId, name);
    SetSpeechName(db, speechId, name)
  }

  /** `SetSpeechName`'s contract for one name, as a single fact. */
  lemma SetNameKeepsOthers(db: Db, speechId: Uuid, name: Option<string>)
    ensures var r := SetSpeechName(db, speechId, name);
            && r == db.(speeches := r.speeches, now := db.now + 1)
            && r.speeches.Keys == db.speeches.Keys
            && (forall k | k in db.speeches && k != speechId :: r.speeches[k] == db.speeches[k])
            && (speechId in db.speeches ==>
                  r.speeches[speechId] == db.speeches[speechId].(speechName := name, updatedAt := r.speeches[speechId].updatedAt))
  {
  }

  /** Stores `name` as the speech's `speech_name`, stamping the row when it exists. */
  function SetSpeechName(db: Db, speechId: Uuid, name: Option<string>): (r: Db)
    ensures r == db.(speeches := r.speeches, now := db.now + 1)
    ensures r.speeches.Keys == db.speeches.Keys
    ensures forall k | k in db.speeches && k != speechId :: r.speeches[k] == db.speeches[k]
    ensures speechId in db.speeches ==>
              r.speeches[speechId] == db.speeches[speechId].(speechName := name, updatedAt := r.speeches[speechId].updatedAt)
  {
    if speechId in db.speeches then
      var s := db.speeches[speechId].(speechName := name, updatedAt := db.now);
      db.(speeches := db.speeches[speechId := s], now := db.now + 1)
    else db.(now := db.now + 1)
  }

  /** The jobs not tied to the speech, in order. */
  function JobsNotOf(jobs: seq<Job>, speechId: Uuid): (r: seq<Job>)
    ensures forall j | j in r :: j in jobs && j.speechId != Some(speechId)
    ensures forall j | j in jobs && j.speechId != Some(speechId) :: j in r
    ensures |r| <= |jobs|
    decreases |jobs|
  {
    if |jobs| == 0 then []
    else (if jobs[0].speechId == Some(speechId) then [] else [jobs[0]]) + JobsNotOf(jobs[1..], speechId)
  }

  /** `delete_speech`: the speech, its questions and its jobs are gone; nothing else is. */
  function DeleteSpeech(db: Db, speechId: Uuid): (r: Db)
    ensures speechId !in r.speeches && r.speeches == db.speeches - {speechId}
    ensures QuestionsOf(r.questions, speechId) == []
    ensures forall other | other != speechId :: QuestionsOf(r.questions, other) == QuestionsOf(db.questions, other)
    ensures forall j | j in r.jobs :: j.speechId != Some(speechId)
    ensures forall j | j in db.jobs :: j.speechId != Some(speechId) ==> j in r.jobs
    ensures forall j | j in r.jobs :: j in db.jobs
    ensures r == db.(questions := r.questions, jobs := r.jobs, speeches := r.speeches, now := db.now + 1)
  {
    var kept := WithoutSpeech(db.questions, speechId);
    QuestionsOfWithout(db.questions, speechId, speechId);
    assert forall other | other != speechId :: QuestionsOf(kept, other) == QuestionsOf(db.questions, other) by {
      forall other | other != speechId ensures QuestionsOf(kept, other) == QuestionsOf(db.questions, other) {
        QuestionsOfWithout(db.questions, speechId, other);
      }
    }
    db.(questions := kept, jobs := JobsNotOf(db.jobs, speechId), speeches := db.speeches - {speechId},
        now := db.now + 1)
  }
}

=== FILE: store_invariant.dfy ===
/** What every store reachable from an empty one through the operations of database.py
    satisfies, and the consequences the pipeline relies on: the claim takes the first
    pending job in creation order and touches no other row, a replaced video's old jobs are
    never claimed again, and `list_jobs` is newest first. */
module StoreInvariant {
  import opened Wrappers
  import opened Json
  import opened Store

  /** Job ids and creation stamps strictly increase along the table. */
  predicate JobsOrdered(jobs: seq<Job>) {
    forall i, j | 0 <= i < j < |jobs| :: jobs[i].id < jobs[j].id && jobs[i].createdAt < jobs[j].createdAt
  }

  /** Question ids strictly increase along the table; creation stamps never decrease
      (one call inserts its rows with one stamp). */
  predicate QuestionsOrdered(qs: seq<QuestionRow>) {
    forall i, j | 0 <= i < j < |qs| :: qs[i].id < qs[j].id && qs[i].createdAt <= qs[j].createdAt
  }

  /** The invariant: tables ordered, every id below its source's next value, every stamp in
      the past, and every speech stored under its own id. */
  predicate Valid(db: Db) {
    && JobsOrdered(db.jobs)
    && (forall j | j in db.jobs :: j.id < db.nextJobId && j.createdAt < db.now)
    && QuestionsOrdered(db.questions)
    && (forall q | q in db.questions :: q.id < db.nextQuestionId && q.createdAt < db.now)
    && (forall k | k in db.speeches :: db.speeches[k].id == k && k < db.nextSpeechId)
  }

  /** Every statement the pipeline and the API issue against the store. */
  datatype Op =
    | Claim
    | NewJob(videoSource: string, userId: Uuid, stageId: Uuid, speechId: Uuid)
    | Complete(jobId: nat, transcript: string, qualityInfo: Json, generated: Json)
    | Fail(jobId: nat, message: string)
    | NewSpeech(stageId: Uuid, title: string, initialVideo: Option<string>, initialDocument: Option<string>)
    | ReplaceVideo(speechId: Uuid, title: string, videoSource: string)
    | ReplaceDocument(speechId: Uuid, title: string, documentUrl: string)
    | NameSpeech(speechId: Uuid, transcript: string, document: Option<string>)
    | StoreGenerated(speechId: Uuid, entries: seq<map<string, Json>>)
    | UpsertGenerated(speechId: Uuid, entries: seq<map<string, Json>>)
    | Feedback(questionId: nat, userAnswer: string, aiFeedback: string, score: Option<int>)
    | Delete(speechId: Uuid)

  /** The statements of the job queue. */
  predicate IsJobOp(op: Op) {
    op.Claim? || op.NewJob? || op.Complete? || op.Fail?
  }

  function Apply(db: Db, op: Op): Db {
    if IsJobOp(op) then ApplyJobOp(db, op) else ApplySpeechOp(db, op)
  }

  function ApplyJobOp(db: Db, op: Op): Db
    requires IsJobOp(op)
  {
    match op
    case Claim => ClaimNext(db).0
    case NewJob(src, user, stage, speech) => CreateJob(db, src, user, stage, speech).0
    case Complete(id, t, info, generated) => MarkCompleted(db, id, t, info, generated)
    case Fail(id, message) => MarkFailed(db, id, message)
  }

  function ApplySpeechOp(db: Db, op: Op): Db
    requires !IsJobOp(op)
  {
    match op
    case NewSpeech(stage, title, src, doc) => CreateSpeech(db, stage, title, src, doc).0
    case ReplaceVideo(speech, title, src) => UpdateSpeechVideo(db, speech, title, src).0
    case ReplaceDocument(speech, title, doc) => UpdateSpeechDocument(db, speech, title, doc).0
    case NameSpeech(speech, t, doc) => UpdateSpeechAfterTranscription(db, speech, t, doc)
    case StoreGenerated(speech, entries) => StoreQuestions(db, speech, entries)
    case UpsertGenerated(speech, entries) => UpsertQuestions(db, speech, entries).0
    case Feedback(id, answer, feedback, score) => UpdateQuestionFeedback(db, id, answer, feedback, score)
    case Delete(speech) => DeleteSpeech(db, speech)
  }

  function Run(db: Db, ops: seq<Op>): Db
    decreases |ops|
  {
    if |ops| == 0 then db else Run(Apply(db, ops[0]), ops[1..])
  }

  // ---------------------------------------------------------------------------
  // Filters keep the order

  /** A row that precedes every row of an ordered table may be put in front of it. */
  lemma ConsQuestionsOrdered(h: QuestionRow, rest: seq<QuestionRow>)
    requires QuestionsOrdered(rest)
    requires forall q | q in rest :: h.id < q.id && h.createdAt <= q.createdAt
    ensures QuestionsOrdered([h] + rest)
  {
    var r := [h] + rest;
    forall i, j | 0 <= i < j < |r| ensures r[i].id < r[j].id && r[i].createdAt <= r[j].createdAt {
      assert r[j] == rest[j - 1];
      if i > 0 {
        assert r[i] == rest[i - 1];
      }
    }
  }

  lemma ConsJobsOrdered(h: Job, rest: seq<Job>)
    requires JobsOrdered(rest)
    requires forall j | j in rest :: h.id < j.id && h.createdAt < j.createdAt
    ensures JobsOrdered([h] + rest)
  {
    var r := [h] + rest;
    forall i, j | 0 <= i < j < |r| ensures r[i].id < r[j].id && r[i].createdAt < r[j].createdAt {
      assert r[j] == rest[j - 1];
      if i > 0 {
        assert r[i] == rest[i - 1];
      }
    }
  }

  /** The head of an ordered table precedes every row of its tail. */
  lemma HeadPrecedesQuestions(qs: seq<QuestionRow>)
    requires QuestionsOrdered(qs) && |qs| > 0
    ensures QuestionsOrdered(qs[1..])
    ensures forall q | q in qs[1..] :: qs[0].id < q.id && qs[0].createdAt <= q.createdAt
  {
    forall q | q in qs[1..] ensures qs[0].id < q.id && qs[0].createdAt <= q.createdAt {
      var k :| 0 <= k < |qs[1..]| && qs[1..][k] == q;
      assert qs[k + 1] == q;
    }
    forall i, j | 0 <= i < j < |qs[1..]| ensures qs[1..][i].id < qs[1..][j].id && qs[1..][i].createdAt <= qs[1..][j].createdAt {
      assert qs[1..][i] == qs[i + 1] && qs[1..][j] == qs[j + 1];
    }
  }

  lemma HeadPrecedesJobs(jobs: seq<Job>)
    requires JobsOrdered(jobs) && |jobs| > 0
    ensures JobsOrdered(jobs[1..])
    ensures forall j | j in jobs[1..] :: jobs[0].id < j.id && jobs[0].createdAt < j.createdAt
  {
    forall j | j in jobs[1..] ensures jobs[0].id < j.id && jobs[0].createdAt < j.createdAt {
      var k :| 0 <= k < |jobs[1..]| && jobs[1..][k] == j;
      assert jobs[k + 1] == j;
    }
    forall i, j | 0 <= i < j < |jobs[1..]| ensures jobs[1..][i].id < jobs[1..][j].id && jobs[1..][i].createdAt < jobs[1..][j].createdAt {
      assert jobs[1..][i] == jobs[i + 1] && jobs[1..][j] == jobs[j + 1];
    }
  }

  lemma {:induction false} WithoutSpeechOrdered(qs: seq<QuestionRow>, speechId: Uuid)
    requires QuestionsOrdered(qs)
    ensures QuestionsOrdered(WithoutSpeech(qs, speechId))
    decreases |qs|
  {
    if |qs| > 0 {
      HeadPrecedesQuestions(qs);
      WithoutSpeechOrdered(qs[1..], speechId);
      if qs[0].speechId != speechId {
        ConsQuestionsOrdered(qs[0], WithoutSpeech(qs[1..], speechId));
      }
    }
  }

  lemma {:induction false} JobsNotOfOrdered(jobs: seq<Job>, speechId: Uuid)
    requires JobsOrdered(jobs)
    ensures JobsOrdered(JobsNotOf(jobs, speechId))
    decreases |jobs|
  {
    if |jobs| > 0 {
      HeadPrecedesJobs(jobs);
      JobsNotOfOrdered(jobs[1..], speechId);
      if jobs[0].speechId != Some(speechId) {
        ConsJobsOrdered(jobs[0], JobsNotOf(jobs[1..], speechId));
      }
    }
  }

  /** Keeping questions of other speeches and appending a fresh batch keeps the invariant's
      question part. */
  lemma ReplaceQuestionsValid(db: Db, speechId: Uuid, payload: seq<map<string, Json>>)
    requires Valid(db)
    ensures Valid(ReplaceQuestions(db, speechId, payload))
  {
    var kept := WithoutSpeech(db.questions, speechId);
    var rows := NewRows(payload, speechId, db.nextQuestionId, db.now);
    WithoutSpeechOrdered(db.questions, speechId);
    BatchAppendedOrdered(kept, rows, db.nextQuestionId, db.now);
  }

  /** A batch numbered from `next` and stamped `now`, appended after rows whose ids are below
      `next` and whose stamps are before `now`, keeps the table ordered and bounded. */
  lemma BatchAppendedOrdered(kept: seq<QuestionRow>, rows: seq<QuestionRow>, next: nat, now: nat)
    requires QuestionsOrdered(kept)
    requires forall q | q in kept :: q.id < next && q.createdAt < now
    requires forall k | 0 <= k < |rows| :: rows[k].id == next + k && rows[k].createdAt == now
    ensures QuestionsOrdered(kept + rows)
    ensures forall q | q in kept + rows :: q.id < next + |rows| && q.createdAt < now + 1
  {
    var all := kept + rows;
    forall i, j | 0 <= i < j < |all| ensures all[i].id < all[j].id && all[i].createdAt <= all[j].createdAt {
      if j < |kept| {
        assert all[i] == kept[i] && all[j] == kept[j];
      } else if i < |kept| {
        assert all[i] == kept[i] && kept[i] in kept;
      }
    }
    forall q | q in all ensures q.id < next + |rows| && q.createdAt < now + 1 {
      if q !in kept {
        var k :| 0 <= k < |rows| && rows[k] == q;
      }
    }
  }

  /** Removing a speech's rows keeps the invariant. */
  lemma DeleteSpeechValid(db: Db, speechId: Uuid)
    requires Valid(db)
    ensures Valid(DeleteSpeech(db, speechId))
  {
    WithoutSpeechOrdered(db.questions, speechId);
    JobsNotOfOrdered(db.jobs, speechId);
  }

  lemma UpdateSpeechVideoValid(db: Db, speechId: Uuid, title: string, videoSource: string)
    requires Valid(db)
    ensures Valid(UpdateSpeechVideo(db, speechId, title, videoSource).0)
  {
    var r := UpdateSpeechVideo(db, speechId, title, videoSource).0;
    KeptQuestionsValid(db, speechId, r.questions);
    SameJobKeys(db, r);
  }

  lemma UpdateSpeechDocumentValid(db: Db, speechId: Uuid, title: string, documentUrl: string)
    requires Valid(db)
    ensures Valid(UpdateSpeechDocument(db, speechId, title, documentUrl).0)
  {
    var r := UpdateSpeechDocument(db, speechId, title, documentUrl).0;
    KeptQuestionsValid(db, speechId, r.questions);
  }

  /** The rows left after a speech's are deleted are still ordered and bounded. */
  lemma KeptQuestionsValid(db: Db, speechId: Uuid, kept: seq<QuestionRow>)
    requires Valid(db)
    requires kept == WithoutSpeech(db.questions, speechId)
    ensures QuestionsOrdered(kept)
    ensures forall q | q in kept :: q.id < db.nextQuestionId && q.createdAt < db.now
  {
    WithoutSpeechOrdered(db.questions, speechId);
  }

  /** Rewriting job rows in place, keeping each row's id and creation stamp, keeps the
      invariant's job part. */
  lemma SameJobKeys(db: Db, r: Db)
    requires Valid(db)
    requires |r.jobs| == |db.jobs|
    requires forall i | 0 <= i < |db.jobs| :: r.jobs[i].id == db.jobs[i].id && r.jobs[i].createdAt == db.jobs[i].createdAt
    requires r.nextJobId >= db.nextJobId && r.now >= db.now
    ensures JobsOrdered(r.jobs)
    ensures forall j | j in r.jobs :: j.id < r.nextJobId && j.createdAt < r.now
  {
    forall k | 0 <= k < |r.jobs| ensures r.jobs[k].id < r.nextJobId && r.jobs[k].createdAt < r.now {
      assert db.jobs[k] in db.jobs;
    }
  }

  /** The same for question rows rewritten in place. */
  lemma SameQuestionKeys(db: Db, r: Db)
    requires Valid(db)
    requires |r.questions| == |db.questions|
    requires forall i | 0 <= i < |db.questions| ::
               r.questions[i].id == db.questions[i].id && r.questions[i].createdAt == db.questions[i].createdAt
    requires r.nextQuestionId >= db.nextQuestionId && r.now >= db.now
    ensures QuestionsOrdered(r.questions)
    ensures forall q | q in r.questions :: q.id < r.nextQuestionId && q.createdAt < r.now
  {
    forall k | 0 <= k < |r.questions| ensures r.questions[k].id < r.nextQuestionId && r.questions[k].createdAt < r.now {
      assert db.questions[k] in db.questions;
    }
  }

  lemma ClaimValid(db: Db)
    requires Valid(db)
    ensures Valid(ClaimNext(db).0)
  {
    var r := ClaimNext(db);
    if r.1.Some? {
      var k :| ClaimedAt(db, r.0, r.1.value, k);
      SameJobKeys(db, r.0);
    }
  }

  lemma CreateJobValid(db: Db, videoSource: string, userId: Uuid, stageId: Uuid, speechId: Uuid)
    requires Valid(db)
    ensures Valid(CreateJob(db, videoSource, userId, stageId, speechId).0)
  {
    var (r, job) := CreateJob(db, videoSource, userId, stageId, speechId);
    forall i, j | 0 <= i < j < |r.jobs| ensures r.jobs[i].id < r.jobs[j].id && r.jobs[i].createdAt < r.jobs[j].createdAt {
      assert r.jobs[i] == db.jobs[i] && db.jobs[i] in db.jobs;
      if j < |db.jobs| {
        assert r.jobs[j] == db.jobs[j];
      }
    }
  }

  lemma MarkCompletedValid(db: Db, jobId: nat, transcript: string, qualityInfo: Json, questions: Json)
    requires Valid(db)
    ensures Valid(MarkCompleted(db, jobId, transcript, qualityInfo, questions))
  {
    SameJobKeys(db, MarkCompleted(db, jobId, transcript, qualityInfo, questions));
  }

  lemma MarkFailedValid(db: Db, jobId: nat, message: string)
    requires Valid(db)
    ensures Valid(MarkFailed(db, jobId, message))
  {
    SameJobKeys(db, MarkFailed(db, jobId, message));
  }

  lemma StoreQuestionsValid(db: Db, speechId: Uuid, entries: seq<map<string, Json>>)
    requires Valid(db)
    ensures Valid(StoreQuestions(db, speechId, entries))
  {
    if |entries| > 0 && |Insertable(entries)| > 0 {
      ReplaceQuestionsValid(db, speechId, Insertable(entries));
    }
  }

  lemma UpsertQuestionsValid(db: Db, speechId: Uuid, entries: seq<map<string, Json>>)
    requires Valid(db)
    ensures Valid(UpsertQuestions(db, speechId, entries).0)
  {
    if |entries| > 0 {
      ReplaceQuestionsValid(db, speechId, Insertable(entries));
    }
  }

  lemma UpdateQuestionFeedbackValid(db: Db, questionId: nat, userAnswer: string, aiFeedback: string,
                                    score: Option<int>)
    requires Valid(db)
    ensures Valid(UpdateQuestionFeedback(db, questionId, userAnswer, aiFeedback, score))
  {
    SameQuestionKeys(db, UpdateQuestionFeedback(db, questionId, userAnswer, aiFeedback, score));
  }

  lemma CreateSpeechValid(db: Db, stageId: Uuid, title: string, videoSource: Option<string>,
                          documentUrl: Option<string>)
    requires Valid(db)
    ensures Valid(CreateSpeech(db, stageId, title, videoSource, documentUrl).0)
  {
  }

  lemma NameSpeechValid(db: Db, speechId: Uuid, transcript: string, document: Option<string>)
    requires Valid(db)
    ensures Valid(UpdateSpeechAfterTranscription(db, speechId, transcript, document))
  {
    SetSpeechNameValid(db, speechId, SpeechName(transcript, document));
  }

  lemma SetSpeechNameValid(db: Db, speechId: Uuid, name: Option<string>)
    requires Valid(db)
    ensures Valid(SetSpeechName(db, speechId, name))
  {
  }

  /** Every operation keeps the invariant. */
  lemma ApplyValid(db: Db, op: Op)
    requires Valid(db)
    ensures Valid(Apply(db, op))
  {
    if IsJobOp(op) {
      ApplyJobOpValid(db, op);
    } else {
      ApplySpeechOpValid(db, op);
    }
  }

  lemma ApplyJobOpValid(db: Db, op: Op)
    requires Valid(db) && IsJobOp(op)
    ensures Valid(ApplyJobOp(db, op))
  {
    match op
    case Claim => ClaimValid(db);
    case NewJob(src, user, stage, speech) => CreateJobValid(db, src, user, stage, speech);
    case Complete(id, t, info, generated) => MarkCompletedValid(db, id, t, info, generated);
    case Fail(id, message) => MarkFailedValid(db, id, message);
  }

  lemma ApplySpeechOpValid(db: Db, op: Op)
    requires Valid(db) && !IsJobOp(op)
    ensures Valid(ApplySpeechOp(db, op))
  {
    match op
    case NewSpeech(stage, title, src, doc) => CreateSpeechValid(db, stage, title, src, doc);
    case ReplaceVideo(speech, title, src) => UpdateSpeechVideoValid(db, speech, title, src);
    case ReplaceDocument(speech, title, doc) => UpdateSpeechDocumentValid(db, speech, title, doc);
    case NameSpeech(speech, t, doc) => NameSpeechValid(db, speech, t, doc);
    case StoreGenerated(speech, entries) => StoreQuestionsValid(db, speech, entries);
    case UpsertGenerated(speech, entries) => UpsertQuestionsValid(db, speech, entries);
    case Feedback(id, answer, feedback, score) => UpdateQuestionFeedbackValid(db, id, answer, feedback, score);
    case Delete(speech) => DeleteSpeechValid(db, speech);
  }

  /** Every store reachable from the empty one satisfies the invariant. */
  lemma {:induction false} RunValid(db: Db, ops: seq<Op>)
    requires Valid(db)
    ensures Valid(Run(db, ops))
    decreases |ops|
  {
    if |ops| > 0 {
      ApplyValid(db, ops[0]);
      RunValid(Apply(db, ops[0]), ops[1..]);
    }
  }

  lemma ReachableValid(ops: seq<Op>)
    ensures Valid(Run(Empty(), ops))
  {
    RunValid(Empty(), ops);
  }

  // ---------------------------------------------------------------------------
  // Consequences

  /** In a valid store the claim takes the FIRST pending job of the table, whose creation
      stamp is strictly below every other pending job's (so the order of equal stamps never
      arises), and changes that one row only. */
  lemma ClaimTakesFirstPending(db: Db)
    requires Valid(db)
    ensures var (db', c) := ClaimNext(db);
            c.Some? ==>
              exists k | 0 <= k < |db.jobs| ::
                && db.jobs[k].status == Pending && db.jobs[k].id == c.value.id
                && (forall i | 0 <= i < k :: db.jobs[i].status != Pending)
                && (forall i | k < i < |db.jobs| && db.jobs[i].status == Pending ::
                      db.jobs[k].createdAt < db.jobs[i].createdAt)
                && db'.jobs[k].status == Processing && db'.jobs[k].errorMessage.None?
                && (forall i | 0 <= i < |db.jobs| && i != k :: db'.jobs[i] == db.jobs[i])
  {
    var (db', c) := ClaimNext(db);
    if c.Some? {
      var k :| ClaimedAt(db, db', c.value, k);
      ClaimedFirst(db, db', c.value, k);
    }
  }

  /** What the claimed row `k` is, in a valid store. */
  lemma ClaimedFirst(db: Db, db': Db, c: ClaimedJob, k: int)
    requires Valid(db) && ClaimedAt(db, db', c, k)
    ensures && db.jobs[k].status == Pending && db.jobs[k].id == c.id
            && (forall i | 0 <= i < k :: db.jobs[i].status != Pending)
            && (forall i | k < i < |db.jobs| && db.jobs[i].status == Pending ::
                  db.jobs[k].createdAt < db.jobs[i].createdAt)
            && db'.jobs[k].status == Processing && db'.jobs[k].errorMessage.None?
            && (forall i | 0 <= i < |db.jobs| && i != k :: db'.jobs[i] == db.jobs[i])
  {
    forall i | 0 <= i < k ensures db.jobs[i].status != Pending {
      assert db.jobs[i].createdAt < db.jobs[k].createdAt;
    }
    forall i | 0 <= i < |db.jobs| && i != k ensures db'.jobs[i] == db.jobs[i] {
      assert db.jobs[i].id != db.jobs[k].id;
    }
  }

  /** Two claims in a row never hand out the same job. */
  lemma ClaimTwiceDistinct(db: Db)
    ensures var (db1, c1) := ClaimNext(db);
            var (_, c2) := ClaimNext(db1);
            c1.Some? && c2.Some? ==> c1.value.id != c2.value.id
  {
    var (db1, c1) := ClaimNext(db);
    var (db2, c2) := ClaimNext(db1);
    if c1.Some? && c2.Some? {
      var k1 :| ClaimedAt(db, db1, c1.value, k1);
      var k2 :| ClaimedAt(db1, db2, c2.value, k2);
      if db.jobs[k2].id == c1.value.id {
        assert db1.jobs[k2].status == Processing;
      }
    }
  }

  /** After a new video replaces a speech's old one (`update_speech_video`, then
      `create_job` for the speech), the new job is the speech's only pending or processing
      job, so a claim that returns a job of that speech returns the new one. */
  lemma ReplacedVideoOnlyNewJobClaimed(db: Db, speechId: Uuid, title: string, videoSource: string,
                                       userId: Uuid, stageId: Uuid)
    ensures var db1 := UpdateSpeechVideo(db, speechId, title, videoSource).0;
            var (db2, job) := CreateJob(db1, videoSource, userId, stageId, speechId);
            && (forall i | 0 <= i < |db2.jobs| && db2.jobs[i].speechId == Some(speechId) && InFlight(db2.jobs[i]) ::
                  i == |db2.jobs| - 1 && db2.jobs[i] == job)
            && (var c := ClaimNext(db2).1;
                c.Some? && c.value.speechId == Some(speechId) ==> c.value.id == job.id)
  {
    var db1 := UpdateSpeechVideo(db, speechId, title, videoSource).0;
    var (db2, job) := CreateJob(db1, videoSource, userId, stageId, speechId);
    ReplacedNoneInFlight(db, speechId, title, videoSource);
    OnlyAppendedInFlight(db1.jobs, job, speechId);
    var (db3, c) := ClaimNext(db2);
    if c.Some? && c.value.speechId == Some(speechId) {
      var k :| ClaimedAt(db2, db3, c.value, k);
      assert db2.jobs[k].speechId == Some(speechId) && InFlight(db2.jobs[k]);
    }
  }

  /** Replacing the video leaves none of the speech's jobs pending or processing. */
  lemma ReplacedNoneInFlight(db: Db, speechId: Uuid, title: string, videoSource: string)
    ensures var jobs := UpdateSpeechVideo(db, speechId, title, videoSource).0.jobs;
            forall i | 0 <= i < |jobs| :: !(jobs[i].speechId == Some(speechId) && InFlight(jobs[i]))
  {
  }

  /** When no row of a speech is in flight, after one more row the only such row is the new one. */
  lemma OnlyAppendedInFlight(jobs: seq<Job>, job: Job, speechId: Uuid)
    requires forall i | 0 <= i < |jobs| :: !(jobs[i].speechId == Some(speechId) && InFlight(jobs[i]))
    ensures var all := jobs + [job];
            forall i | 0 <= i < |all| && all[i].speechId == Some(speechId) && InFlight(all[i]) ::
              i == |jobs| && all[i] == job
  {
    var all := jobs + [job];
    assert forall i | 0 <= i < |jobs| :: all[i] == jobs[i];
  }

  /** `mark_completed` does not look at the status it overwrites: a job cancelled by a video
      replacement still ends up completed when its worker finishes. */
  lemma CompletedOverwritesCancelled(db: Db, speechId: Uuid, title: string, videoSource: string,
                                     jobId: nat, transcript: string)
    ensures var db1 := UpdateSpeechVideo(db, speechId, title, videoSource).0;
            var db2 := MarkCompleted(db1, jobId, transcript, JNull, JNull);
            forall i | 0 <= i < |db.jobs| && db.jobs[i].id == jobId ::
              db2.jobs[i].status == Completed && db2.jobs[i].questions == JNull
  {
  }

  /** With entries but none carrying a question, `store_questions` keeps the speech's
      questions while `upsert_questions` deletes them. */
  lemma StoreKeepsUpsertClears(db: Db, speechId: Uuid, entries: seq<map<string, Json>>)
    requires entries != [] && Insertable(entries) == []
    ensures QuestionsOf(StoreQuestions(db, speechId, entries).questions, speechId) == QuestionsOf(db.questions, speechId)
    ensures UpsertQuestions(db, speechId, entries).1 == []
    ensures QuestionsOf(UpsertQuestions(db, speechId, entries).0.questions, speechId) == []
  {
  }

  /** `list_jobs` returns jobs newest first by `created_at`. */
  lemma ListJobsNewestFirst(db: Db, limit: int)
    requires Valid(db)
    ensures var r := ListJobs(db, limit);
            forall i, j | 0 <= i < j < |r| :: r[i].createdAt > r[j].createdAt
  {
  }

  /** A speech's questions come back in `created_at` order, as `list_questions_for_speech`
      orders them. */
  lemma {:induction false} QuestionsOfSorted(qs: seq<QuestionRow>, speechId: Uuid)
    requires QuestionsOrdered(qs)
    ensures QuestionsOrdered(QuestionsOf(qs, speechId))
    decreases |qs|
  {
    if |qs| > 0 {
      HeadPrecedesQuestions(qs);
      QuestionsOfSorted(qs[1..], speechId);
      if qs[0].speechId == speechId {
        ConsQuestionsOrdered(qs[0], QuestionsOf(qs[1..], speechId));
      }
    }
  }

  /** A new speech's id is not already taken in a valid store. */
  lemma CreateSpeechFresh(db: Db, stageId: Uuid, title: string, videoSource: Option<string>,
                          documentUrl: Option<string>)
    requires Valid(db)
    ensures CreateSpeech(db, stageId, title, videoSource, documentUrl).1.id !in db.speeches
  {
  }
}

=== FILE: text.dfy ===
/** Python `str` operations the rest of the model is written in: whitespace
    classification (`str.isspace`), `strip`, `split(sep)`, `split()`, `join`,
    `startswith`, `in`, `find`, `lower` (ASCII letters only), `str(int)` and
    `int(str)`. Strings are sequences of Unicode scalar values, as in Python. */
module Text {
  import opened Wrappers

  // ---------------------------------------------------------------------------
  // Whitespace

  /** Python's `str.isspace` for one character (the set `strip()` and `split()` use). */
  predicate IsSpace(c: char) {
    || ('\t' <= c <= '\r')
    || ('\U{1C}' <= c <= '\U{1F}')
    || c == ' '
    || c == '\U{85}'
    || c == '\U{A0}'
    || c == '\U{1680}'
    || ('\U{2000}' <= c <= '\U{200A}')
    || c == '\U{2028}'
    || c == '\U{2029}'
    || c == '\U{202F}'
    || c == '\U{205F}'
    || c == '\U{3000}'
  }

  /** Every character is whitespace; Python's `not s.strip()`. */
  predicate IsBlank(s: string) {
    forall i | 0 <= i < |s| :: IsSpace(s[i])
  }

  /** Neither end of `s` is whitespace. */
  predicate NoEdgeSpace(s: string) {
    s == [] || (!IsSpace(s[0]) && !IsSpace(s[|s| - 1]))
  }

  /** No character of `s` is whitespace. */
  predicate NoSpace(s: string) {
    forall i | 0 <= i < |s| :: !IsSpace(s[i])
  }

  /** Python's `s.lstrip()`. */
  function TrimStart(s: string): (r: string)
    ensures |r| <= |s| && r == s[|s| - |r|..]
    ensures IsBlank(s[..|s| - |r|])
    ensures r != [] ==> !IsSpace(r[0])
    decreases |s|
  {
    if |s| > 0 && IsSpace(s[0]) then
      var r := TrimStart(s[1..]);
      TrimStartStep(s, r);
      r
    else s
  }

  lemma TrimStartStep(s: string, r: string)
    requires |s| > 0 && IsSpace(s[0])
    requires |r| <= |s| - 1 && r == s[1..][|s| - 1 - |r|..] && IsBlank(s[1..][..|s| - 1 - |r|])
    ensures r == s[|s| - |r|..] && IsBlank(s[..|s| - |r|])
  {
    var k := |s| - |r|;
    assert s[1..][k - 1..] == s[k..];
    forall j | 0 <= j < k ensures IsSpace(s[j]) {
      if j > 0 {
        assert s[j] == s[1..][..k - 1][j - 1];
      }
    }
  }

  /** Python's `s.rstrip()`. */
  function TrimEnd(s: string): (r: string)
    ensures |r| <= |s| && r == s[..|r|]
    ensures IsBlank(s[|r|..])
    ensures r != [] ==> !IsSpace(r[|r| - 1])
    decreases |s|
  {
    if |s| > 0 && IsSpace(s[|s| - 1]) then
      var r := TrimEnd(s[..|s| - 1]);
      TrimEndStep(s, r);
      r
    else s
  }

  lemma TrimEndStep(s: string, r: string)
    requires |s| > 0 && IsSpace(s[|s| - 1])
    requires |r| <= |s| - 1 && r == s[..|s| - 1][..|r|] && IsBlank(s[..|s| - 1][|r|..])
    ensures r == s[..|r|] && IsBlank(s[|r|..])
  {
    assert s[..|s| - 1][..|r|] == s[..|r|];
    forall j | |r| <= j < |s| ensures IsSpace(s[j]) {
      if j < |s| - 1 {
        assert s[j] == s[..|s| - 1][|r|..][j - |r|];
      }
    }
  }

  /** `r` is the slice of `s` starting at `i`, and only whitespace lies outside it. */
  predicate StripsTo(s: string, i: int, r: string) {
    && 0 <= i <= |s| - |r|
    && s[i..i + |r|] == r
    && IsBlank(s[..i])
    && IsBlank(s[i + |r|..])
  }

  /** Python's `s.strip()`: `s` without leading and trailing whitespace. */
  function Strip(s: string): (r: string)
    ensures NoEdgeSpace(r)
    ensures exists i :: StripsTo(s, i, r)
    ensures r == [] <==> IsBlank(s)
  {
    var t := TrimStart(s);
    var r := TrimEnd(t);
    TrimmedStrips(s, t, r);
    r
  }

  /** Trimming the start and then the end leaves the slice `Strip` promises. */
  lemma TrimmedStrips(s: string, t: string, r: string)
    requires |t| <= |s| && t == s[|s| - |t|..] && IsBlank(s[..|s| - |t|])
    requires t != [] ==> !IsSpace(t[0])
    requires |r| <= |t| && r == t[..|r|] && IsBlank(t[|r|..])
    requires r != [] ==> !IsSpace(r[|r| - 1])
    ensures NoEdgeSpace(r)
    ensures StripsTo(s, |s| - |t|, r)
    ensures r == [] <==> IsBlank(s)
  {
    var i := |s| - |t|;
    assert s[i..][..|r|] == s[i..i + |r|];
    assert s[i + |r|..] == t[|r|..];
    if r == [] {
      assert t == [];
      forall k | 0 <= k < |s| ensures IsSpace(s[k]) {
        assert s[k] == s[..i][k];
      }
    } else {
      assert r[0] == t[0] == s[i];
    }
  }

  /** Whitespace-free ends and whitespace-only margins pin the stripped string down:
      `Strip` is the unique such slice. */
  lemma StripCharacterization(s: string, r: string)
    ensures r == Strip(s) <==> NoEdgeSpace(r) && exists i :: StripsTo(s, i, r)
  {
    if NoEdgeSpace(r) && exists i :: StripsTo(s, i, r) {
      var i :| StripsTo(s, i, r);
      StripUnique(s, i, r);
    }
  }

  lemma StripUnique(s: string, i: int, r: string)
    requires NoEdgeSpace(r) && StripsTo(s, i, r)
    ensures r == Strip(s)
  {
    var r' := Strip(s);
    var i' :| StripsTo(s, i', r');
    if r == [] {
      BlankHalves(s, i);
    } else if r' == [] {
      assert false;
    } else {
      StripSliceEnds(s, i, r);
      StripSliceEnds(s, i', r');
      SameBoundary(s, i, i');
      SameBoundaryFromEnd(s, i + |r|, i' + |r'|);
      assert r == s[i..i + |r|] && r' == s[i'..i' + |r'|];
    }
  }

  lemma BlankHalves(s: string, i: int)
    requires 0 <= i <= |s| && IsBlank(s[..i]) && IsBlank(s[i..])
    ensures IsBlank(s)
  {
    forall k | 0 <= k < |s| ensures IsSpace(s[k]) {
      if k < i {
        assert s[k] == s[..i][k];
      } else {
        assert s[k] == s[i..][k - i];
      }
    }
  }

  lemma StripSliceEnds(s: string, i: int, r: string)
    requires StripsTo(s, i, r) && r != [] && NoEdgeSpace(r)
    ensures i < |s| && !IsSpace(s[i]) && IsBlank(s[..i])
    ensures 0 < i + |r| <= |s| && !IsSpace(s[i + |r| - 1]) && IsBlank(s[i + |r|..])
  {
    assert r[0] == s[i..i + |r|][0];
    assert r[|r| - 1] == s[i..i + |r|][|r| - 1];
  }

  lemma SameBoundary(s: string, i: int, i': int)
    requires 0 <= i < |s| && 0 <= i' < |s|
    requires !IsSpace(s[i]) && IsBlank(s[..i])
    requires !IsSpace(s[i']) && IsBlank(s[..i'])
    ensures i == i'
  {
  }

  lemma SameBoundaryFromEnd(s: string, j: int, j': int)
    requires 0 < j <= |s| && 0 < j' <= |s|
    requires !IsSpace(s[j - 1]) && IsBlank(s[j..])
    requires !IsSpace(s[j' - 1]) && IsBlank(s[j'..])
    ensures j == j'
  {
  }

  /** A string without whitespace at either end is its own strip. */
  lemma StripKeepsClean(s: string)
    requires NoEdgeSpace(s)
    ensures Strip(s) == s
  {
    assert StripsTo(s, 0, s);
    StripCharacterization(s, s);
  }

  /** `strip()` is idempotent. */
  lemma StripIdempotent(s: string)
    ensures Strip(Strip(s)) == Strip(s)
  {
    StripKeepsClean(Strip(s));
  }

  // ---------------------------------------------------------------------------
  // Searching

  predicate HasPrefix(s: string, p: string) {
    |p| <= |s| && s[..|p|] == p
  }

  /** `t` occurs in `s` at position `i`. */
  predicate OccursAt(s: string, t: string, i: int) {
    0 <= i && i + |t| <= |s| && s[i..i + |t|] == t
  }

  /** An occurrence after the first character is an occurrence in the rest. */
  lemma OccursAtTail(s: string, t: string, i: int)
    requires |s| > 0 && i >= 1
    ensures OccursAt(s, t, i) == OccursAt(s[1..], t, i - 1)
  {
    if i + |t| <= |s| {
      assert s[i..i + |t|] == s[1..][i - 1..i - 1 + |t|];
    }
  }

  /** Python's `s.find(t)`: the first position where `t` occurs, `None` for -1. */
  function Find(s: string, t: string): (r: Option<nat>)
    ensures r.Some? ==> OccursAt(s, t, r.value)
    ensures r.Some? ==> forall i | 0 <= i < r.value :: !OccursAt(s, t, i)
    ensures r.None? ==> forall i :: !OccursAt(s, t, i)
    decreases |s|
  {
    if |t| > |s| then None
    else if s[..|t|] == t then Some(0)
    else
      var rest := Find(s[1..], t);
      assert forall i | 1 <= i :: OccursAt(s, t, i) == OccursAt(s[1..], t, i - 1) by {
        forall i | 1 <= i ensures OccursAt(s, t, i) == OccursAt(s[1..], t, i - 1) {
          OccursAtTail(s, t, i);
        }
      }
      match rest
      case Some(k) => Some(k + 1)
      case None => None
  }

  /** Python's `t in s`. */
  predicate Contains(s: string, t: string) {
    Find(s, t).Some?
  }

  /** Python's `s.find(c)` for one character, with `|s|` for "absent". */
  function IndexOfChar(s: string, c: char): (k: nat)
    ensures k <= |s|
    ensures k < |s| ==> s[k] == c
    ensures forall i | 0 <= i < k :: s[i] != c
    decreases |s|
  {
    if |s| == 0 then 0
    else if s[0] == c then 0
    else 1 + IndexOfChar(s[1..], c)
  }

  /** Python's `s.rfind(c)` for one character, `None` for -1. */
  function LastIndexOfChar(s: string, c: char): (r: Option<nat>)
    ensures r.Some? ==> r.value < |s| && s[r.value] == c
    ensures r.Some? ==> forall i | r.value < i < |s| :: s[i] != c
    ensures r.None? ==> forall i | 0 <= i < |s| :: s[i] != c
    decreases |s|
  {
    if |s| == 0 then None
    else if s[|s| - 1] == c then Some(|s| - 1)
    else LastIndexOfChar(s[..|s| - 1], c)
  }

  // ---------------------------------------------------------------------------
  // Splitting and joining

  /** Python's `s.split(c)`: the pieces between occurrences of `c`, at least one. */
  function SplitOn(s: string, c: char): (r: seq<string>)
    ensures |r| >= 1
    ensures forall p | p in r :: c !in p
    decreases |s|
  {
    var k := IndexOfChar(s, c);
    if k == |s| then [s] else [s[..k]] + SplitOn(s[k + 1..], c)
  }

  /** Python's `sep.join(parts)`. */
  function Join(parts: seq<string>, sep: string): string
    decreases |parts|
  {
    if |parts| == 0 then ""
    else if |parts| == 1 then parts[0]
    else parts[0] + sep + Join(parts[1..], sep)
  }

  /** Joining the pieces of a split with the separator gives back the input. */
  lemma {:induction false} JoinSplitOn(s: string, c: char)
    ensures Join(SplitOn(s, c), [c]) == s
    decreases |s|
  {
    var k := IndexOfChar(s, c);
    if k < |s| {
      JoinSplitOn(s[k + 1..], c);
      assert s == s[..k] + [c] + s[k + 1..];
    }
  }

  /** Splitting a join of separator-free pieces gives back the pieces. */
  lemma {:induction false} SplitOnJoin(parts: seq<string>, c: char)
    requires |parts| >= 1
    requires forall p | p in parts :: c !in p
    ensures SplitOn(Join(parts, [c]), c) == parts
    decreases |parts|
  {
    var p := parts[0];
    assert p in parts;
    if |parts| == 1 {
      SplitOnAbsent(p, c);
    } else {
      var rest := parts[1..];
      assert forall q | q in rest :: q in parts;
      SplitOnJoin(rest, c);
      SplitOnCons(p, Join(rest, [c]), c);
      assert parts == [p] + rest;
    }
  }

  /** A text without the separator is a single piece. */
  lemma SplitOnAbsent(s: string, c: char)
    requires c !in s
    ensures SplitOn(s, c) == [s]
  {
    assert IndexOfChar(s, c) == |s|;
  }

  /** A separator-free piece, the separator, then the rest: the piece comes first. */
  lemma SplitOnCons(p: string, rest: string, c: char)
    requires c !in p
    ensures SplitOn(p + [c] + rest, c) == [p] + SplitOn(rest, c)
  {
    var s := p + [c] + rest;
    assert s[|p|] == c;
    assert forall i | 0 <= i < |p| :: s[i] == p[i];
    assert IndexOfChar(s, c) == |p|;
    assert s[|p| + 1..] == rest;
    assert s[..|p|] == p;
  }

  /** A character absent from `s` is absent from its strip. */
  lemma StripKeepsOut(s: string, c: char)
    requires c !in s
    ensures c !in Strip(s)
  {
    var r := Strip(s);
    var i :| StripsTo(s, i, r);
    forall k | 0 <= k < |r| ensures r[k] != c {
      assert r[k] == s[i..i + |r|][k] == s[i + k];
    }
  }

  /** Splitting at a whitespace character: `s` is blank exactly when every piece is. */
  lemma {:induction false} BlankPieces(s: string, c: char)
    requires IsSpace(c)
    ensures IsBlank(s) <==> forall p | p in SplitOn(s, c) :: IsBlank(p)
    decreases |s|
  {
    var k := IndexOfChar(s, c);
    if k < |s| {
      var head, tail := s[..k], s[k + 1..];
      BlankPieces(tail, c);
      assert SplitOn(s, c) == [head] + SplitOn(tail, c);
      assert s == head + [c] + tail;
      BlankAround(head, c, tail);
      AllBlankCons(head, SplitOn(tail, c));
    }
  }

  lemma BlankAround(a: string, c: char, b: string)
    requires IsSpace(c)
    ensures IsBlank(a + [c] + b) <==> IsBlank(a) && IsBlank(b)
  {
    var s := a + [c] + b;
    assert forall j | 0 <= j < |a| :: s[j] == a[j];
    assert forall j | 0 <= j < |b| :: s[|a| + 1 + j] == b[j];
    if IsBlank(a) && IsBlank(b) {
      forall j | 0 <= j < |s| ensures IsSpace(s[j]) {
        if j < |a| {
          assert s[j] == a[j];
        } else if j > |a| {
          assert s[j] == b[j - |a| - 1];
        }
      }
    }
  }

  lemma AllBlankCons(head: string, rest: seq<string>)
    ensures (forall p | p in [head] + rest :: IsBlank(p)) <==> IsBlank(head) && forall p | p in rest :: IsBlank(p)
  {
    assert head in [head] + rest;
    assert forall p | p in rest :: p in [head] + rest;
  }

  /** End of the run of non-whitespace characters at the front of `s`. */
  function WordEnd(s: string): (k: nat)
    requires |s| > 0 && !IsSpace(s[0])
    ensures 1 <= k <= |s|
    ensures k < |s| ==> IsSpace(s[k])
    ensures NoSpace(s[..k])
    decreases |s|
  {
    if |s| == 1 || IsSpace(s[1]) then 1 else 1 + WordEnd(s[1..])
  }

  /** Python's `s.split()`: the maximal runs of non-whitespace characters. */
  function Words(s: string): (r: seq<string>)
    ensures forall w | w in r :: w != [] && NoSpace(w)
    ensures r == [] <==> IsBlank(s)
    ensures |r| <= |s|
    decreases |s|
  {
    if |s| == 0 then []
    else if IsSpace(s[0]) then
      var r := Words(s[1..]);
      assert IsBlank(s[1..]) ==> IsBlank(s) by {
        if IsBlank(s[1..]) {
          forall i | 0 <= i < |s| ensures IsSpace(s[i]) {
            if i > 0 { assert s[i] == s[1..][i - 1]; }
          }
        }
      }
      r
    else
      var k := WordEnd(s);
      [s[..k]] + Words(s[k..])
  }

  /** Python's `s[:n]` for `n >= 0`. */
  function Take<T>(s: seq<T>, n: nat): (r: seq<T>)
    ensures |r| == (if n < |s| then n else |s|)
    ensures r == s[..|r|]
  {
    if n < |s| then s[..n] else s
  }

  // ---------------------------------------------------------------------------
  // Fusing optional texts

  /** The parts that are not blank, in order. */
  function NonBlank(parts: seq<string>): (r: seq<string>)
    ensures |r| <= |parts|
    ensures forall p | p in r :: p in parts && !IsBlank(p)
    decreases |parts|
  {
    if |parts| == 0 then []
    else (if IsBlank(parts[0]) then [] else [parts[0]]) + NonBlank(parts[1..])
  }

  /** Two texts joined by `sep`, leaving out whichever is blank. */
  function Fuse(a: string, b: string, sep: string): (r: string)
    ensures IsBlank(a) && IsBlank(b) ==> r == ""
    ensures !IsBlank(a) && IsBlank(b) ==> r == a
    ensures IsBlank(a) && !IsBlank(b) ==> r == b
    ensures !IsBlank(a) && !IsBlank(b) ==> r == a + sep + b
  {
    assert [a, b][1..] == [b] && [b][1..] == [];
    assert NonBlank([b]) == (if IsBlank(b) then [] else [b]);
    assert NonBlank([a, b]) == (if IsBlank(a) then [] else [a]) + NonBlank([b]);
    assert Join([a, b], sep) == a + sep + b;
    Join(NonBlank([a, b]), sep)
  }

  // ---------------------------------------------------------------------------
  // Case

  /** Python's `c.lower()` restricted to ASCII: `A`..`Z` become `a`..`z`, all else is kept. */
  function LowerChar(c: char): char {
    if 'A' <= c <= 'Z' then (c as int + 32) as char else c
  }

  function Lower(s: string): (r: string)
    ensures |r| == |s|
    ensures forall i | 0 <= i < |s| :: r[i] == LowerChar(s[i])
  {
    seq(|s|, i requires 0 <= i < |s| => LowerChar(s[i]))
  }

  // ---------------------------------------------------------------------------
  // Integers as decimal text

  predicate IsAsciiDigit(c: char) {
    '0' <= c <= '9'
  }

  function DigitChar(d: nat): (c: char)
    requires d < 10
    ensures IsAsciiDigit(c) && c as int - '0' as int == d
  {
    ('0' as int + d) as char
  }

  /** The value of a run of ASCII digits read as a decimal numeral. */
  function DigitsValue(ds: string): nat
    requires forall i | 0 <= i < |ds| :: IsAsciiDigit(ds[i])
    decreases |ds|
  {
    if |ds| == 0 then 0
    else
      assert IsAsciiDigit(ds[|ds| - 1]);
      DigitsValue(ds[..|ds| - 1]) * 10 + (ds[|ds| - 1] as int - '0' as int)
  }

  /** Python's `str(n)` for a natural number. */
  function NatToString(n: nat): (r: string)
    ensures |r| >= 1
    ensures forall i | 0 <= i < |r| :: IsAsciiDigit(r[i])
    ensures DigitsValue(r) == n
    decreases n
  {
    if n < 10 then [DigitChar(n)]
    else
      var r := NatToString(n / 10) + [DigitChar(n % 10)];
      assert r[..|r| - 1] == NatToString(n / 10);
      r
  }

  /** A number up to 100 has at most three digits. */
  lemma ShortNumeral(n: nat)
    requires n <= 100
    ensures |NatToString(n)| <= 3
  {
    if n >= 10 {
      assert |NatToString(n)| == |NatToString(n / 10)| + 1;
    }
  }

  /** Python's `str(i)` for an integer. */
  function IntToString(i: int): (r: string)
    ensures |r| >= 1
    ensures forall k | 0 <= k < |r| :: IsAsciiDigit(r[k]) || (k == 0 && r[k] == '-')
  {
    if i < 0 then "-" + NatToString(-i) else NatToString(i)
  }

  /** ASCII digits with single underscores allowed between two digits (PEP 515 numerals). */
  predicate IsNumeral(s: string) {
    && |s| >= 1
    && IsAsciiDigit(s[0])
    && IsAsciiDigit(s[|s| - 1])
    && (forall i | 0 <= i < |s| :: IsAsciiDigit(s[i]) || s[i] == '_')
    && (forall i | 0 <= i < |s| - 1 :: s[i] == '_' ==> s[i + 1] != '_')
  }

  function DropUnderscores(s: string): (r: string)
    ensures (forall i | 0 <= i < |s| :: IsAsciiDigit(s[i]) || s[i] == '_') ==>
              forall j | 0 <= j < |r| :: IsAsciiDigit(r[j])
    ensures (forall i | 0 <= i < |s| :: IsAsciiDigit(s[i])) ==> r == s
    decreases |s|
  {
    if |s| == 0 then ""
    else (if s[0] == '_' then "" else [s[0]]) + DropUnderscores(s[1..])
  }

  /** The most digits Python converts between an `int` and decimal text
      (`sys.get_int_max_str_digits()` at its default); more raise `ValueError`. */
  const MaxStrDigits := 4300

  /** The value of a numeral of at most `MaxStrDigits` digits, `None` for anything else. */
  function NumeralValue(body: string): Option<nat> {
    if IsNumeral(body) && |DropUnderscores(body)| <= MaxStrDigits then Some(DigitsValue(DropUnderscores(body)))
    else None
  }

  /** Text of more than `MaxStrDigits` characters, none of them an underscore, has no value. */
  lemma LongNumeralRejected(body: string)
    requires |body| > MaxStrDigits && forall i | 0 <= i < |body| :: body[i] != '_'
    ensures NumeralValue(body).None?
  {
    if IsNumeral(body) {
      assert DropUnderscores(body) == body;
    }
  }

  /** A signed numeral: an optional `+` or `-`, then a numeral. */
  function ParseSigned(t: string): Option<int> {
    if |t| > 0 && t[0] == '-' then
      match NumeralValue(t[1..])
      case Some(v) => Some(-(v as int))
      case None => None
    else
      match NumeralValue(if |t| > 0 && t[0] == '+' then t[1..] else t)
      case Some(v) => Some(v)
      case None => None
  }

  /** Python's `int(s)` in base 10, `None` where Python raises `ValueError`: surrounding
      whitespace, an optional sign, and a numeral of at most `MaxStrDigits` ASCII digits. */
  function ParseInt(s: string): Option<int> {
    ParseSigned(Strip(s))
  }

  lemma DigitsAreNumeral(digits: string)
    requires |digits| >= 1 && forall k | 0 <= k < |digits| :: IsAsciiDigit(digits[k])
    ensures IsNumeral(digits)
    ensures DropUnderscores(digits) == digits
  {
  }

  /** A run of ASCII digits reads back as its own value. */
  lemma ParseDigits(digits: string)
    requires |digits| >= 1 && forall k | 0 <= k < |digits| :: IsAsciiDigit(digits[k])
    requires |digits| <= MaxStrDigits
    ensures ParseSigned(digits) == Some(DigitsValue(digits))
  {
    DigitsAreNumeral(digits);
  }

  lemma NumeralOfDigits(digits: string)
    requires |digits| >= 1 && forall k | 0 <= k < |digits| :: IsAsciiDigit(digits[k])
    requires |digits| <= MaxStrDigits
    ensures NumeralValue(digits) == Some(DigitsValue(digits))
  {
    DigitsAreNumeral(digits);
  }

  /** A minus sign before a numeral negates its value. */
  lemma ParseMinus(d: string, v: nat)
    requires NumeralValue(d) == Some(v)
    ensures ParseSigned("-" + d) == Some(-(v as int))
  {
    var t := "-" + d;
    assert |t| > 0 && t[0] == '-' && t[1..] == d;
  }

  lemma SignOrDigitNotSpace(c: char)
    requires IsAsciiDigit(c) || c == '-'
    ensures !IsSpace(c)
  {
  }

  /** An integer `str` can write out: at most `MaxStrDigits` digits. */
  predicate WithinDigitLimit(i: int) {
    |NatToString(if i < 0 then -i else i)| <= MaxStrDigits
  }

  /** `int(str(i)) == i`. */
  lemma IntToStringRoundTrip(i: int)
    requires WithinDigitLimit(i)
    ensures ParseInt(IntToString(i)) == Some(i)
  {
    if i < 0 {
      assert IntToString(i) == "-" + NatToString(-i);
      NegativeRoundTrip(-i);
    } else {
      assert IntToString(i) == NatToString(i);
      NatRoundTrip(i);
    }
  }

  lemma NatRoundTrip(n: nat)
    requires |NatToString(n)| <= MaxStrDigits
    ensures ParseInt(NatToString(n)) == Some(n)
  {
    var s := NatToString(n);
    ParseDigits(s);
    SignOrDigitNotSpace(s[0]);
    SignOrDigitNotSpace(s[|s| - 1]);
    StripKeepsClean(s);
  }

  lemma NegativeRoundTrip(n: nat)
    requires |NatToString(n)| <= MaxStrDigits
    ensures ParseInt("-" + NatToString(n)) == Some(-(n as int))
  {
    var digits := NatToString(n);
    NumeralOfDigits(digits);
    ParseMinus(digits, n);
    MinusNoEdgeSpace(digits);
    StripKeepsClean("-" + digits);
  }

  lemma MinusNoEdgeSpace(digits: string)
    requires |digits| >= 1 && IsAsciiDigit(digits[|digits| - 1])
    ensures NoEdgeSpace("-" + digits)
  {
    var s := "-" + digits;
    assert s[0] == '-' && s[|s| - 1] == digits[|digits| - 1];
    SignOrDigitNotSpace(s[0]);
    SignOrDigitNotSpace(s[|s| - 1]);
  }
}

=== FILE: wrappers.dfy ===
/** Option and Result, the two failure-carrying shapes the model uses in place of
    Python's `None` and raised exceptions. */
module Wrappers {

  /** A value that may be absent: Python's `Optional[T]` (`None` is `None`). */
  datatype Option<+T> = None | Some(value: T) {

    /** The wrapped value, or `default` when absent (Python's `x if x is not None else default`). */
    function GetOr(default: T): T {
      match this
      case Some(v) => v
      case None => default
    }
  }

  /** Either a result or the error a Python function would have raised. */
  datatype Result<+T, +E> = Ok(value: T) | Err(error: E)
}
